=== FILE: README.md ===
# wordle-trainer in Dafny

A model of the engine behind wordle-trainer, a Wordle assistant. It covers
three parts:

- how a guess is coloured against a solution;
- how the colourings of successive guesses are folded into knowledge about
  the answer (pinned letters, letters ruled out per position, letter-count
  bounds);
- how that knowledge prunes the candidate answers and ranks the next guess.

The repository holds three generations of this engine, and each is modelled
in its own module:

- **the current engine**: `Solver` in `src/algorithm/solver.ts` with
  `GuessResult` in `src/algorithm/guessResult.ts`, plus the helpers in
  `utilities.ts` and `multiScore.ts`;
- **the earlier engine**: `Game` in `src/algorithm/game.ts`;
- **the prototype**: `src/index.ts`, a game that knows its own solution.

Modules, in dependency order:

| module | file | what it holds |
|---|---|---|
| `Wrappers` | wrappers.dfy | `Option` and `Result` for the thrown errors and `undefined` results |
| `Words` | words.dfy | words, letter statuses, the word lists (`Config`), copy counting |
| `Utilities` | utilities.dfy | `groupBy`, `counts`, `letterCounts` |
| `MultiScore` | multiscore.dfy | lexicographic comparison of score vectors and sorting by it |
| `Patterns` | patterns.dfy | the subset of JavaScript regular expressions the engines build: a set of lookaheads and one atom per position, with its acceptance predicate |
| `Evaluator` | evaluator.dfy | `GuessResult`: the two-pass colouring, tallies, `correctLetterCounts`, `generateRegex` |
| `Constraints` | constraints.dfy | the solver's board: the fold of one result into it, its regex, candidate filtering, position inference |
| `Scoring` | scoring.dfy | the solver's scoring histograms and `getWordScore` |
| `Solver` | solver.dfy | the solver's state: construction, `addGuess`, `undoLastGuess`, `reset`, `bestGuesses`, `bestGuess` |
| `Game` | game.dfy | the earlier engine |
| `Prototype` | prototype.dfy | the prototype in `src/index.ts` |

The central facts proved:

- **Colouring.** It is the Wordle colouring. A letter is Correct exactly on an
  exact hit. Otherwise it is Present while that letter's earlier misses are
  fewer than the solution's unmatched copies, and Absent after that. The
  prototype's `indexOf`-based colouring gives the same result.
- **Regexes.** Each regex the engines build is equivalent to an explicit
  predicate on words without line terminators. For the current engine that
  predicate is "consistent with the board".
- **The solution is never pruned.** Folding the true feedback into a board
  keeps the solution consistent, so it stays among the candidates after every
  guess.
- **The state stays valid.** The solver's invariant holds after `addGuess`,
  `undoLastGuess` and `reset`. An undo right after a guess restores the state,
  except that every allowed word becomes a possible guess again.
- **Ranking.** The best guess is a maximum under the engine's ordering.

## Model

| member | source | states |
|---|---|---|
| Utilities.GroupByFold | src/algorithm/utilities.ts:36-42 | the keys are the keys of the items, and each key's value is the reducer folded over that key's items in order, with their indices |
| Utilities.GroupByList | src/algorithm/utilities.ts:29-42 | the list form with a fresh list per key: each key maps to exactly its own items, in order |
| Utilities.GroupBy | src/algorithm/utilities.ts:22-43 | without a reducer or with an undefined initial value the result is the list form as written, in which every key of the data maps to the one shared array holding all of the data (see Findings; `Utilities.GroupByList` is the intended grouping); otherwise every key of the data maps to the reducer folded over that key's items |
| Utilities.FoldAppendIsFirsts | src/algorithm/utilities.ts:30-33 | folding the push reducer over a key's items yields those items in order |
| Utilities.GroupByListAsWrittenSharesOneList | src/algorithm/utilities.ts:29-42 | as written, the list form hands every key the one shared initial array, so every key maps to all of the data |
| Utilities.GroupByListAliasingExample | src/algorithm/utilities.ts:29-42 | on "ab" the written list form maps 'a' to "ab", while the intended one maps it to "a" |
| Utilities.Counts | src/algorithm/utilities.ts:5-10 | each key maps to the number of items with that key, and only keys that occur are present |
| Utilities.CountsSumToLength | src/algorithm/utilities.ts:5-10 | the counts add up to the number of items |
| Utilities.LetterCounts | src/algorithm/utilities.ts:1-3 | the keys are exactly the letters of the string, each mapped to its number of occurrences |
| MultiScore.Compare | src/algorithm/multiScore.ts:11-21 | zero exactly when the vectors agree at every index, with missing elements read as 0 |
| MultiScore.CompareFirstDifference | src/algorithm/multiScore.ts:11-21 | the result is the difference of the elements at the first index where they differ |
| MultiScore.CompareTrailingZero | src/algorithm/multiScore.ts:11-21 | a trailing 0 does not change the comparison, in either direction |
| MultiScore.CompareAntisymmetric | src/algorithm/multiScore.ts:11-21 | swapping the arguments negates the result |
| MultiScore.CompareTransitive | src/algorithm/multiScore.ts:11-21 | at-most and strictly-below both chain, so the comparator is a valid sort order |
| MultiScore.Sort | src/algorithm/multiScore.ts:7-9 | the result is a permutation of the input, in ascending order, or in descending order when `desc` is set |
| Patterns.OtherLettersCopiesIff | src/algorithm/solver.ts:243-245 | the lookahead `([^l]*l){n}`, optionally closed by `[^l]*$`, holds exactly when the word has n copies of l (closed) or at least n (open) |
| Patterns.AnyRunCopiesIff | src/algorithm/game.ts:207-209 | the lookahead `(.*l){n}` holds exactly when the word has at least n copies of l, whether or not it is closed by `[^l]*$` |
| Patterns.ClosedAnyRunAcceptsExtraCopy | src/algorithm/game.ts:207-209 | the closed `.*` lookahead for one 'a' accepts "aa", which has two |
| Patterns.ClosedOtherLettersRejectsExtraCopy | src/algorithm/solver.ts:243-245 | the closed `[^l]*` lookahead for one 'a' rejects "aa" |
| Evaluator.FirstPass | src/algorithm/guessResult.ts:72-86 | after the first loop exactly the exact hits so far are Correct, and each solution letter's remaining count is its copies less its exact hits so far |
| Evaluator.SecondPass | src/algorithm/guessResult.ts:87-97 | after the second loop every position before n has its Wordle status and the later positions are as the first loop left them; each letter's remaining count is its unmatched copies less the Present marks handed out |
| Evaluator.ResultsFromSolution | src/algorithm/guessResult.ts:68-100 | fails exactly when the lengths differ; otherwise the result is the Wordle colouring of the guess against the solution |
| Evaluator.FromSolution | src/algorithm/guessResult.ts:43-66 | fails exactly when the lengths differ; otherwise one entry per letter, coloured against the solution, with tallies and correct letters that agree with the entries |
| Evaluator.FromStatuses | src/algorithm/guessResult.ts:43-66 | fails exactly when the lengths differ; otherwise entry i is (guess[i], i, statuses[i]) and the tallies agree |
| Evaluator.CorrectIffSameLetter | src/algorithm/guessResult.ts:79-86 | position i is Correct exactly when the guess and the solution agree there |
| Evaluator.PresentsAreLeftmostMisses | src/algorithm/guessResult.ts:87-97 | the Present marks of a letter go to its leftmost misses, as many as the solution has unmatched copies |
| Evaluator.LetterHitsAreMinimum | src/algorithm/guessResult.ts:68-100 | the Correct and Present marks of a letter number the smaller of its copies in the guess and in the solution |
| Evaluator.SolutionGuessIsAllCorrect | src/algorithm/guessResult.ts:68-100 | guessing the solution itself colours every position Correct |
| Evaluator.TalliesCountPositions | src/algorithm/guessResult.ts:56-65 | `correctCount` and `wrongPositionCount` are the numbers of Correct and Present positions |
| Evaluator.CorrectLetterCounts | src/algorithm/guessResult.ts:11-18 | a letter is a key exactly when it has a Correct or Present entry, and it maps to the number of them |
| Evaluator.RegexPartsUpTo | src/algorithm/guessResult.ts:102-128 | one atom per entry (the letter, anything but the letter, or any character); a letter must be contained exactly when it is marked Present, as often as it is Present; a letter is forbidden only after an Absent with no Present before it and no Correct anywhere |
| Evaluator.RegexPartsFlags | src/algorithm/guessResult.ts:117-124 | a letter's count is exact exactly when some Absent copy follows a Present copy; a letter is forbidden exactly when it is never Correct and some Absent copy has no Present copy before it |
| Evaluator.GenerateRegex | src/algorithm/guessResult.ts:101-140 | on words without line terminators the regex of one result accepts exactly the words with the Correct letters in place, no Present letter where it was guessed, at least as many copies of each letter as it is marked Present, and no forbidden letter; an exact count is only a lower bound |
| Evaluator.BareAbsentMeansNoCopy | src/algorithm/guessResult.ts:119-126 | an Absent letter with no earlier Present and no Correct anywhere has no copy in the solution |
| Evaluator.SolutionMeetsPresentCount | src/algorithm/guessResult.ts:129-134 | the solution satisfies every must-contain lookahead of its own feedback |
| Evaluator.SolutionAvoidsBareAbsent | src/algorithm/guessResult.ts:135-137 | no letter of the solution is among its feedback's forbidden letters |
| Evaluator.SolutionMatchesOwnRegex | src/algorithm/guessResult.ts:102-140 | the regex built from a guess's feedback accepts the solution that produced it |
| Constraints.EmptyPositions | src/algorithm/solver.ts:73-76 | n positions, none solved and none with excluded letters |
| Constraints.RaiseCounts | src/algorithm/solver.ts:159-170 | a hit letter without an entry gets (hits, 0, GreaterThan); one whose count is below its hits is raised to them as GreaterThan, keeping its solved count; every other entry is unchanged |
| Constraints.AbsorbUpToPositions | src/algorithm/solver.ts:172-184 | each position takes the guess letter as its answer on a Correct if it had none, or appends the letter to its excluded letters on a Present, and is otherwise unchanged |
| Constraints.AbsorbUpToKeys | src/algorithm/solver.ts:172-198 | the loop adds an entry for exactly the Absent letters |
| Constraints.AbsorbUpToHit | src/algorithm/solver.ts:172-198 | a hit letter's solved count grows by its newly pinned positions, and it becomes Exactly once any copy is Absent |
| Constraints.AbsorbUpToMiss | src/algorithm/solver.ts:185-198 | a letter with no hits that is Absent is overwritten with (0, 0, Exactly); otherwise its entry is unchanged |
| Constraints.AbsorbResult | src/algorithm/solver.ts:158-198 | after the whole fold each position is absorbed from its own entry alone, and the letters with an entry are the old ones plus every letter of the guess |
| Constraints.AbsorbResultHit | src/algorithm/solver.ts:159-198 | the full new entry of a hit letter: the count raised to its hits if below them, solved grown by new pins, Exactly if any copy is Absent, else GreaterThan if raised, else unchanged |
| Constraints.AbsorbResultMiss | src/algorithm/solver.ts:185-198 | the full new entry of a letter with no hits: (0, 0, Exactly) if Absent, else unchanged |
| Constraints.BoardPattern | src/algorithm/solver.ts:233-261 | on words without line terminators the board's regex accepts exactly the words that fit the position atoms and have at least each non-banned letter's count, exactly that count only when the count is exact and the filler is `[^l]*` |
| Constraints.SolverPattern | src/algorithm/solver.ts:233-261 | on words without line terminators, the solver's regex accepts exactly the words consistent with the board: pinned letters in place, no excluded or banned letter at an open position, and every non-banned letter with at least (or exactly) its count |
| Constraints.FilterKeepsConsistent | src/algorithm/solver.ts:201-208 | filtering candidates without line terminators by the solver's regex keeps exactly those consistent with the board |
| Constraints.InferredLetter | src/algorithm/solver.ts:216-223 | a letter is inferred exactly when the candidates are non-empty and agree at that position, and it is their common letter |
| Constraints.InferPositions | src/algorithm/solver.ts:210-227 | solved positions are unchanged; an open one keeps its excluded letters and is pinned exactly when all remaining candidates agree there |
| Constraints.FeedbackCounts | src/algorithm/guessResult.ts:68-100 | a letter's hits never exceed its copies in the solution, and equal them once any copy is Absent |
| Constraints.AbsorbLetterKeepsSolution | src/algorithm/solver.ts:159-198 | after folding in the true feedback, every non-banned entry's count bound holds for the solution, and a newly banned letter is absent from it |
| Constraints.AbsorbPositionKeepsSolution | src/algorithm/solver.ts:172-198 | after folding in the true feedback, the solution fits every position: the pinned letter, or not an excluded or banned one |
| Constraints.AbsorbKeepsSolution | src/algorithm/solver.ts:158-199 | folding the true feedback into a board consistent with the solution leaves it consistent |
| Constraints.InferKeepsSolution | src/algorithm/solver.ts:210-227 | pinning positions from candidates that include the solution keeps the board consistent with it |
| Constraints.NothingKnownAdmitsAll | src/algorithm/solver.ts:73-76 | the empty board is consistent with every word of its length |
| Scoring.SkipSolvedFold | src/algorithm/solver.ts:336-346 | the reducer that skips solved positions folds to the number of the letter's copies at unsolved positions |
| Scoring.UnsolvedLetterCounts | src/algorithm/solver.ts:336-346 | the keys are the word's letters, each mapped to its copies at positions not solved as that letter |
| Scoring.CountHistRow | src/algorithm/solver.ts:335-355 | a letter's count row maps each k to the number of candidates with at least k unsolved copies; the letter has a row exactly when that is non-empty |
| Scoring.PosHistRow | src/algorithm/solver.ts:358-366 | a letter's position row maps each i to the number of candidates with the letter at unsolved position i |
| Scoring.CountHistAdd | src/algorithm/solver.ts:348-354 | adding one word's unsolved letter counts to the count rows gives the rows of the candidates with that word added |
| Scoring.PosHistAdd | src/algorithm/solver.ts:358-365 | adding one word's unsolved positions to the position rows gives the rows of the candidates with that word added |
| Scoring.HistogramOfNothing | src/algorithm/solver.ts:332-369 | with no candidates both tables are empty |
| Scoring.BuildCountHist | src/algorithm/solver.ts:333-355 | the first loop builds exactly the count rows of the candidates, in any iteration order |
| Scoring.BuildPosHist | src/algorithm/solver.ts:357-366 | the second loop builds exactly the position rows of the candidates, in any iteration order |
| Scoring.GetScoreHistogram | src/algorithm/solver.ts:332-369 | the histogram is exactly the two tables of the candidates |
| Scoring.TallyKeys | src/algorithm/solver.ts:375-410 | the counted letters and the set-aside letters are each recorded once, and every set-aside letter has a board entry |
| Scoring.TallyCounted | src/algorithm/solver.ts:375-410 | a counted letter's tally is its number of counted positions, and its stored position is the last of them |
| Scoring.TallyTricky | src/algorithm/solver.ts:384-397 | a set-aside letter's entry lists its set-aside positions in order |
| Scoring.LookupDown | src/algorithm/solver.ts:413-419 | the count score is the row entry at the largest key from 1 to n the row holds, and 0 when it holds none |
| Scoring.TieBreaker | src/algorithm/solver.ts:463-464 | 2 exactly for a remaining candidate, 1 for another answer word, 0 otherwise |
| Scoring.GetWordScore | src/algorithm/solver.ts:371-467 | a vector of a non-negative major score, a non-negative minor score and the tie-breaker |
| Scoring.NothingCountedScoresZero | src/algorithm/solver.ts:375-410 | a word none of whose positions is counted or set aside scores (0, 0) before its tie-breaker |
| Scoring.NoCandidatesScoresZero | src/algorithm/solver.ts:371-467 | against the histogram of no candidates, every word scores (0, 0, tie-breaker) |
| Scoring.EmptyHistogramScoresZero | src/algorithm/solver.ts:411-461 | with both tables empty, the major and minor scores are 0 |
| Solver.LetterStatesOf | src/algorithm/solver.ts:144-156 | a letter with an entry is Correct when some copy is solved, else Present when its count is positive, else Absent |
| Solver.Init | src/algorithm/solver.ts:66-78 | the new solver has no guesses or undo records, the requested number of open positions, no constraints or letter states, every answer as a candidate, every allowed word as a guess, and the histogram of all answers |
| Solver.InitValid | src/algorithm/solver.ts:57-78 | the new solver satisfies the state invariant |
| Solver.NewUndoData | src/algorithm/solver.ts:132-142 | the undo record holds the guess and copies of the constraints and positions, with no pruned words yet |
| Solver.UpdateLetterPossibilities | src/algorithm/solver.ts:158-231 | only the board, the candidates, the last undo record's pruned words and the histogram change: earlier undo records, the last record's guess and snapshots, the guesses, `solved`, the possible guesses and the letter states are kept, and the last record's pruned words are exactly the candidates dropped; the candidates only shrink, and the histogram is rebuilt from them |
| Solver.AddGuess | src/algorithm/solver.ts:120-130 | fails exactly on a solved game; otherwise it appends the guess and an undo record holding the pre-guess knowledge and exactly the pruned words, sets solved to "all Correct", and rebuilds the letter states and the histogram |
| Solver.AddGuessUpdates | src/algorithm/solver.ts:158-231 | the new constraints are the fold of the result; the candidates are those the new regex accepts, which are exactly the consistent ones, and the old candidates split into kept and pruned; positions are then inferred from the kept ones |
| Solver.AddGuessKeepsAnswers | src/algorithm/solver.ts:172-227 | a solved position keeps its answer, and a Present entry appends its letter to the position's excluded letters |
| Solver.AddGuessValid | src/algorithm/solver.ts:120-130 | a successful `addGuess` preserves the state invariant |
| Solver.UndoLastGuess | src/algorithm/solver.ts:80-104 | with no undo data it is a no-op, and its only failure is malformed undo data |
| Solver.UndoNeverMalformed | src/algorithm/solver.ts:85-87 | in a valid state the malformed-undo error cannot happen |
| Solver.UndoValid | src/algorithm/solver.ts:80-104 | undoing preserves the state invariant |
| Solver.UndoRestoresGuesses | src/algorithm/solver.ts:90-92 | after an undo of a recorded guess, every allowed word is a possible guess again |
| Solver.AddThenUndo | src/algorithm/solver.ts:80-130 | undoing a guess just added restores the earlier state, except that every allowed word is a possible guess again |
| Solver.Reset | src/algorithm/solver.ts:106-118 | no guesses or undo data, not solved, the same number of empty positions, no constraints or letter states, and the full word lists |
| Solver.ResetValid | src/algorithm/solver.ts:106-118 | the reset state is valid and equal to a freshly constructed solver of the same length |
| Solver.SolutionSurvives | src/algorithm/solver.ts:158-231 | the true solution, if consistent and a candidate before a guess, is still both after that guess's feedback is added |
| Solver.InitAdmitsAnswers | src/algorithm/solver.ts:67-78 | every answer word of the board's length starts as a candidate consistent with the empty board |
| Solver.AllAtTop | src/algorithm/solver.ts:266-272 | each candidate exactly once, each with the score 100 |
| Solver.ScoreAll | src/algorithm/solver.ts:280-289 | the kept words are exactly the possible guesses with a non-zero major score; each is listed once, with its own score |
| Solver.Rank | src/algorithm/solver.ts:291-324 | sorted best first; the first `top` entries (all when `top` is 0, `slice`'s reading of a negative `top` otherwise); no word left out scores above one kept |
| Solver.BestGuesses | src/algorithm/solver.ts:263-325 | none for no candidates; one or two candidates all at 100 with the state unchanged; otherwise zero-scoring guesses are dropped from the possible guesses and the rest are ranked best first, with nothing left out scoring higher |
| Solver.BestGuess | src/algorithm/solver.ts:327-330 | none exactly when nothing is left to rank; a remaining candidate when one or two are left; otherwise a possible guess that no other possible guess outscores |
| Game.FromSolution | src/algorithm/game.ts:81-113 | fails exactly when the lengths differ; otherwise the Wordle colouring with agreeing tallies |
| Game.FromStatuses | src/algorithm/game.ts:57-79 | fails exactly when the lengths differ; otherwise the statuses are taken position by position with agreeing tallies |
| Game.AsCurrent | src/algorithm/game.ts:27-34 | a well-formed result of this engine is a well-formed result of the current engine with the same entries, so `correctLetterCounts` agrees |
| Game.AbsorbPositionUnguarded | src/algorithm/game.ts:161-186 | the unguarded lookup of a hit letter always finds an entry, and the step keeps every hit letter present |
| Game.AbsorbUpToUnguarded | src/algorithm/game.ts:161-186 | the whole loop keeps every hit letter present and the number of positions unchanged |
| Game.UnguardedFoldIsCurrentFold | src/algorithm/game.ts:174-185 | once the counts are raised, the unguarded loop equals the current engine's guarded one |
| Game.AbsorbResultUnguarded | src/algorithm/game.ts:148-186 | this engine's fold of a result is the current engine's fold |
| Game.FilterPattern | src/algorithm/game.ts:197-225 | on words without line terminators the regex accepts exactly the words that fit the positions and meet every count as a lower bound, even when the count is exact |
| Game.FilterIgnoresExactCount | src/algorithm/game.ts:207-209 | with 'a' known to occur exactly once, this engine's regex accepts "aa", and the current engine's rejects it |
| Game.NewGame | src/algorithm/game.ts:121-137 | no guesses, not solved, the requested number of open positions, no constraints, and the full word lists |
| Game.NewGameAdmitsAll | src/algorithm/game.ts:130-137 | the new game's regex accepts every word of its length |
| Game.Guess | src/algorithm/game.ts:139-195 | fails exactly on a solved game; otherwise it appends the result, sets solved to "all Correct", folds the result into the board as the current engine does, shrinks the candidates, and leaves the possible guesses alone |
| Game.GuessFilters | src/algorithm/game.ts:188-194 | a candidate survives exactly when it fits the new board's positions and meets its counts as lower bounds |
| Game.GuessKeepsSolution | src/algorithm/game.ts:139-195 | the true solution, consistent and a candidate before a guess, stays both after that guess's feedback is added |
| Game.LetterHistAdd | src/algorithm/game.ts:242-248 | counting one more word adds one to each of its distinct letters at unsolved positions |
| Game.HistLettersCounted | src/algorithm/game.ts:241-249 | a letter has an entry exactly when some candidate holds it at an unsolved position |
| Game.CountWord | src/algorithm/game.ts:243-248 | the inner loop adds one per distinct unsolved letter of the word, skipping repeats |
| Game.BuildLetterHist | src/algorithm/game.ts:241-249 | each letter maps to the number of candidates that hold it at some unsolved position, in any iteration order |
| Game.ScoreStep | src/algorithm/game.ts:280-309 | a letter's first occurrence adds its histogram entry exactly when it is awarded, and later occurrences add nothing |
| Game.GetWordScore | src/algorithm/game.ts:270-312 | the score is the sum, over the word's distinct letters, of the histogram entry of those whose first occurrence is not solved as it, not banned, not excluded there, and not fully pinned at an exact count |
| Game.LeadsStep | src/algorithm/game.ts:252-261 | one iteration keeps "the best so far is not beaten by any word seen" |
| Game.RankGuesses | src/algorithm/game.ts:251-265 | the best word is unbeaten in (score, tie-breaker) order among all possible guesses, and the kept guesses are exactly those with a non-zero score |
| Game.BestGuess | src/algorithm/game.ts:227-268 | none for no candidates and the sole candidate for one, with the state unchanged; otherwise zero-scoring guesses are dropped, and the answer is a possible guess beating (0, 0) that no other beats, or none exactly when nothing beats (0, 0) |
| Prototype.IndexOf | src/index.ts:76 | -1 exactly when the letter is not among the unclaimed letters, otherwise the index of its first unclaimed copy |
| Prototype.ExactPass | src/index.ts:65-71 | after the first loop exactly the exact hits are Correct, their solution letters are struck from the pool of unclaimed letters, and `correctCount` counts them |
| Prototype.SearchPassShape | src/index.ts:72-84 | the second loop assigns a status to every position it passes, Correct exactly at exact hits, and leaves later ones untouched |
| Prototype.SearchPassTallies | src/index.ts:65-84 | the two tallies count the Correct and WrongPosition statuses |
| Prototype.SearchPoolCount | src/index.ts:72-84 | after n steps a letter's unclaimed copies are its unmatched copies less those handed to its misses so far |
| Prototype.SearchPassStatus | src/index.ts:72-84 | every status the second loop leaves is the Wordle status |
| Prototype.NewGuessResult | src/index.ts:53-88 | fails exactly when the lengths differ; otherwise the Wordle colouring, with the tallies counting Correct and WrongPosition |
| Prototype.CorrectCountIsExactHits | src/index.ts:65-71 | `correctCount` is the number of positions where guess and solution agree |
| Prototype.SolvedIffAllCorrect | src/index.ts:116-119 | the guess equals the solution exactly when its colouring is all Correct |
| Prototype.NewGame | src/index.ts:102-107 | the given solution, no guesses, not solved, one open position per letter of the solution, no constraints |
| Prototype.RaiseAll | src/index.ts:124-133 | a hit letter without an entry, or below its hits, gets (hits, GreaterThan); every other entry is unchanged |
| Prototype.Update | src/index.ts:135-142 | every position takes its own mark: a Correct always overwrites the position's answer, and a WrongPosition appends to its excluded letters |
| Prototype.UpdateLetter | src/index.ts:123-155 | a hit letter ends with its raised count, Exactly once any copy is NotPresent; a letter with only NotPresent copies gets (0, Exactly); every other entry is unchanged |
| Prototype.Guess | src/index.ts:109-121 | an unknown word is refused first, then a solved game, then a length mismatch, each with its own error; otherwise the result is recorded, solved means all Correct, and the board takes the update |
| Prototype.ProtoPattern | src/index.ts:158-195 | in both modes the regex accepts exactly the words that fit the position atoms and meet the wanted counts as lower bounds |
| Prototype.DiscoveryAvoidsKnownLetters | src/index.ts:168-191 | in discovery mode an accepted word holds no letter whose wanted count is used up, and at a solved position neither the answer nor a looked-for letter |
| Prototype.NormalKeepsAnswers | src/index.ts:182-184 | in normal mode an accepted word has every pinned letter in place |

## Left out

- The word lists (`data/*.json`) become the parameter `Config`: a set of valid words and a set of answer words.
- The percentage bands of `bestGuesses` (src/algorithm/solver.ts:293-321) are left out, because they are floating-point ratios that do not affect the ranking or the choice.
- The prototype's letter probabilities and its search for a guess (src/index.ts:9-14 and 197-236) are left out, because they sum floating-point probabilities. The script at the end of src/index.ts (239-253) writes to the console and is left out too.
- `pretty()` in all three engines is left out; it only formats output.
- `randomItemFromSet`, `sleep` and `htmlToElement` are left out, because they use randomness, timers and the DOM. `main.ts`, `input.ts`, `AlertManager.ts` and the scripts under `node/` are not part of this model.
- Regular expressions are modelled as the `Patterns` AST: the lookahead and atom shapes the engines build, with `.` not matching a JavaScript line terminator. The equivalence lemmas are stated for words without line terminators, and the regex engine itself is not modelled.
- Set iteration order is not modelled, and the methods iterate sets in an arbitrary order. Consequences:
  - which of several equally ranked words `Game.BestGuess` returns is left open;
  - the order of equally scored words in `Solver.Rank` is left open;
  - the pruned words of an undo record are a set rather than a list.
- Solver.UndoLastGuess: the source pops the undo record before it detects malformed undo data, so that record is lost when it throws. The model returns the error without a new state. Guess results are compared by value, where the source compares object identity.
- Solver.AddGuess, Game.Guess: require the guess to be as long as the board. In the source a shorter guess leaves the later positions untouched. In a longer guess, a Correct or Present mark past the board reads a position that does not exist and throws. An Absent mark there only updates the letter constraints (src/algorithm/solver.ts:172-198, src/algorithm/game.ts:161-186).
- Scoring.GetWordScore: its contract states the shape and the tie-breaker only. What the major and minor scores are built from is stated by `Scoring.TallyCounted`, `Scoring.TallyTricky` and `Scoring.TallyKeys`. Their zero cases are stated by the `ScoresZero` lemmas.
- The error "Tricky letter adjustment for letter not in must contain list" (src/algorithm/solver.ts:427-429) cannot happen, because `Scoring.TallyKeys` shows every set-aside letter has an entry. The model has no branch for it.
- The `bannedLetters` sets built in both `bestGuess` methods (src/algorithm/game.ts:234-239, src/algorithm/solver.ts:274-279) are never read, so they are not modelled.
- The `TypeError` for a second argument that is neither a string nor an array (src/algorithm/guessResult.ts:53-55) cannot be reached from typed callers and is not modelled.
- Words are sequences of Unicode scalar values. The source mixes code-point iteration (`[...guess]` at src/algorithm/guessResult.ts:74, `Array.from` at src/algorithm/game.ts:244 and src/algorithm/utilities.ts:2) with code-unit indexing (`word[i]`). The two differ only for characters outside the Basic Multilingual Plane, which the lower-case word lists do not hold.
- Solver.BestGuesses: takes `top` as a parameter; the source's default of 10 (`bestGuesses(top = 10)`) is not modelled.
- Evaluator.GenerateRegex: the optional `flags` argument (src/algorithm/guessResult.ts:102, passed to `new RegExp` at line 139) is not modelled; no caller passes it, so the pattern is always built without flags.
- JavaScript numbers are modelled as unbounded integers. Every count involved is bounded by word lengths and list sizes, far below 2^53.

## Findings

| source | as written | input that shows it | evidently intended | confidence | as-written member | corrected member |
|---|---|---|---|---|---|---|
| src/algorithm/utilities.ts:29-42 | without a reducer, every new key starts from the one `[]` created as the initial value, and the reducer pushes into the array it is given, so every key ends up sharing one array holding all the items | grouping the letters of "ab" by themselves gives 'a' the list "ab" | each key maps to its own items, here 'a' to "a" | high; not executed, and no caller in the engines uses this form | Utilities.GroupByListAliasingExample | Utilities.GroupByList |
| src/algorithm/game.ts:207-209 | the exact-count lookahead is `(.*l){n}[^l]*$`; the `.*` runs can swallow extra copies of `l`, so an Exactly count is only checked as a lower bound (the same construction is at src/algorithm/guessResult.ts:131-133 and src/index.ts:174) | a board where 'a' occurs exactly once still accepts "aa" | exactly n copies, as src/algorithm/solver.ts:243-245 achieves with `([^l]*l){n}[^l]*$` | high; not executed | Game.FilterIgnoresExactCount | Constraints.SolverPattern |

## Where the model follows the code

- When a guess colours a letter Absent and none of its copies Correct or Present, the current engine replaces that letter's entry with "exactly 0 copies", even if an earlier guess recorded a positive count (src/algorithm/solver.ts:186-197). With truthful feedback the earlier count cannot be positive, so `Constraints.AbsorbKeepsSolution` still holds.
- Banned letters are excluded only at open positions. A solved position's atom is its letter, whatever is banned (src/algorithm/solver.ts:249-257).
- In the prototype a Correct overwrites an already pinned answer (src/index.ts:138-139). The current engine keeps the first one and counts the pin as solved.
- The earlier engine checks the solved position before the banned letters when scoring (src/algorithm/game.ts:285-307). Every check skips the letter, so the order does not change the score.

=== FILE: constraints.dfy ===
/**
 * The constraint model of the current engine: what is known about each
 * board position and about each letter's count, how one guess result is
 * folded into it, the pattern candidates are filtered with, and the
 * inference of solved positions from the remaining candidates.
 */
module Constraints {
  import opened Wrappers
  import opened Words
  import opened Patterns
  import opened Evaluator

  /** `CountSpecificity`: the count is exact, or a lower bound. */
  datatype Specificity = Exactly | GreaterThan

  /** `MustContain` (its `letter` field repeats the map key and is dropped). */
  datatype MustContain = MustContain(count: nat, solved: nat, specificity: Specificity)

  /** `PositionData`: the letter pinned here, and letters known not to be here. */
  datatype PositionData = PositionData(answer: Option<char>, cantBe: seq<char>)

  /** The positions and the `answerMustContain` map, updated together. */
  datatype Board = Board(positions: seq<PositionData>, constraints: map<char, MustContain>)

  function EmptyPositions(n: nat): (ps: seq<PositionData>)
    ensures |ps| == n
    ensures forall i :: 0 <= i < n ==> ps[i].answer.None? && ps[i].cantBe == []
  {
    seq(n, _ => PositionData(None, []))
  }

  /** Exactly zero copies: the letter is excluded. */
  predicate Banned(mc: MustContain)
  {
    mc.specificity == Exactly && mc.count == 0
  }

  function BannedLetters(constraints: map<char, MustContain>): set<char>
  {
    set c | c in constraints && Banned(constraints[c])
  }

  // ---------------------------------------------------------------------
  // Folding one result in.

  /** The first loop of `updateLetterPossibilities`: each letter's count is
      raised to the guess's Correct+Present count when that is larger,
      becoming a lower bound and keeping its `solved` tally. */
  function RaiseCounts(constraints: map<char, MustContain>, hits: map<char, nat>): (r: map<char, MustContain>)
    ensures r.Keys == constraints.Keys + hits.Keys
    ensures forall c :: c in hits ==> r[c].count >= hits[c]
    ensures forall c :: c in r && c in constraints ==> r[c].count >= constraints[c].count && r[c].solved == constraints[c].solved
    ensures forall c :: c in r && c !in constraints ==> r[c] == MustContain(hits[c], 0, GreaterThan)
    ensures forall c :: c in r && c in constraints ==>
      r[c] == if c in hits && constraints[c].count < hits[c]
              then MustContain(hits[c], constraints[c].solved, GreaterThan) else constraints[c]
  {
    map c | c in constraints.Keys + hits.Keys ::
      if c in hits && (c !in constraints || constraints[c].count < hits[c])
      then MustContain(hits[c], if c in constraints then constraints[c].solved else 0, GreaterThan)
      else constraints[c]
  }

  /** Positions before `n` marked Correct for letter `c` that had no answer yet. */
  function NewPins(gr: GuessResult, positions: seq<PositionData>, c: char, n: nat): nat
    requires n <= |gr.result| && n <= |gr.guess| && n <= |positions|
  {
    if n == 0 then 0
    else
      var pinned := gr.result[n - 1].status == Correct && gr.guess[n - 1] == c && positions[n - 1].answer.None?;
      NewPins(gr, positions, c, n - 1) + if pinned then 1 else 0
  }

  /** The first half of step `i`: a Correct letter is pinned on a position
      without an answer and counted as solved; a Present letter is ruled out
      here. */
  function MarkPosition(gr: GuessResult, i: nat, b: Board): Board
    requires i < |gr.guess| && i < |gr.result| && i < |b.positions|
  {
    var letter := gr.guess[i];
    var status := gr.result[i].status;
    var pos := b.positions[i];
    if status == Correct && pos.answer.None? then
      Board(b.positions[i := pos.(answer := Some(letter))],
            if letter in b.constraints
            then b.constraints[letter := b.constraints[letter].(solved := b.constraints[letter].solved + 1)]
            else b.constraints)
    else if status == Present then
      Board(b.positions[i := pos.(cantBe := pos.cantBe + [letter])], b.constraints)
    else b
  }

  /** Step `i` of the second loop of `updateLetterPossibilities`. */
  function AbsorbPosition(gr: GuessResult, hits: map<char, nat>, i: nat, b: Board): Board
    requires i < |gr.guess| && i < |gr.result| && i < |b.positions|
  {
    var letter := gr.guess[i];
    var status := gr.result[i].status;
    var b1 := MarkPosition(gr, i, b);
    if status == Absent then
      if letter in hits && letter in b1.constraints then
        b1.(constraints := b1.constraints[letter := b1.constraints[letter].(specificity := Exactly)])
      else
        b1.(constraints := b1.constraints[letter := MustContain(0, 0, Exactly)])
    else b1
  }

  /** What the guess says about position `i` on its own. */
  function Absorbed(gr: GuessResult, pos: PositionData, i: nat): PositionData
    requires i < |gr.guess| && i < |gr.result|
  {
    if gr.result[i].status == Correct && pos.answer.None? then pos.(answer := Some(gr.guess[i]))
    else if gr.result[i].status == Present then pos.(cantBe := pos.cantBe + [gr.guess[i]])
    else pos
  }

  /** The letters marked Absent before `n`. */
  function AbsentLetters(gr: GuessResult, n: nat): set<char>
    requires n <= |gr.result| && n <= |gr.guess|
  {
    set i | 0 <= i < n && gr.result[i].status == Absent :: gr.guess[i]
  }

  /** The preconditions shared by the fold and its lemmas. */
  ghost predicate AbsorbReady(gr: GuessResult, hits: map<char, nat>, b: Board)
  {
    && WellFormed(gr) && |gr.guess| == |b.positions|
    && (forall c :: c in hits ==> c in b.constraints)
    && (forall c :: c in hits <==> Hits(gr.result, c, |gr.result|) > 0)
  }

  /** The board after the first `n` steps of the second loop, started from `b`. */
  function AbsorbUpTo(gr: GuessResult, hits: map<char, nat>, n: nat, b: Board): (r: Board)
    requires AbsorbReady(gr, hits, b) && n <= |gr.guess|
    ensures |r.positions| == |b.positions|
    ensures forall i :: n <= i < |r.positions| ==> r.positions[i] == b.positions[i]
  {
    if n == 0 then b
    else AbsorbPosition(gr, hits, n - 1, AbsorbUpTo(gr, hits, n - 1, b))
  }

  /** Every position before `n` has taken in its own mark, once. */
  lemma {:induction false} AbsorbUpToPositions(gr: GuessResult, hits: map<char, nat>, n: nat, b: Board)
    requires AbsorbReady(gr, hits, b) && n <= |gr.guess|
    ensures forall i :: 0 <= i < n ==> AbsorbUpTo(gr, hits, n, b).positions[i] == Absorbed(gr, b.positions[i], i)
  {
    if n > 0 {
      AbsorbUpToPositions(gr, hits, n - 1, b);
    }
  }

  /** One step adds the letter to the constrained ones when it is Absent. */
  lemma AbsorbPositionKeys(gr: GuessResult, hits: map<char, nat>, i: nat, b: Board)
    requires i < |gr.guess| && i < |gr.result| && i < |b.positions|
    ensures forall c :: c in AbsorbPosition(gr, hits, i, b).constraints <==>
      c in b.constraints || (gr.result[i].status == Absent && c == gr.guess[i])
  {
  }

  lemma AbsentLettersStep(gr: GuessResult, n: nat)
    requires 0 < n <= |gr.result| && n <= |gr.guess|
    ensures AbsentLetters(gr, n) ==
      AbsentLetters(gr, n - 1) + if gr.result[n - 1].status == Absent then {gr.guess[n - 1]} else {}
  {
    if gr.result[n - 1].status == Absent {
      assert gr.guess[n - 1] in AbsentLetters(gr, n);
    }
  }

  /** The letters constrained afterwards: those before, and every Absent letter. */
  lemma {:induction false} AbsorbUpToKeys(gr: GuessResult, hits: map<char, nat>, n: nat, b: Board)
    requires AbsorbReady(gr, hits, b) && n <= |gr.guess|
    ensures forall c :: c in AbsorbUpTo(gr, hits, n, b).constraints <==> c in b.constraints || c in AbsentLetters(gr, n)
  {
    if n > 0 {
      AbsorbUpToKeys(gr, hits, n - 1, b);
      var prev := AbsorbUpTo(gr, hits, n - 1, b);
      AbsorbPositionKeys(gr, hits, n - 1, prev);
      AbsentLettersStep(gr, n);
      assert AbsorbUpTo(gr, hits, n, b) == AbsorbPosition(gr, hits, n - 1, prev);
    }
  }

  /** A letter the guess hit keeps its entry; it gains one `solved` per newly
      pinned position and becomes exact once an Absent copy is seen. */
  lemma {:induction false} AbsorbUpToHit(gr: GuessResult, hits: map<char, nat>, n: nat, b: Board, c: char)
    requires AbsorbReady(gr, hits, b) && n <= |gr.guess| && c in hits
    ensures c in AbsorbUpTo(gr, hits, n, b).constraints
    ensures AbsorbUpTo(gr, hits, n, b).constraints[c] == b.constraints[c].(
              solved := b.constraints[c].solved + NewPins(gr, b.positions, c, n),
              specificity := if Tagged(gr.result, c, Absent, n) > 0 then Exactly else b.constraints[c].specificity)
  {
    if n > 0 {
      AbsorbUpToHit(gr, hits, n - 1, b, c);
      var prev := AbsorbUpTo(gr, hits, n - 1, b);
      assert prev.positions[n - 1] == b.positions[n - 1];
      assert gr.result[n - 1].letter == gr.guess[n - 1];
      AbsorbPositionHit(gr, hits, n - 1, prev, c);
      var absent := gr.guess[n - 1] == c && gr.result[n - 1].status == Absent;
      assert Tagged(gr.result, c, Absent, n) == Tagged(gr.result, c, Absent, n - 1) + if absent then 1 else 0;
    }
  }

  /** One step on a letter that already has an entry: a new pin of it adds
      one to `solved`, an Absent copy of it makes the count exact. */
  lemma AbsorbPositionHit(gr: GuessResult, hits: map<char, nat>, i: nat, b: Board, c: char)
    requires i < |gr.guess| && i < |gr.result| && i < |b.positions|
    requires c in hits && c in b.constraints
    ensures c in AbsorbPosition(gr, hits, i, b).constraints
    ensures var mc := b.constraints[c];
      AbsorbPosition(gr, hits, i, b).constraints[c] ==
        if gr.guess[i] != c then mc
        else if gr.result[i].status == Correct && b.positions[i].answer.None? then mc.(solved := mc.solved + 1)
        else if gr.result[i].status == Absent then mc.(specificity := Exactly)
        else mc
  {
  }

  lemma {:induction false} AbsorbUpToMiss(gr: GuessResult, hits: map<char, nat>, n: nat, b: Board, c: char)
    requires AbsorbReady(gr, hits, b) && n <= |gr.guess| && c !in hits
    requires c in AbsorbUpTo(gr, hits, n, b).constraints
    ensures if Tagged(gr.result, c, Absent, n) > 0
            then AbsorbUpTo(gr, hits, n, b).constraints[c] == MustContain(0, 0, Exactly)
            else c in b.constraints && AbsorbUpTo(gr, hits, n, b).constraints[c] == b.constraints[c]
  {
    if n > 0 {
      var i := n - 1;
      HitAtMeansHit(gr.result, i);
      var prev := AbsorbUpTo(gr, hits, n - 1, b);
      if gr.guess[i] == c && gr.result[i].status == Absent {
      } else {
        assert c in prev.constraints;
        AbsorbUpToMiss(gr, hits, n - 1, b, c);
      }
    } else {
      assert Tagged(gr.result, c, Absent, 0) == 0;
    }
  }

  /** A Correct or Present mark makes its letter a key of `correctLetterCounts()`. */
  lemma HitAtMeansHit(result: seq<LetterResult>, i: nat)
    requires i < |result|
    ensures result[i].status != Absent ==> Hits(result, result[i].letter, |result|) > 0
  {
    HitsMonotone(result, result[i].letter, i + 1, |result|);
  }

  lemma {:induction false} HitsMonotone(result: seq<LetterResult>, c: char, m: nat, n: nat)
    requires m <= n <= |result|
    ensures Hits(result, c, m) <= Hits(result, c, n)
    decreases n - m
  {
    if m < n {
      HitsMonotone(result, c, m, n - 1);
    }
  }

  /** `updateLetterPossibilities`, its constraint part: raise the counts, then
      fold every position in. Each position takes in its own mark alone; the
      letters constrained afterwards are those before and every letter of the
      guess. What each letter's entry becomes is `AbsorbResultHit` and
      `AbsorbResultMiss`. */
  function AbsorbResult(b: Board, gr: GuessResult): (r: Board)
    requires WellFormed(gr) && |gr.guess| == |b.positions|
    ensures |r.positions| == |b.positions|
    ensures forall i :: 0 <= i < |b.positions| ==> r.positions[i] == Absorbed(gr, b.positions[i], i)
    ensures r.constraints.Keys == b.constraints.Keys + (set i | 0 <= i < |gr.guess| :: gr.guess[i])
  {
    var hits := CorrectLetterCounts(gr);
    var b0 := Board(b.positions, RaiseCounts(b.constraints, hits));
    AbsorbUpToPositions(gr, hits, |gr.guess|, b0);
    AbsorbUpToKeys(gr, hits, |gr.guess|, b0);
    HitOrAbsentLetters(gr);
    AbsorbUpTo(gr, hits, |gr.guess|, b0)
  }

  /** Every letter of a guess is hit somewhere or marked Absent somewhere. */
  lemma HitOrAbsentLetters(gr: GuessResult)
    requires WellFormed(gr)
    ensures CorrectLetterCounts(gr).Keys + AbsentLetters(gr, |gr.guess|) == set i | 0 <= i < |gr.guess| :: gr.guess[i]
  {
    var hits := CorrectLetterCounts(gr);
    var n := |gr.guess|;
    var letters := set i | 0 <= i < n :: gr.guess[i];
    var absent := AbsentLetters(gr, n);
    forall c | c in letters ensures c in hits.Keys + absent {
      var i :| 0 <= i < n && gr.guess[i] == c;
      if gr.result[i].status != Absent {
        HitAtMeansHit(gr.result, i);
      } else {
        assert c in absent;
      }
    }
    forall c | c in hits.Keys + absent ensures c in letters {
      if c in hits {
        var i := FirstHit(gr.result, c, n);
        assert gr.guess[i] == c;
      }
    }
  }


  /** A letter the guess hit: its count is raised to the number of hits
      (becoming a lower bound when raised), it gains one `solved` per newly
      pinned position, and it is exact once the guess shows an Absent copy. */
  lemma AbsorbResultHit(b: Board, gr: GuessResult, c: char)
    requires WellFormed(gr) && |gr.guess| == |b.positions|
    requires Hits(gr.result, c, |gr.result|) > 0
    ensures c in AbsorbResult(b, gr).constraints
    ensures var h := Hits(gr.result, c, |gr.result|);
            var raised := c !in b.constraints || b.constraints[c].count < h;
            AbsorbResult(b, gr).constraints[c] == MustContain(
              if raised then h else b.constraints[c].count,
              (if c in b.constraints then b.constraints[c].solved else 0) + NewPins(gr, b.positions, c, |gr.guess|),
              if Tagged(gr.result, c, Absent, |gr.result|) > 0 then Exactly
              else if raised then GreaterThan else b.constraints[c].specificity)
  {
    var hits := CorrectLetterCounts(gr);
    AbsorbUpToHit(gr, hits, |gr.guess|, Board(b.positions, RaiseCounts(b.constraints, hits)), c);
  }

  /** A letter the guess did not hit: excluded when marked Absent, otherwise
      unchanged. */
  lemma AbsorbResultMiss(b: Board, gr: GuessResult, c: char)
    requires WellFormed(gr) && |gr.guess| == |b.positions|
    requires Hits(gr.result, c, |gr.result|) == 0 && c in AbsorbResult(b, gr).constraints
    ensures if Tagged(gr.result, c, Absent, |gr.result|) > 0
            then AbsorbResult(b, gr).constraints[c] == MustContain(0, 0, Exactly)
            else c in b.constraints && AbsorbResult(b, gr).constraints[c] == b.constraints[c]
  {
    var hits := CorrectLetterCounts(gr);
    AbsorbUpToMiss(gr, hits, |gr.guess|, Board(b.positions, RaiseCounts(b.constraints, hits)), c);
  }

  /** Some position before `n` carries a hit of `c` when the hit count is positive. */
  lemma {:induction false} FirstHit(result: seq<LetterResult>, c: char, n: nat) returns (i: nat)
    requires n <= |result| && Hits(result, c, n) > 0
    ensures i < n && result[i].letter == c && result[i].status != Absent
  {
    if result[n - 1].letter == c && result[n - 1].status != Absent {
      i := n - 1;
    } else {
      i := FirstHit(result, c, n - 1);
    }
  }

  // ---------------------------------------------------------------------
  // `generateRegex()`: the candidate filter.

  function PositionAtom(pos: PositionData, banned: set<char>): Atom
  {
    if pos.answer.Some? then Literal(pos.answer.value)
    else if |pos.cantBe| > 0 || |banned| > 0 then AnyBut((set c | c in pos.cantBe) + banned)
    else Dot
  }

  /** The regex both engines assemble from a board: one `(?=(F l){count})`
      per letter that is not excluded, closed with `[^l]*$` when the count is
      exact, where the filler `F` is the engine's; per position the pinned
      letter, a class excluding `cantBe` and the excluded letters, or `.`.
      `BoardPattern` states what it accepts. */
  function BoardRegex(b: Board, filler: Filler): Pattern
  {
    var banned := BannedLetters(b.constraints);
    Pattern(
      set c | c in b.constraints && !Banned(b.constraints[c]) ::
        Copies(filler, c, b.constraints[c].count, b.constraints[c].specificity == Exactly),
      seq(|b.positions|, i requires 0 <= i < |b.positions| => PositionAtom(b.positions[i], banned)))
  }

  /** What the lookahead for a constrained letter demands: at least `count`
      copies, and exactly `count` when the count is exact and the filler is
      `[^l]*`; the `.*` filler cannot close the count. */
  ghost predicate CountMet(b: Board, filler: Filler, w: Word, c: char)
    requires c in b.constraints
  {
    && Count(w, c) >= b.constraints[c].count
    && (filler == OtherLettersRun && b.constraints[c].specificity == Exactly ==> Count(w, c) == b.constraints[c].count)
  }

  /** One word against the assembled regex. */
  lemma BoardRegexAccepts(b: Board, filler: Filler, w: Word)
    requires NoLineTerminators(w)
    ensures Accepts(BoardRegex(b, filler), w) <==>
      PositionsAdmit(b, w) && forall c :: c in b.constraints && !Banned(b.constraints[c]) ==> CountMet(b, filler, w, c)
  {
    var p := BoardRegex(b, filler);
    forall c | c in b.constraints && !Banned(b.constraints[c])
      ensures LookaheadHolds(Copies(filler, c, b.constraints[c].count, b.constraints[c].specificity == Exactly), w)
        <==> CountMet(b, filler, w, c)
    {
      var mc := b.constraints[c];
      if filler == OtherLettersRun {
        OtherLettersCopiesIff(c, mc.count, mc.specificity == Exactly, w);
      } else if mc.count >= 1 {
        AnyRunCopiesIff(c, mc.count, mc.specificity == Exactly, w);
      }
    }
    if Accepts(p, w) {
      forall c | c in b.constraints && !Banned(b.constraints[c])
        ensures CountMet(b, filler, w, c)
      {
        assert Copies(filler, c, b.constraints[c].count, b.constraints[c].specificity == Exactly) in p.lookaheads;
      }
    }
  }

  lemma BoardRegexIff(b: Board, filler: Filler)
    ensures forall w :: NoLineTerminators(w) ==>
      (Accepts(BoardRegex(b, filler), w) <==>
       PositionsAdmit(b, w) && forall c :: c in b.constraints && !Banned(b.constraints[c]) ==> CountMet(b, filler, w, c))
  {
    forall w | NoLineTerminators(w)
      ensures Accepts(BoardRegex(b, filler), w) <==>
        PositionsAdmit(b, w) && forall c :: c in b.constraints && !Banned(b.constraints[c]) ==> CountMet(b, filler, w, c)
    {
      BoardRegexAccepts(b, filler, w);
    }
  }

  /** The board's regex: on words without line terminators it accepts exactly
      those that fit the position rules and meet every letter count the
      filler can enforce. */
  function BoardPattern(b: Board, filler: Filler): (p: Pattern)
    ensures forall w :: NoLineTerminators(w) ==>
      (Accepts(p, w) <==>
       PositionsAdmit(b, w) && forall c :: c in b.constraints && !Banned(b.constraints[c]) ==> CountMet(b, filler, w, c))
  {
    BoardRegexIff(b, filler);
    BoardRegex(b, filler)
  }

  /** The current engine fills with `[^l]*`: on words without line
      terminators its regex accepts exactly the words consistent with the
      board. */
  function SolverPattern(b: Board): (p: Pattern)
    ensures forall w :: NoLineTerminators(w) ==> (Accepts(p, w) <==> Consistent(b, w))
  {
    BoardPattern(b, OtherLettersRun)
  }

  /** The per-position half of the filter: the pinned letter where there is
      one, elsewhere neither a ruled-out nor an excluded letter. */
  ghost predicate PositionsAdmit(b: Board, w: Word)
  {
    && |w| == |b.positions|
    && (forall i :: 0 <= i < |w| ==>
          if b.positions[i].answer.Some? then w[i] == b.positions[i].answer.value
          else w[i] !in b.positions[i].cantBe && w[i] !in BannedLetters(b.constraints))
  }

  /** The plain reading of the filter: letter counts and per-position rules. */
  ghost predicate Consistent(b: Board, w: Word)
  {
    && PositionsAdmit(b, w)
    && (forall c :: c in b.constraints && !Banned(b.constraints[c]) ==>
          Count(w, c) >= b.constraints[c].count &&
          (b.constraints[c].specificity == Exactly ==> Count(w, c) == b.constraints[c].count))
  }

  /** Filtering keeps the candidates the pattern accepts; what that means for
      the solver's pattern is `FilterKeepsConsistent`, and for the game's
      pattern `Game.GuessFilters`. */
  function Filter(candidates: set<Word>, p: Pattern): set<Word>
  {
    set w | w in candidates && Accepts(p, w)
  }

  /** The solver's filter keeps exactly the candidates consistent with the
      board, for candidates without line terminators. */
  lemma FilterKeepsConsistent(candidates: set<Word>, b: Board)
    requires forall w :: w in candidates ==> NoLineTerminators(w)
    ensures Filter(candidates, SolverPattern(b)) == set w | w in candidates && Consistent(b, w)
  {
  }

  // ---------------------------------------------------------------------
  // Inferring solved positions from the remaining candidates.

  /** The letter every candidate has at position `i`, if there is one. */
  function InferredLetter(candidates: set<Word>, i: nat): (r: Option<char>)
    requires forall w :: w in candidates ==> i < |w|
    ensures r.Some? <==> candidates != {} && forall w, v :: w in candidates && v in candidates ==> w[i] == v[i]
    ensures r.Some? ==> forall w :: w in candidates ==> w[i] == r.value
  {
    if candidates == {} then None
    else
      var w :| w in candidates;
      if forall v :: v in candidates ==> v[i] == w[i] then Some(w[i]) else None
  }

  /** The last loop of `updateLetterPossibilities`: an unsolved position on
      whose letter all remaining candidates agree becomes solved. */
  function InferPositions(positions: seq<PositionData>, candidates: set<Word>): (r: seq<PositionData>)
    requires forall w :: w in candidates ==> |w| == |positions|
    ensures |r| == |positions|
    ensures forall i :: 0 <= i < |r| && positions[i].answer.Some? ==> r[i] == positions[i]
    ensures forall i :: 0 <= i < |r| && positions[i].answer.None? ==>
      r[i].cantBe == positions[i].cantBe &&
      (r[i].answer.Some? <==> candidates != {} && forall w, v :: w in candidates && v in candidates ==> w[i] == v[i]) &&
      (r[i].answer.Some? ==> forall w :: w in candidates ==> w[i] == r[i].answer.value)
  {
    seq(|positions|, i requires 0 <= i < |positions| =>
      if positions[i].answer.Some? then positions[i]
      else match InferredLetter(candidates, i)
        case Some(c) => positions[i].(answer := Some(c))
        case None => positions[i])
  }

  // ---------------------------------------------------------------------
  // Feedback computed from a solution never rules that solution out.

  /** Every copy of a letter in the guess is either a hit or an Absent mark. */
  lemma {:induction false} CopiesAreHitsOrAbsent(gr: GuessResult, c: char, n: nat)
    requires WellFormed(gr) && n <= |gr.guess|
    ensures Count(gr.guess[..n], c) == Hits(gr.result, c, n) + Tagged(gr.result, c, Absent, n)
  {
    if n > 0 {
      CopiesAreHitsOrAbsent(gr, c, n - 1);
      CountPrefixStep(gr.guess, n - 1, c);
    }
  }

  /** The hits of a letter never exceed its copies in the solution, and
      match them once an Absent copy shows the guess had more. */
  lemma FeedbackCounts(guess: Word, solution: Word, c: char)
    requires |guess| == |solution|
    ensures var r := FromSolution(guess, solution).value.result;
      && Hits(r, c, |r|) <= Count(solution, c)
      && (Tagged(r, c, Absent, |r|) > 0 ==> Hits(r, c, |r|) == Count(solution, c))
  {
    var gr := FromSolution(guess, solution).value;
    LetterHitsAreMinimum(guess, solution, c);
    CopiesAreHitsOrAbsent(gr, c, |guess|);
    CountWhole(guess, c);
  }

  /** One letter's constraint after absorbing feedback from `solution` still
      admits it; a letter excluded afterwards does not occur in it, or was
      already excluded. */
  lemma AbsorbLetterKeepsSolution(b: Board, guess: Word, solution: Word, c: char)
    requires |guess| == |solution| == |b.positions| && Consistent(b, solution)
    requires c in AbsorbResult(b, FromSolution(guess, solution).value).constraints
    ensures var mc := AbsorbResult(b, FromSolution(guess, solution).value).constraints[c];
      && (!Banned(mc) ==> Count(solution, c) >= mc.count && (mc.specificity == Exactly ==> Count(solution, c) == mc.count))
      && (Banned(mc) ==> Count(solution, c) == 0 || (c in b.constraints && Banned(b.constraints[c])))
  {
    var gr := FromSolution(guess, solution).value;
    FeedbackCounts(guess, solution, c);
    if Hits(gr.result, c, |gr.result|) > 0 {
      AbsorbResultHit(b, gr, c);
    } else {
      AbsorbResultMiss(b, gr, c);
    }
  }

  /** One position after absorbing feedback from `solution` still admits it. */
  lemma AbsorbPositionKeepsSolution(b: Board, guess: Word, solution: Word, i: nat)
    requires |guess| == |solution| == |b.positions| && Consistent(b, solution) && i < |solution|
    ensures var r := AbsorbResult(b, FromSolution(guess, solution).value);
      if r.positions[i].answer.Some? then solution[i] == r.positions[i].answer.value
      else solution[i] !in r.positions[i].cantBe && solution[i] !in BannedLetters(r.constraints)
  {
    var gr := FromSolution(guess, solution).value;
    var r := AbsorbResult(b, gr);
    CorrectIffSameLetter(guess, solution, i);
    var c := solution[i];
    if r.positions[i].answer.None? && c in r.constraints && Banned(r.constraints[c]) {
      AbsorbLetterKeepsSolution(b, guess, solution, c);
      CountConsSplit(solution, i, c);
    }
  }

  lemma AbsorbKeepsSolution(b: Board, guess: Word, solution: Word)
    requires |guess| == |solution| == |b.positions| && Consistent(b, solution)
    ensures Consistent(AbsorbResult(b, FromSolution(guess, solution).value), solution)
  {
    var r := AbsorbResult(b, FromSolution(guess, solution).value);
    forall c | c in r.constraints && !Banned(r.constraints[c])
      ensures Count(solution, c) >= r.constraints[c].count &&
              (r.constraints[c].specificity == Exactly ==> Count(solution, c) == r.constraints[c].count)
    {
      AbsorbLetterKeepsSolution(b, guess, solution, c);
    }
    forall i | 0 <= i < |solution|
      ensures if r.positions[i].answer.Some? then solution[i] == r.positions[i].answer.value
              else solution[i] !in r.positions[i].cantBe && solution[i] !in BannedLetters(r.constraints)
    {
      AbsorbPositionKeepsSolution(b, guess, solution, i);
    }
  }

  /** Pinning positions on which every remaining candidate agrees keeps any
      remaining candidate that was admitted. */
  lemma InferKeepsSolution(b: Board, candidates: set<Word>, solution: Word)
    requires forall w :: w in candidates ==> |w| == |b.positions|
    requires solution in candidates && Consistent(b, solution)
    ensures Consistent(b.(positions := InferPositions(b.positions, candidates)), solution)
  {
  }

  /** With nothing known, every word of the board's length is admitted. */
  lemma NothingKnownAdmitsAll(n: nat, w: Word)
    requires |w| == n
    ensures Consistent(Board(EmptyPositions(n), map[]), w)
  {
  }
}

=== FILE: evaluator.dfy ===
/**
 * The feedback evaluator of the current engine: a guess scored against a
 * solution with the two-pass colouring, or a guess paired with statuses
 * supplied by the player, plus the derived tallies and the one-guess regex.
 */
module Evaluator {
  import opened Wrappers
  import opened Words
  import opened Patterns
  import Utilities

  datatype LetterResult = LetterResult(letter: char, position: nat, status: LetterStatus)

  /** `correctLetters` is the private set of letters marked Correct somewhere. */
  datatype GuessResult = GuessResult(
    guess: Word,
    result: seq<LetterResult>,
    correctCount: nat,
    wrongPositionCount: nat,
    correctLetters: set<char>)

  datatype EvalError =
    | LengthMismatch          // "Length of guess and result must be the same"
    | SolutionLengthMismatch  // "Guess and solution must be the same length"

  // ---------------------------------------------------------------------
  // Reference colouring: what the feedback means, independently of how the
  // two passes compute it.

  /** Positions before `n` where guess and solution both hold `c`. */
  function Matches(g: Word, s: Word, c: char, n: nat): nat
    requires n <= |g| && n <= |s|
  {
    if n == 0 then 0 else Matches(g, s, c, n - 1) + (if g[n - 1] == c && s[n - 1] == c then 1 else 0)
  }

  /** Positions before `n` where the guess holds `c` and the solution does not. */
  function Misses(g: Word, s: Word, c: char, n: nat): nat
    requires n <= |g| && n <= |s|
  {
    if n == 0 then 0 else Misses(g, s, c, n - 1) + (if g[n - 1] == c && s[n - 1] != c then 1 else 0)
  }

  lemma {:induction false} MatchesAtMostCount(g: Word, s: Word, c: char, n: nat)
    requires n <= |g| && n <= |s|
    ensures Matches(g, s, c, n) <= Count(s[..n], c)
  {
    if n > 0 {
      MatchesAtMostCount(g, s, c, n - 1);
      CountPrefixStep(s, n - 1, c);
    }
  }

  lemma {:induction false} GuessCountSplits(g: Word, s: Word, c: char, n: nat)
    requires n <= |g| && n <= |s|
    ensures Count(g[..n], c) == Matches(g, s, c, n) + Misses(g, s, c, n)
  {
    if n > 0 {
      GuessCountSplits(g, s, c, n - 1);
      CountPrefixStep(g, n - 1, c);
    }
  }

  /** Copies of `c` in the solution not taken by an exact hit. */
  function Unmatched(g: Word, s: Word, c: char): (u: nat)
    requires |g| == |s|
    ensures u + Matches(g, s, c, |g|) == Count(s, c)
  {
    MatchesAtMostCount(g, s, c, |g|);
    CountWhole(s, c);
    Count(s, c) - Matches(g, s, c, |g|)
  }

  /** Wordle feedback at position `i`: Correct on an exact hit; otherwise
      Present while the misses of that letter so far are fewer than the
      solution's unmatched copies of it; otherwise Absent. */
  function WordleStatus(g: Word, s: Word, i: nat): LetterStatus
    requires |g| == |s| && i < |g|
  {
    if g[i] == s[i] then Correct
    else if Misses(g, s, g[i], i) < Unmatched(g, s, g[i]) then Present
    else Absent
  }

  function WordleResult(g: Word, s: Word): (r: seq<LetterResult>)
    requires |g| == |s|
    ensures |r| == |g|
  {
    seq(|g|, i requires 0 <= i < |g| => LetterResult(g[i], i, WordleStatus(g, s, i)))
  }

  /** Entries before `n` with letter `c` and status `st`. */
  function Tagged(result: seq<LetterResult>, c: char, st: LetterStatus, n: nat): nat
    requires n <= |result|
  {
    if n == 0 then 0
    else Tagged(result, c, st, n - 1) + (if result[n - 1].letter == c && result[n - 1].status == st then 1 else 0)
  }

  /** Entries before `n` with letter `c` marked Correct or Present. */
  function Hits(result: seq<LetterResult>, c: char, n: nat): nat
    requires n <= |result|
  {
    if n == 0 then 0
    else Hits(result, c, n - 1) + (if result[n - 1].letter == c && result[n - 1].status != Absent then 1 else 0)
  }

  /** Entries with status `st` anywhere in the result. */
  function StatusCount(result: seq<LetterResult>, st: LetterStatus): nat
  {
    if |result| == 0 then 0
    else StatusCount(result[..|result| - 1], st) + (if result[|result| - 1].status == st then 1 else 0)
  }

  /** Present marks go to the leftmost misses of a letter, as many as the
      solution has unmatched copies. */
  lemma {:induction false} PresentsAreLeftmostMisses(g: Word, s: Word, c: char, n: nat)
    requires |g| == |s| && n <= |g|
    ensures Tagged(WordleResult(g, s), c, Present, n) ==
      if Misses(g, s, c, n) < Unmatched(g, s, c) then Misses(g, s, c, n) else Unmatched(g, s, c)
  {
    if n > 0 {
      PresentsAreLeftmostMisses(g, s, c, n - 1);
    }
  }

  lemma {:induction false} HitsSplit(g: Word, s: Word, c: char, n: nat)
    requires |g| == |s| && n <= |g|
    ensures Hits(WordleResult(g, s), c, n) == Matches(g, s, c, n) + Tagged(WordleResult(g, s), c, Present, n)
  {
    if n > 0 {
      HitsSplit(g, s, c, n - 1);
    }
  }

  // ---------------------------------------------------------------------
  // The two passes of `resultsFromSolution`.

  /** The partly filled result (undefined statuses are None) and the table
      of solution letters still unaccounted for. */
  datatype PassState = PassState(marks: seq<Option<LetterStatus>>, table: map<char, int>)

  /** After the first `n` steps of the first pass. */
  function FirstPass(g: Word, s: Word, n: nat): (st: PassState)
    requires |g| == |s| && n <= |g|
    ensures |st.marks| == |g|
    ensures forall j :: 0 <= j < |g| ==> st.marks[j] == if j < n && g[j] == s[j] then Some(Correct) else None
    ensures forall c :: c in st.table <==> c in s
    ensures forall c :: c in st.table ==> st.table[c] == Count(s, c) - Matches(g, s, c, n)
  {
    if n == 0 then PassState(seq(|g|, _ => None), Utilities.LetterCounts(s))
    else
      var st := FirstPass(g, s, n - 1);
      if g[n - 1] == s[n - 1] then
        PassState(st.marks[n - 1 := Some(Correct)], st.table[s[n - 1] := st.table[s[n - 1]] - 1])
      else st
  }

  /** After the first `n` steps of the second pass. */
  function SecondPass(g: Word, s: Word, n: nat): (st: PassState)
    requires |g| == |s| && n <= |g|
    ensures |st.marks| == |g|
    ensures forall j :: 0 <= j < n ==> st.marks[j] == Some(WordleStatus(g, s, j))
    ensures forall j :: n <= j < |g| ==> st.marks[j] == if g[j] == s[j] then Some(Correct) else None
    ensures forall c :: c in st.table <==> c in s
    ensures forall c :: c in st.table ==>
      st.table[c] >= 0 && st.table[c] == Unmatched(g, s, c) - Tagged(WordleResult(g, s), c, Present, n)
  {
    if n == 0 then
      var st := FirstPass(g, s, |g|);
      assert forall c :: c in st.table ==> st.table[c] == Unmatched(g, s, c);
      st
    else
      var st := SecondPass(g, s, n - 1);
      var i := n - 1;
      if st.marks[i].None? then
        var c := g[i];
        PresentsAreLeftmostMisses(g, s, c, i);
        if c in st.table && st.table[c] != 0 then
          PassState(st.marks[i := Some(Present)], st.table[c := st.table[c] - 1])
        else
          assert c !in st.table ==> Count(s, c) == 0;
          PassState(st.marks[i := Some(Absent)], st.table)
      else st
  }

  /** `resultsFromSolution(guess, solution)`: exactly the Wordle colouring. */
  function ResultsFromSolution(guess: Word, solution: Word): (r: Result<seq<LetterResult>, EvalError>)
    ensures r.Failure? <==> |guess| != |solution|
    ensures r.Failure? ==> r.error == SolutionLengthMismatch
    ensures r.Success? ==> r.value == WordleResult(guess, solution)
  {
    if |guess| != |solution| then Failure(SolutionLengthMismatch)
    else
      var st := SecondPass(guess, solution, |guess|);
      Success(seq(|guess|, i requires 0 <= i < |guess| => LetterResult(guess[i], i, st.marks[i].value)))
  }

  // ---------------------------------------------------------------------
  // The constructors.

  function CorrectLettersOf(result: seq<LetterResult>): set<char>
  {
    set i | 0 <= i < |result| && result[i].status == Correct :: result[i].letter
  }

  /** Every tile is Correct: the guess was the answer. */
  predicate AllCorrect(result: seq<LetterResult>)
  {
    forall i :: 0 <= i < |result| ==> result[i].status == Correct
  }

  /** The invariant both constructors establish: one entry per letter of the
      guess, in order, and the tallies agree with the entries. */
  ghost predicate WellFormed(gr: GuessResult)
  {
    && |gr.result| == |gr.guess|
    && (forall i :: 0 <= i < |gr.result| ==> gr.result[i].letter == gr.guess[i] && gr.result[i].position == i)
    && gr.correctCount == StatusCount(gr.result, Correct)
    && gr.wrongPositionCount == StatusCount(gr.result, Present)
    && gr.correctLetters == CorrectLettersOf(gr.result)
  }

  function Build(guess: Word, result: seq<LetterResult>): GuessResult
  {
    GuessResult(guess, result, StatusCount(result, Correct), StatusCount(result, Present), CorrectLettersOf(result))
  }

  /** `new GuessResult(guess, solution)`. */
  function FromSolution(guess: Word, solution: Word): (r: Result<GuessResult, EvalError>)
    ensures r.Failure? <==> |guess| != |solution|
    ensures r.Failure? ==> r.error == LengthMismatch
    ensures r.Success? ==> WellFormed(r.value) && r.value.guess == guess
    ensures r.Success? ==> r.value.result == WordleResult(guess, solution)
  {
    if |guess| != |solution| then Failure(LengthMismatch)
    else
      var results := ResultsFromSolution(guess, solution);
      Success(Build(guess, results.value))
  }

  /** `new GuessResult(guess, statuses)`: the statuses are taken verbatim. */
  function FromStatuses(guess: Word, statuses: seq<LetterStatus>): (r: Result<GuessResult, EvalError>)
    ensures r.Failure? <==> |guess| != |statuses|
    ensures r.Failure? ==> r.error == LengthMismatch
    ensures r.Success? ==> WellFormed(r.value) && r.value.guess == guess
    ensures r.Success? ==> forall i :: 0 <= i < |guess| ==> r.value.result[i] == LetterResult(guess[i], i, statuses[i])
  {
    if |guess| != |statuses| then Failure(LengthMismatch)
    else Success(Build(guess, seq(|guess|, i requires 0 <= i < |guess| => LetterResult(guess[i], i, statuses[i]))))
  }

  // ---------------------------------------------------------------------
  // Properties of the colouring.

  /** A position is Correct exactly when guess and solution agree there. */
  lemma CorrectIffSameLetter(guess: Word, solution: Word, i: nat)
    requires |guess| == |solution| && i < |guess|
    ensures FromSolution(guess, solution).value.result[i].status == Correct <==> guess[i] == solution[i]
  {
  }

  /** Per letter, Correct plus Present marks equal the smaller of its copies
      in the guess and in the solution: repeated letters are never over-marked. */
  lemma LetterHitsAreMinimum(guess: Word, solution: Word, c: char)
    requires |guess| == |solution|
    ensures var r := FromSolution(guess, solution).value.result;
      Hits(r, c, |r|) == if Count(guess, c) < Count(solution, c) then Count(guess, c) else Count(solution, c)
  {
    HitsSplit(guess, solution, c, |guess|);
    PresentsAreLeftmostMisses(guess, solution, c, |guess|);
    GuessCountSplits(guess, solution, c, |guess|);
    CountWhole(guess, c);
  }

  /** Guessing the solution itself colours every position Correct. */
  lemma SolutionGuessIsAllCorrect(solution: Word)
    ensures forall i :: 0 <= i < |solution| ==> FromSolution(solution, solution).value.result[i].status == Correct
  {
  }

  // ---------------------------------------------------------------------
  // Tallies.

  lemma {:induction false} StatusCountTagged(result: seq<LetterResult>, st: LetterStatus, n: nat)
    requires n <= |result|
    ensures StatusCount(result[..n], st) == |set i | 0 <= i < n && result[i].status == st|
  {
    if n > 0 {
      StatusCountTagged(result, st, n - 1);
      assert result[..n][..n - 1] == result[..n - 1];
      var prev := set i | 0 <= i < n - 1 && result[i].status == st;
      var now := set i | 0 <= i < n && result[i].status == st;
      if result[n - 1].status == st {
        assert now == prev + {n - 1};
      } else {
        assert now == prev;
      }
    }
  }

  /** `correctCount` and `wrongPositionCount` count the positions marked
      Correct and Present. */
  lemma TalliesCountPositions(gr: GuessResult)
    requires WellFormed(gr)
    ensures gr.correctCount == |set i | 0 <= i < |gr.result| && gr.result[i].status == Correct|
    ensures gr.wrongPositionCount == |set i | 0 <= i < |gr.result| && gr.result[i].status == Present|
  {
    assert gr.result[..|gr.result|] == gr.result;
    StatusCountTagged(gr.result, Correct, |gr.result|);
    StatusCountTagged(gr.result, Present, |gr.result|);
  }

  /** The accumulator of `correctLetterCounts()` after the first `n` entries. */
  function CorrectLetterCountsUpTo(result: seq<LetterResult>, n: nat): (r: map<char, nat>)
    requires n <= |result|
    ensures forall c :: c in r <==> Hits(result, c, n) > 0
    ensures forall c :: c in r ==> r[c] == Hits(result, c, n)
  {
    if n == 0 then map[]
    else
      var acc := CorrectLetterCountsUpTo(result, n - 1);
      var e := result[n - 1];
      if e.status == Correct || e.status == Present then
        acc[e.letter := (if e.letter in acc then acc[e.letter] else 0) + 1]
      else acc
  }

  /** `correctLetterCounts()`: each letter marked Correct or Present somewhere,
      with the number of such marks. */
  function CorrectLetterCounts(gr: GuessResult): (r: map<char, nat>)
    ensures forall c :: c in r <==> Hits(gr.result, c, |gr.result|) > 0
    ensures forall c :: c in r ==> r[c] == Hits(gr.result, c, |gr.result|)
  {
    CorrectLetterCountsUpTo(gr.result, |gr.result|)
  }

  // ---------------------------------------------------------------------
  // `generateRegex()` of a single result.

  datatype MustContainEntry = MustContainEntry(count: nat, exactly: bool)

  datatype RegexParts = RegexParts(mustContains: map<char, MustContainEntry>, mustNotContain: set<char>, atoms: seq<Atom>)

  /** An Absent mark at some index `i < n` for letter `c`, with no Present
      mark for `c` before it. */
  ghost predicate BareAbsentBefore(result: seq<LetterResult>, c: char, n: nat)
    requires n <= |result|
  {
    exists i :: 0 <= i < n && result[i].letter == c && result[i].status == Absent && Tagged(result, c, Present, i) == 0
  }

  /** An Absent mark at some index `i < n` for letter `c`, with a Present
      mark for `c` before it. */
  ghost predicate AbsentAfterPresent(result: seq<LetterResult>, c: char, n: nat)
    requires n <= |result|
  {
    exists i :: 0 <= i < n && result[i].letter == c && result[i].status == Absent && Tagged(result, c, Present, i) > 0
  }

  lemma {:induction false} TaggedMonotone(result: seq<LetterResult>, c: char, st: LetterStatus, i: nat, n: nat)
    requires i <= n <= |result|
    ensures Tagged(result, c, st, i) <= Tagged(result, c, st, n)
  {
    if i < n {
      TaggedMonotone(result, c, st, i, n - 1);
    }
  }

  /** Both marks grow by at most the entry at `n - 1`. */
  lemma AbsentMarksStep(result: seq<LetterResult>, c: char, n: nat)
    requires 1 <= n <= |result|
    ensures AbsentAfterPresent(result, c, n) <==>
      AbsentAfterPresent(result, c, n - 1) ||
      (result[n - 1].letter == c && result[n - 1].status == Absent && Tagged(result, c, Present, n - 1) > 0)
    ensures BareAbsentBefore(result, c, n) <==>
      BareAbsentBefore(result, c, n - 1) ||
      (result[n - 1].letter == c && result[n - 1].status == Absent && Tagged(result, c, Present, n - 1) == 0)
  {
    if AbsentAfterPresent(result, c, n) {
      var i :| 0 <= i < n && result[i].letter == c && result[i].status == Absent && Tagged(result, c, Present, i) > 0;
      if i < n - 1 {
        assert AbsentAfterPresent(result, c, n - 1);
      }
    }
    if BareAbsentBefore(result, c, n) {
      var i :| 0 <= i < n && result[i].letter == c && result[i].status == Absent && Tagged(result, c, Present, i) == 0;
      if i < n - 1 {
        assert BareAbsentBefore(result, c, n - 1);
      }
    }
  }

  /** An Absent mark that follows a Present one needs a Present mark before `n`. */
  lemma LateAbsentNeedsPresent(result: seq<LetterResult>, c: char, n: nat)
    requires n <= |result|
    ensures AbsentAfterPresent(result, c, n) ==> Tagged(result, c, Present, n) > 0
  {
    if AbsentAfterPresent(result, c, n) {
      var i :| 0 <= i < n && result[i].letter == c && result[i].status == Absent && Tagged(result, c, Present, i) > 0;
      TaggedMonotone(result, c, Present, i, n);
    }
  }

  /** The loop over the entries, after the first `n`. What the flags of the
      entries mean is `RegexPartsFlags`. */
  function RegexPartsUpTo(gr: GuessResult, n: nat): (p: RegexParts)
    requires n <= |gr.result|
    ensures |p.atoms| == n
    ensures forall c :: c in p.mustContains <==> Tagged(gr.result, c, Present, n) > 0
    ensures forall c :: c in p.mustContains ==> p.mustContains[c].count == Tagged(gr.result, c, Present, n)
    ensures forall c :: c in p.mustNotContain ==> c !in gr.correctLetters && BareAbsentBefore(gr.result, c, n)
    ensures forall i :: 0 <= i < n ==> p.atoms[i] == match gr.result[i].status
      case Correct => Literal(gr.result[i].letter)
      case Present => AnyBut({gr.result[i].letter})
      case Absent => Dot
  {
    if n == 0 then RegexParts(map[], {}, [])
    else
      var p := RegexPartsUpTo(gr, n - 1);
      var e := gr.result[n - 1];
      assert forall c :: c in p.mustNotContain ==> BareAbsentBefore(gr.result, c, n);
      match e.status
      case Correct => p.(atoms := p.atoms + [Literal(e.letter)])
      case Present =>
        var mc := if e.letter in p.mustContains
          then p.mustContains[e.letter].(count := p.mustContains[e.letter].count + 1)
          else MustContainEntry(1, false);
        RegexParts(p.mustContains[e.letter := mc], p.mustNotContain, p.atoms + [AnyBut({e.letter})])
      case Absent =>
        if e.letter in p.mustContains then
          RegexParts(p.mustContains[e.letter := p.mustContains[e.letter].(exactly := true)], p.mustNotContain, p.atoms + [Dot])
        else if e.letter !in gr.correctLetters then
          assert BareAbsentBefore(gr.result, e.letter, n);
          RegexParts(p.mustContains, p.mustNotContain + {e.letter}, p.atoms + [Dot])
        else p.(atoms := p.atoms + [Dot])
  }

  /** The flags the loop sets for one letter: its count is exact exactly when
      some Absent copy follows a Present one, and the letter is excluded
      exactly when it is never Correct and some Absent copy has no Present
      copy before it. */
  lemma {:induction false} RegexPartsFlags(gr: GuessResult, n: nat, c: char)
    requires n <= |gr.result|
    ensures var p := RegexPartsUpTo(gr, n);
      && (c in p.mustContains ==> (p.mustContains[c].exactly <==> AbsentAfterPresent(gr.result, c, n)))
      && (c in p.mustNotContain <==> c !in gr.correctLetters && BareAbsentBefore(gr.result, c, n))
  {
    if n > 0 {
      RegexPartsFlags(gr, n - 1, c);
      AbsentMarksStep(gr.result, c, n);
      LateAbsentNeedsPresent(gr.result, c, n - 1);
    }
  }

  /** `generateRegex()` as assembled: one lookahead `(.*l){n}` per Present
      letter (closed by `[^l]*$` when the letter is also Absent somewhere
      later), one `[^...]{length}` for letters never Correct or Present before
      an Absent, and per position the letter, `[^l]` or `.`. `GenerateRegex`
      states what it accepts. */
  function AssembleRegex(gr: GuessResult): Pattern
  {
    var p := RegexPartsUpTo(gr, |gr.result|);
    var counts := set c | c in p.mustContains :: Copies(AnyRun, c, p.mustContains[c].count, p.mustContains[c].exactly);
    var banned := if |p.mustNotContain| > 0 then {NoneOfFor(p.mustNotContain, |gr.guess|)} else {};
    Pattern(counts + banned, p.atoms)
  }

  /** What one result says about a word: the Correct letters in place, no
      Present letter where it was guessed, at least as many copies of each
      letter as it is marked Present, and no letter that is never Correct and
      has an Absent copy with no Present copy before it. */
  ghost predicate FitsFeedback(gr: GuessResult, w: Word)
  {
    && |w| == |gr.result|
    && (forall i :: 0 <= i < |w| ==>
          (gr.result[i].status == Correct ==> w[i] == gr.result[i].letter) &&
          (gr.result[i].status == Present ==> w[i] != gr.result[i].letter))
    && (forall c :: Tagged(gr.result, c, Present, |gr.result|) > 0 ==> Count(w, c) >= Tagged(gr.result, c, Present, |gr.result|))
    && (forall j :: 0 <= j < |w| ==> !(w[j] !in gr.correctLetters && BareAbsentBefore(gr.result, w[j], |gr.result|)))
  }

  /** The lookaheads of the assembled regex against one word. */
  lemma AssembledLookaheadsIff(gr: GuessResult, w: Word)
    requires NoLineTerminators(w) && |w| == |gr.result| == |gr.guess|
    ensures (forall la :: la in AssembleRegex(gr).lookaheads ==> LookaheadHolds(la, w)) <==>
      && (forall c :: Tagged(gr.result, c, Present, |gr.result|) > 0 ==> Count(w, c) >= Tagged(gr.result, c, Present, |gr.result|))
      && (forall j :: 0 <= j < |w| ==> !(w[j] !in gr.correctLetters && BareAbsentBefore(gr.result, w[j], |gr.result|)))
  {
    var p := RegexPartsUpTo(gr, |gr.result|);
    var pat := AssembleRegex(gr);
    forall c | c in p.mustContains
      ensures CopiesHold(AnyRun, c, p.mustContains[c].count, p.mustContains[c].exactly, w) <==> Count(w, c) >= p.mustContains[c].count
    {
      AnyRunCopiesIff(c, p.mustContains[c].count, p.mustContains[c].exactly, w);
    }
    forall j | 0 <= j < |w|
      ensures w[j] in p.mustNotContain <==> w[j] !in gr.correctLetters && BareAbsentBefore(gr.result, w[j], |gr.result|)
    {
      RegexPartsFlags(gr, |gr.result|, w[j]);
    }
    if forall la :: la in pat.lookaheads ==> LookaheadHolds(la, w) {
      forall c | Tagged(gr.result, c, Present, |gr.result|) > 0
        ensures Count(w, c) >= Tagged(gr.result, c, Present, |gr.result|)
      {
        assert Copies(AnyRun, c, p.mustContains[c].count, p.mustContains[c].exactly) in pat.lookaheads;
      }
      if |p.mustNotContain| > 0 {
        assert NoneOfFor(p.mustNotContain, |gr.guess|) in pat.lookaheads;
      }
    }
  }

  /** The position atoms of the assembled regex against one word. */
  lemma AssembledAtomsIff(gr: GuessResult, w: Word)
    requires NoLineTerminators(w) && |w| == |gr.result|
    ensures (forall i :: 0 <= i < |w| ==> AtomAccepts(AssembleRegex(gr).atoms[i], w[i])) <==>
      forall i :: 0 <= i < |w| ==>
        (gr.result[i].status == Correct ==> w[i] == gr.result[i].letter) &&
        (gr.result[i].status == Present ==> w[i] != gr.result[i].letter)
  {
    var atoms := AssembleRegex(gr).atoms;
    forall i | 0 <= i < |w|
      ensures AtomAccepts(atoms[i], w[i]) <==>
        (gr.result[i].status == Correct ==> w[i] == gr.result[i].letter) &&
        (gr.result[i].status == Present ==> w[i] != gr.result[i].letter)
    {
    }
  }

  /** One word against the assembled regex. */
  lemma AssembleRegexAccepts(gr: GuessResult, w: Word)
    requires NoLineTerminators(w) && |gr.guess| == |gr.result|
    ensures Accepts(AssembleRegex(gr), w) <==> FitsFeedback(gr, w)
  {
    var pat := AssembleRegex(gr);
    if |w| == |gr.result| {
      AssembledLookaheadsIff(gr, w);
      AssembledAtomsIff(gr, w);
      assert |pat.atoms| == |w|;
    }
  }

  lemma AssembleRegexIff(gr: GuessResult)
    ensures forall w :: NoLineTerminators(w) && |gr.guess| == |gr.result| ==>
      (Accepts(AssembleRegex(gr), w) <==> FitsFeedback(gr, w))
  {
    forall w | NoLineTerminators(w) && |gr.guess| == |gr.result|
      ensures Accepts(AssembleRegex(gr), w) <==> FitsFeedback(gr, w)
    {
      AssembleRegexAccepts(gr, w);
    }
  }

  /** `generateRegex()`: on words without line terminators the regex of one
      result accepts exactly the words that fit the feedback; an exact count
      is only checked as a lower bound. */
  function GenerateRegex(gr: GuessResult): (p: Pattern)
    ensures forall w :: NoLineTerminators(w) && |gr.guess| == |gr.result| ==> (Accepts(p, w) <==> FitsFeedback(gr, w))
  {
    AssembleRegexIff(gr);
    AssembleRegex(gr)
  }

  lemma {:induction false} TaggedPresentAtMostHits(result: seq<LetterResult>, c: char, n: nat)
    requires n <= |result|
    ensures Tagged(result, c, Present, n) <= Hits(result, c, n)
  {
    if n > 0 {
      TaggedPresentAtMostHits(result, c, n - 1);
    }
  }

  /** A letter Absent with no Present before it and never Correct has no copy
      in the solution. */
  lemma BareAbsentMeansNoCopy(guess: Word, solution: Word, c: char, i: nat)
    requires |guess| == |solution| && i < |guess|
    requires WordleResult(guess, solution)[i].letter == c
    requires WordleResult(guess, solution)[i].status == Absent
    requires Tagged(WordleResult(guess, solution), c, Present, i) == 0
    requires c !in CorrectLettersOf(WordleResult(guess, solution))
    ensures Count(solution, c) == 0
  {
    var r := WordleResult(guess, solution);
    PresentsAreLeftmostMisses(guess, solution, c, i);
    HitsSplit(guess, solution, c, |guess|);
    MatchesNoneWithoutCorrect(guess, solution, c, |guess|);
  }

  lemma {:induction false} MatchesNoneWithoutCorrect(guess: Word, solution: Word, c: char, n: nat)
    requires |guess| == |solution| && n <= |guess|
    requires c !in CorrectLettersOf(WordleResult(guess, solution))
    ensures Matches(guess, solution, c, n) == 0
  {
    if n > 0 {
      MatchesNoneWithoutCorrect(guess, solution, c, n - 1);
      assert WordleResult(guess, solution)[n - 1].letter == guess[n - 1];
    }
  }

  /** The solution satisfies the regex built from its own feedback. */
  lemma SolutionMatchesOwnRegex(guess: Word, solution: Word)
    requires |guess| == |solution| && NoLineTerminators(solution)
    ensures Accepts(GenerateRegex(FromSolution(guess, solution).value), solution)
  {
    var gr := FromSolution(guess, solution).value;
    var p := RegexPartsUpTo(gr, |gr.result|);
    var pat := AssembleRegex(gr);
    forall i | 0 <= i < |solution|
      ensures AtomAccepts(pat.atoms[i], solution[i])
    {
    }
    forall la | la in pat.lookaheads
      ensures LookaheadHolds(la, solution)
    {
      LookaheadShapes(gr, la);
      if la.Copies? {
        SolutionMeetsPresentCount(guess, solution, la.letter);
      } else {
        SolutionAvoidsBareAbsent(guess, solution);
      }
    }
  }

  /** The two kinds of lookahead the regex of one result can hold. */
  lemma LookaheadShapes(gr: GuessResult, la: Lookahead)
    requires la in AssembleRegex(gr).lookaheads
    ensures var p := RegexPartsUpTo(gr, |gr.result|);
      if la.Copies?
      then la.letter in p.mustContains && la == Copies(AnyRun, la.letter, p.mustContains[la.letter].count, p.mustContains[la.letter].exactly)
      else la == NoneOfFor(p.mustNotContain, |gr.guess|)
  {
  }

  /** Each `(.*l){n}` lookahead holds: the solution has at least as many
      copies of `l` as the feedback marks Present. */
  lemma SolutionMeetsPresentCount(guess: Word, solution: Word, c: char)
    requires |guess| == |solution| && NoLineTerminators(solution)
    requires c in RegexPartsUpTo(FromSolution(guess, solution).value, |guess|).mustContains
    ensures var e := RegexPartsUpTo(FromSolution(guess, solution).value, |guess|).mustContains[c];
      CopiesHold(AnyRun, c, e.count, e.exactly, solution)
  {
    var r := FromSolution(guess, solution).value.result;
    var e := RegexPartsUpTo(FromSolution(guess, solution).value, |guess|).mustContains[c];
    assert e.count == Tagged(r, c, Present, |r|);
    HitsSplit(guess, solution, c, |guess|);
    LetterHitsAreMinimum(guess, solution, c);
    AnyRunCopiesIff(c, e.count, e.exactly, solution);
  }

  /** The `[^...]{length}` lookahead holds: no letter of the solution is one
      the feedback bans outright. */
  lemma SolutionAvoidsBareAbsent(guess: Word, solution: Word)
    requires |guess| == |solution|
    ensures forall j :: 0 <= j < |solution| ==>
      solution[j] !in RegexPartsUpTo(FromSolution(guess, solution).value, |guess|).mustNotContain
  {
    var r := FromSolution(guess, solution).value.result;
    var p := RegexPartsUpTo(FromSolution(guess, solution).value, |guess|);
    forall j | 0 <= j < |solution|
      ensures solution[j] !in p.mustNotContain
    {
      var c := solution[j];
      if c in p.mustNotContain {
        var i :| 0 <= i < |r| && r[i].letter == c && r[i].status == Absent && Tagged(r, c, Present, i) == 0;
        BareAbsentMeansNoCopy(guess, solution, c, i);
      }
    }
  }
}

=== FILE: game.dfy ===
/**
 * The earlier engine (`Game`): the same two-pass evaluator, the same fold of
 * a result into the board, a candidate filter whose exact-count lookahead
 * does not cap the count, and a single-number score for choosing a guess.
 * Its statuses NotPresent / WrongPosition / Correct are the current
 * engine's Absent / Present / Correct.
 */
module Game {
  import opened Wrappers
  import opened Words
  import opened Patterns
  import Evaluator
  import opened Constraints
  import Scoring
  import opened Utilities

  // ---------------------------------------------------------------------
  // The evaluator.

  /** This engine's `GuessResult`: no private set of Correct letters. */
  datatype GuessResult = GuessResult(
    guess: Word,
    result: seq<Evaluator.LetterResult>,
    correctCount: nat,
    wrongPositionCount: nat)

  /** What the constructor establishes: one entry per letter of the guess,
      in order, and tallies that agree with the entries. */
  ghost predicate WellFormed(gr: GuessResult)
  {
    && |gr.result| == |gr.guess|
    && (forall i :: 0 <= i < |gr.result| ==> gr.result[i].letter == gr.guess[i] && gr.result[i].position == i)
    && gr.correctCount == Evaluator.StatusCount(gr.result, Correct)
    && gr.wrongPositionCount == Evaluator.StatusCount(gr.result, Present)
  }

  function Tallied(guess: Word, result: seq<Evaluator.LetterResult>): GuessResult
  {
    GuessResult(guess, result, Evaluator.StatusCount(result, Correct), Evaluator.StatusCount(result, Present))
  }

  /** `new GuessResult(guess, solution)`: the length check comes first, then
      the two-pass colouring, which is the current engine's code unchanged. */
  function FromSolution(guess: Word, solution: Word): (r: Result<GuessResult, Evaluator.EvalError>)
    ensures r.Failure? <==> |guess| != |solution|
    ensures r.Failure? ==> r.error == Evaluator.LengthMismatch
    ensures r.Success? ==> WellFormed(r.value) && r.value.guess == guess
    ensures r.Success? ==> r.value.result == Evaluator.WordleResult(guess, solution)
  {
    if |guess| != |solution| then Failure(Evaluator.LengthMismatch)
    else Success(Tallied(guess, Evaluator.ResultsFromSolution(guess, solution).value))
  }

  /** `new GuessResult(guess, statuses)`: the statuses are taken verbatim. */
  function FromStatuses(guess: Word, statuses: seq<LetterStatus>): (r: Result<GuessResult, Evaluator.EvalError>)
    ensures r.Failure? <==> |guess| != |statuses|
    ensures r.Failure? ==> r.error == Evaluator.LengthMismatch
    ensures r.Success? ==> WellFormed(r.value) && r.value.guess == guess
    ensures r.Success? ==> forall i :: 0 <= i < |guess| ==>
              r.value.result[i] == Evaluator.LetterResult(guess[i], i, statuses[i])
  {
    if |guess| != |statuses| then Failure(Evaluator.LengthMismatch)
    else Success(Tallied(guess, seq(|guess|, i requires 0 <= i < |guess| => Evaluator.LetterResult(guess[i], i, statuses[i]))))
  }

  /** The same result as a record of the current engine, whose
      `correctLetterCounts()` is this engine's too. */
  function AsCurrent(gr: GuessResult): (r: Evaluator.GuessResult)
    ensures r.guess == gr.guess && r.result == gr.result
    ensures WellFormed(gr) ==> Evaluator.WellFormed(r)
  {
    Evaluator.Build(gr.guess, gr.result)
  }

  // ---------------------------------------------------------------------
  // `updateLetterPossibilities`: the fold, with its unguarded lookup.

  /** Step `i` of the second loop. An Absent letter that the guess also hit is
      looked up without a guard (`get(letter)!`); the lookup is safe as long
      as every hit letter has an entry, and the step keeps that so. */
  function AbsorbPositionUnguarded(gr: Evaluator.GuessResult, hits: map<char, nat>, i: nat, b: Board): (r: Board)
    requires i < |gr.guess| && i < |gr.result| && i < |b.positions|
    requires forall c :: c in hits ==> c in b.constraints
    ensures forall c :: c in hits ==> c in r.constraints
  {
    var letter := gr.guess[i];
    var b1 := MarkPosition(gr, i, b);
    if gr.result[i].status == Absent then
      if letter in hits then
        b1.(constraints := b1.constraints[letter := b1.constraints[letter].(specificity := Exactly)])
      else
        b1.(constraints := b1.constraints[letter := MustContain(0, 0, Exactly)])
    else b1
  }

  /** The first `n` steps of the second loop. */
  function AbsorbUpToUnguarded(gr: Evaluator.GuessResult, hits: map<char, nat>, n: nat, b: Board): (r: Board)
    requires n <= |gr.guess| && n <= |gr.result| && n <= |b.positions|
    requires forall c :: c in hits ==> c in b.constraints
    ensures forall c :: c in hits ==> c in r.constraints
    ensures |r.positions| == |b.positions|
  {
    if n == 0 then b
    else AbsorbPositionUnguarded(gr, hits, n - 1, AbsorbUpToUnguarded(gr, hits, n - 1, b))
  }

  /** Where the current engine guards the lookup, the guard always holds:
      both loops compute the same board. */
  lemma {:induction false} UnguardedFoldIsCurrentFold(gr: Evaluator.GuessResult, hits: map<char, nat>, n: nat, b: Board)
    requires AbsorbReady(gr, hits, b) && n <= |gr.guess|
    ensures AbsorbUpToUnguarded(gr, hits, n, b) == AbsorbUpTo(gr, hits, n, b)
  {
    if n > 0 {
      UnguardedFoldIsCurrentFold(gr, hits, n - 1, b);
    }
  }

  /** `updateLetterPossibilities`, its constraint part: the board the current
      engine would compute from the same result. */
  function AbsorbResultUnguarded(b: Board, gr: GuessResult): (r: Board)
    requires WellFormed(gr) && |gr.guess| == |b.positions|
    ensures r == AbsorbResult(b, AsCurrent(gr))
  {
    var cur := AsCurrent(gr);
    var hits := Evaluator.CorrectLetterCounts(cur);
    var b0 := Board(b.positions, RaiseCounts(b.constraints, hits));
    UnguardedFoldIsCurrentFold(cur, hits, |gr.guess|, b0);
    AbsorbUpToUnguarded(cur, hits, |gr.guess|, b0)
  }

  // ---------------------------------------------------------------------
  // `generateRegex()`: `.*` before each copy.

  /** What the earlier filter actually demands: the position rules, and at
      least `count` copies of every letter that is not excluded. */
  ghost predicate AtLeastConsistent(b: Board, w: Word)
  {
    && PositionsAdmit(b, w)
    && (forall c :: c in b.constraints && !Banned(b.constraints[c]) ==> Count(w, c) >= b.constraints[c].count)
  }

  /** The earlier filter, `(?=(.*l){count}[^l]*$)` for an exact count: on
      words without line terminators it holds exactly when the lower bounds
      and the position rules do; the exact counts are not enforced. */
  function FilterPattern(b: Board): (p: Pattern)
    ensures forall w :: NoLineTerminators(w) ==> (Accepts(p, w) <==> AtLeastConsistent(b, w))
  {
    BoardPattern(b, AnyRun)
  }

  /** A board that wants exactly one `a` in a two-letter word: the earlier
      filter lets "aa" through, the current one does not. */
  lemma FilterIgnoresExactCount()
    ensures var b := Board([PositionData(None, []), PositionData(None, [])], map['a' := MustContain(1, 0, Exactly)]);
      Accepts(FilterPattern(b), "aa") && !Accepts(SolverPattern(b), "aa")
  {
    var b := Board([PositionData(None, []), PositionData(None, [])], map['a' := MustContain(1, 0, Exactly)]);
    assert NoLineTerminators("aa");
    assert Count("aa", 'a') == 2 by {
      assert "aa"[1..] == "a";
    }
    assert BannedLetters(b.constraints) == {};
  }

  // ---------------------------------------------------------------------
  // The session.

  datatype GameState = GameState(
    guesses: seq<GuessResult>, solved: bool,
    positions: seq<PositionData>, answerMustContain: map<char, MustContain>,
    possibleSolutions: set<Word>, possibleGuesses: set<Word>)
  {
    function Board(): Constraints.Board { Constraints.Board(positions, answerMustContain) }
  }

  datatype GameError = GameAlreadySolved  // "Game already solved"

  /** `new Game(length)` with the word lists as parameters. */
  function NewGame(cfg: Config, length: nat): (s: GameState)
    ensures s.guesses == [] && !s.solved && |s.positions| == length && s.answerMustContain == map[]
    ensures forall i :: 0 <= i < |s.positions| ==> s.positions[i].answer.None? && s.positions[i].cantBe == []
    ensures s.possibleSolutions == cfg.answerWords && s.possibleGuesses == cfg.AllWords()
  {
    GameState([], false, EmptyPositions(length), map[], cfg.answerWords, cfg.AllWords())
  }

  /** A new game's filter admits every word of its length. */
  lemma NewGameAdmitsAll(cfg: Config, length: nat, w: Word)
    requires |w| == length && NoLineTerminators(w)
    ensures Accepts(FilterPattern(NewGame(cfg, length).Board()), w)
  {
  }

  /** `guess(g)`: refused once solved; otherwise the result is recorded and
      folded in, the candidates are filtered, and the game is solved when
      every tile is Correct. */
  function Guess(s: GameState, gr: GuessResult): (r: Result<GameState, GameError>)
    requires WellFormed(gr) && |gr.guess| == |s.positions|
    ensures r.Failure? <==> s.solved
    ensures r.Success? ==>
      && r.value.guesses == s.guesses + [gr]
      && (r.value.solved <==> forall i :: 0 <= i < |gr.result| ==> gr.result[i].status == Correct)
      && r.value.Board() == AbsorbResult(s.Board(), AsCurrent(gr))
      && r.value.possibleSolutions <= s.possibleSolutions
      && r.value.possibleGuesses == s.possibleGuesses
  {
    if s.solved then Failure(GameAlreadySolved)
    else
      var b := AbsorbResultUnguarded(s.Board(), gr);
      Success(GameState(s.guesses + [gr], Evaluator.AllCorrect(gr.result), b.positions, b.constraints,
                        Filter(s.possibleSolutions, FilterPattern(b)), s.possibleGuesses))
  }

  /** A candidate survives a guess exactly when it meets the lower bounds and
      position rules of the new board. */
  lemma GuessFilters(s: GameState, gr: GuessResult, w: Word)
    requires WellFormed(gr) && |gr.guess| == |s.positions| && !s.solved
    requires w in s.possibleSolutions && NoLineTerminators(w)
    ensures w in Guess(s, gr).value.possibleSolutions <==> AtLeastConsistent(Guess(s, gr).value.Board(), w)
  {
  }

  /** Feedback computed from the real solution never filters it out, and the
      new board still describes it exactly. */
  lemma GuessKeepsSolution(s: GameState, guess: Word, solution: Word)
    requires !s.solved && |guess| == |solution| == |s.positions|
    requires solution in s.possibleSolutions && NoLineTerminators(solution)
    requires Consistent(s.Board(), solution)
    ensures var r := Guess(s, FromSolution(guess, solution).value).value;
      solution in r.possibleSolutions && Consistent(r.Board(), solution)
  {
    var gr := FromSolution(guess, solution).value;
    assert AsCurrent(gr) == Evaluator.FromSolution(guess, solution).value;
    AbsorbKeepsSolution(s.Board(), guess, solution);
    GuessFilters(s, gr, solution);
  }

  // ---------------------------------------------------------------------
  // `bestGuess()`: the letter histogram.

  /** Candidates holding `c` at some position not already solved as `c`. */
  function CountedIn(candidates: set<Word>, positions: seq<PositionData>, c: char): set<Word>
  {
    set x | x in candidates && c in Scoring.UnsolvedLetters(positions, x)
  }

  /** Letters some candidate holds at a position not solved as that letter. */
  function HistLetters(candidates: set<Word>, positions: seq<PositionData>): set<char>
  {
    set x, i | x in candidates && 0 <= i < |x| && !Scoring.Solves(positions, i, x[i]) :: x[i]
  }

  /** `hist`: per letter, how many candidates hold it at an unsolved
      position, each candidate counted once however many copies it has. */
  function LetterHist(candidates: set<Word>, positions: seq<PositionData>): map<char, nat>
  {
    map c | c in HistLetters(candidates, positions) :: |CountedIn(candidates, positions, c)|
  }

  /** `hist[letter] || 0`. */
  function Get(hist: map<char, nat>, c: char): nat
  {
    if c in hist then hist[c] else 0
  }

  /** One candidate's contribution: one more for each of its counted letters. */
  function AddWord(hist: map<char, nat>, positions: seq<PositionData>, x: Word): map<char, nat>
  {
    var counted := Scoring.UnsolvedLetters(positions, x);
    map c | c in hist.Keys + counted :: Get(hist, c) + if c in counted then 1 else 0
  }

  /** Counting one more candidate adds its letters to the histogram. */
  lemma LetterHistAdd(done: set<Word>, x: Word, positions: seq<PositionData>)
    requires x !in done
    ensures LetterHist(done + {x}, positions) == AddWord(LetterHist(done, positions), positions, x)
  {
    var before := LetterHist(done, positions);
    var after := LetterHist(done + {x}, positions);
    var want := AddWord(before, positions, x);
    var counted := Scoring.UnsolvedLetters(positions, x);
    forall c ensures c in after <==> c in want {
      HistLettersAdd(done, x, positions, c);
    }
    forall c | c in after ensures after[c] == want[c] {
      CountedInAdd(done, x, positions, c);
      HistLettersCounted(done, positions, c);
    }
    Scoring.MapsAgree(after, want);
  }

  lemma HistLettersAdd(done: set<Word>, x: Word, positions: seq<PositionData>, c: char)
    ensures c in HistLetters(done + {x}, positions) <==>
            c in HistLetters(done, positions) || c in Scoring.UnsolvedLetters(positions, x)
  {
    if c in HistLetters(done + {x}, positions) {
      var y, i :| y in done + {x} && 0 <= i < |y| && !Scoring.Solves(positions, i, y[i]) && y[i] == c;
      if y == x {
        assert c in Scoring.UnsolvedLetters(positions, x);
      } else {
        assert c in HistLetters(done, positions);
      }
    }
    if c in Scoring.UnsolvedLetters(positions, x) {
      var i :| 0 <= i < |x| && !Scoring.Solves(positions, i, x[i]) && x[i] == c;
      assert x in done + {x};
    }
  }

  lemma CountedInAdd(done: set<Word>, x: Word, positions: seq<PositionData>, c: char)
    requires x !in done
    ensures |CountedIn(done + {x}, positions, c)| ==
            |CountedIn(done, positions, c)| + if c in Scoring.UnsolvedLetters(positions, x) then 1 else 0
  {
    if c in Scoring.UnsolvedLetters(positions, x) {
      assert CountedIn(done + {x}, positions, c) == CountedIn(done, positions, c) + {x};
    } else {
      assert CountedIn(done + {x}, positions, c) == CountedIn(done, positions, c);
    }
  }

  /** A letter is in the histogram exactly when some candidate is counted for it. */
  lemma HistLettersCounted(candidates: set<Word>, positions: seq<PositionData>, c: char)
    ensures c in HistLetters(candidates, positions) <==> |CountedIn(candidates, positions, c)| > 0
  {
    if c in HistLetters(candidates, positions) {
      var y, i :| y in candidates && 0 <= i < |y| && !Scoring.Solves(positions, i, y[i]) && y[i] == c;
      assert y in CountedIn(candidates, positions, c);
    }
    if |CountedIn(candidates, positions, c)| > 0 {
      var y :| y in CountedIn(candidates, positions, c);
      var i :| 0 <= i < |y| && !Scoring.Solves(positions, i, y[i]) && y[i] == c;
    }
  }

  /** The inner loop of the histogram for one candidate `x`: each letter
      counted at its first position not solved as that letter. */
  method CountWord(hist: map<char, nat>, positions: seq<PositionData>, x: Word) returns (h: map<char, nat>)
    requires |x| <= |positions|
    ensures h == AddWord(hist, positions, x)
  {
    h := hist;
    var seen: set<char> := {};
    var i := 0;
    while i < |x|
      invariant i <= |x|
      invariant seen == set j | 0 <= j < i && !Scoring.Solves(positions, j, x[j]) :: x[j]
      invariant forall c :: c in h <==> c in hist || c in seen
      invariant forall c :: c in h ==> h[c] == Get(hist, c) + if c in seen then 1 else 0
    {
      var letter := x[i];
      ghost var before := seen;
      if positions[i].answer == Some(letter) || letter in seen {
        assert (set j | 0 <= j < i + 1 && !Scoring.Solves(positions, j, x[j]) :: x[j]) == before;
      } else {
        h := h[letter := Get(h, letter) + 1];
        seen := seen + {letter};
        assert (set j | 0 <= j < i + 1 && !Scoring.Solves(positions, j, x[j]) :: x[j]) == before + {letter};
      }
      i := i + 1;
    }
    assert seen == Scoring.UnsolvedLetters(positions, x);
    Scoring.MapsAgree(h, AddWord(hist, positions, x));
  }

  /** The histogram loop over the candidates, in any order. */
  method BuildLetterHist(candidates: set<Word>, positions: seq<PositionData>) returns (hist: map<char, nat>)
    requires forall x :: x in candidates ==> |x| <= |positions|
    ensures hist == LetterHist(candidates, positions)
  {
    hist := map[];
    var rest := candidates;
    ghost var done: set<Word> := {};
    assert LetterHist(done, positions) == map[];
    while rest != {}
      invariant rest <= candidates && done == candidates - rest
      invariant hist == LetterHist(done, positions)
    {
      var x :| x in rest;
      hist := CountWord(hist, positions, x);
      LetterHistAdd(done, x, positions);
      assert candidates - (rest - {x}) == done + {x};
      rest := rest - {x};
      done := done + {x};
    }
    assert done == candidates;
  }

  // ---------------------------------------------------------------------
  // `getWordScore(word, hist)`.

  /** The first occurrence of a letter at position `i` earns points unless
      the position is solved as that letter, the letter is excluded, it is
      ruled out here, or all its copies are already pinned. */
  predicate Awarded(b: Board, word: Word, i: nat)
    requires i < |word| && i < |b.positions|
  {
    var letter := word[i];
    var pos := b.positions[i];
    && pos.answer != Some(letter)
    && !(letter in b.constraints && Banned(b.constraints[letter]))
    && letter !in pos.cantBe
    && !(letter in b.constraints && b.constraints[letter].count == b.constraints[letter].solved
         && b.constraints[letter].specificity == Exactly)
  }

  /** The distinct letters among the first `n` of `word`. */
  function LettersIn(word: Word, n: nat): set<char>
    requires n <= |word|
  {
    set j | 0 <= j < n :: word[j]
  }

  /** What each distinct letter of `word` earns: its histogram entry when its
      first occurrence is awarded, nothing otherwise. */
  function Gains(b: Board, hist: map<char, nat>, word: Word): (g: map<char, int>)
    requires |word| <= |b.positions|
    ensures g.Keys == LettersIn(word, |word|)
  {
    map c | c in LettersIn(word, |word|) :: if Awarded(b, word, FirstIndex(word, c)) then Get(hist, c) else 0
  }

  /** The score of a word: the sum of its distinct letters' gains. */
  ghost function WordScore(b: Board, hist: map<char, nat>, word: Word): int
    requires |word| <= |b.positions|
  {
    SumOver(Gains(b, hist, word), LettersIn(word, |word|))
  }

  lemma FirstOccurrence(word: Word, i: nat)
    requires i < |word| && word[i] !in LettersIn(word, i)
    ensures FirstIndex(word, word[i]) == i
  {
  }

  lemma LettersInStep(word: Word, i: nat)
    requires i < |word|
    ensures LettersIn(word, i + 1) == LettersIn(word, i) + {word[i]}
  {
  }

  /** A letter met for the first time at position `i` adds its gain. */
  lemma ScoreStep(b: Board, hist: map<char, nat>, word: Word, i: nat)
    requires |word| <= |b.positions| && i < |word| && word[i] !in LettersIn(word, i)
    ensures SumOver(Gains(b, hist, word), LettersIn(word, i) + {word[i]}) ==
            SumOver(Gains(b, hist, word), LettersIn(word, i)) + if Awarded(b, word, i) then Get(hist, word[i]) else 0
  {
    FirstOccurrence(word, i);
    LettersInStep(word, i);
    SumOverRemove(Gains(b, hist, word), LettersIn(word, i) + {word[i]}, word[i]);
    assert LettersIn(word, i) + {word[i]} - {word[i]} == LettersIn(word, i);
  }

  method GetWordScore(b: Board, hist: map<char, nat>, word: Word) returns (score: int)
    requires |word| <= |b.positions|
    ensures score == WordScore(b, hist, word)
  {
    ghost var gains := Gains(b, hist, word);
    score := 0;
    var seenLetters: set<char> := {};
    var i := 0;
    while i < |word|
      invariant i <= |word|
      invariant seenLetters == LettersIn(word, i)
      invariant score == SumOver(gains, seenLetters)
    {
      var letter := word[i];
      var positionInfo := b.positions[i];
      LettersInStep(word, i);
      if letter !in seenLetters {
        ScoreStep(b, hist, word, i);
        seenLetters := seenLetters + {letter};
        if positionInfo.answer == Some(letter) {
        } else if letter in b.constraints && b.constraints[letter].count == 0 && b.constraints[letter].specificity == Exactly {
        } else if letter in positionInfo.cantBe {
        } else if letter in b.constraints && b.constraints[letter].count == b.constraints[letter].solved
                  && b.constraints[letter].specificity == Exactly {
        } else {
          score := score + Get(hist, letter);
        }
      }
      i := i + 1;
    }
  }

  // ---------------------------------------------------------------------
  // `bestGuess()`.

  /** 2 for a remaining candidate, 1 for another answer word, 0 otherwise. */
  function TieBreaker(cfg: Config, s: GameState, x: Word): nat
  {
    if x in s.possibleSolutions then 2 else if x in cfg.answerWords then 1 else 0
  }

  /** `(score, tie)` is lexicographically above `(bestScore, bestTie)`. */
  predicate Beats(score: int, tie: int, bestScore: int, bestTie: int)
  {
    score > bestScore || (score == bestScore && tie > bestTie)
  }

  /** The best guess so far among `done`, as the loop keeps it: none while
      nothing beats `(0, 0)`, otherwise a word nothing seen beats. */
  ghost predicate Leads(cfg: Config, s: GameState, hist: map<char, nat>, done: set<Word>,
                        best: Option<Word>, bestScore: int, bestTie: int)
    requires Scoring.Fits(done, s.positions)
  {
    && (best.None? ==> bestScore == 0 && bestTie == 0)
    && (best.Some? ==>
          && best.value in done
          && bestScore == WordScore(s.Board(), hist, best.value)
          && bestTie == TieBreaker(cfg, s, best.value)
          && Beats(bestScore, bestTie, 0, 0))
    && (forall w :: w in done ==> !Beats(WordScore(s.Board(), hist, w), TieBreaker(cfg, s, w), bestScore, bestTie))
  }

  lemma LeadsStep(cfg: Config, s: GameState, hist: map<char, nat>, done: set<Word>, x: Word,
                  best: Option<Word>, bestScore: int, bestTie: int)
    requires Scoring.Fits(done + {x}, s.positions)
    requires Leads(cfg, s, hist, done, best, bestScore, bestTie)
    ensures var score := WordScore(s.Board(), hist, x);
            var tie := TieBreaker(cfg, s, x);
            if Beats(score, tie, bestScore, bestTie)
            then Leads(cfg, s, hist, done + {x}, Some(x), score, tie)
            else Leads(cfg, s, hist, done + {x}, best, bestScore, bestTie)
  {
  }

  /** The loop of `bestGuess()` over the possible guesses, in any order: the
      leader it ends with, and the guesses that scored. */
  method RankGuesses(cfg: Config, s: GameState, hist: map<char, nat>)
      returns (best: Option<Word>, bestScore: int, bestTie: int, kept: set<Word>)
    requires Scoring.Fits(s.possibleGuesses, s.positions)
    ensures Leads(cfg, s, hist, s.possibleGuesses, best, bestScore, bestTie)
    ensures kept == set w | w in s.possibleGuesses && WordScore(s.Board(), hist, w) != 0
  {
    best, bestScore, bestTie := None, 0, 0;
    kept := {};
    var rest := s.possibleGuesses;
    ghost var done: set<Word> := {};
    while rest != {}
      invariant rest <= s.possibleGuesses && done == s.possibleGuesses - rest
      invariant forall w :: w in kept <==> w in done && WordScore(s.Board(), hist, w) != 0
      invariant Leads(cfg, s, hist, done, best, bestScore, bestTie)
    {
      var x :| x in rest;
      var score := GetWordScore(s.Board(), hist, x);
      var tie := TieBreaker(cfg, s, x);
      LeadsStep(cfg, s, hist, done, x, best, bestScore, bestTie);
      if score > bestScore || (score == bestScore && tie > bestTie) {
        best, bestScore, bestTie := Some(x), score, tie;
      }
      if score != 0 {
        kept := kept + {x};
      }
      assert s.possibleGuesses - (rest - {x}) == done + {x};
      rest := rest - {x};
      done := done + {x};
    }
    assert done == s.possibleGuesses;
  }

  /** `bestGuess()`: nothing without candidates, the candidate itself when
      one is left; otherwise a guess with the highest (score, tie-breaker),
      none when no guess beats (0, 0), and guesses scoring 0 are dropped from
      `possibleGuesses`. */
  method BestGuess(cfg: Config, s: GameState) returns (r: Option<Word>, next: GameState)
    requires Scoring.Fits(s.possibleSolutions, s.positions) && Scoring.Fits(s.possibleGuesses, s.positions)
    ensures |s.possibleSolutions| == 0 ==> r.None? && next == s
    ensures |s.possibleSolutions| == 1 ==> r.Some? && s.possibleSolutions == {r.value} && next == s
    ensures |s.possibleSolutions| >= 2 ==>
      var hist := LetterHist(s.possibleSolutions, s.positions);
      && next == s.(possibleGuesses := set w | w in s.possibleGuesses && WordScore(s.Board(), hist, w) != 0)
      && (r.None? <==> forall w :: w in s.possibleGuesses ==>
                         !Beats(WordScore(s.Board(), hist, w), TieBreaker(cfg, s, w), 0, 0))
      && (r.Some? ==>
            && r.value in s.possibleGuesses
            && Beats(WordScore(s.Board(), hist, r.value), TieBreaker(cfg, s, r.value), 0, 0)
            && forall w :: w in s.possibleGuesses ==>
                 !Beats(WordScore(s.Board(), hist, w), TieBreaker(cfg, s, w),
                        WordScore(s.Board(), hist, r.value), TieBreaker(cfg, s, r.value)))
  {
    next := s;
    if |s.possibleSolutions| == 0 {
      return None, s;
    } else if |s.possibleSolutions| == 1 {
      var w :| w in s.possibleSolutions;
      assert s.possibleSolutions == {w} by {
        assert |s.possibleSolutions - {w}| == 0;
      }
      return Some(w), s;
    }
    var hist := BuildLetterHist(s.possibleSolutions, s.positions);
    var best, bestScore, bestTie, kept := RankGuesses(cfg, s, hist);
    r := best;
    next := s.(possibleGuesses := kept);
  }
}

=== FILE: multiscore.dfy ===
/**
 * MultiScore: a tuple of integer scores compared element by element, most
 * significant first, with missing trailing elements read as 0.
 */
module MultiScore {

  /** `elements[i] ?? 0` */
  function Get(a: seq<int>, i: nat): int
  {
    if i < |a| then a[i] else 0
  }

  function Longest(a: seq<int>, b: seq<int>): nat
  {
    if |a| < |b| then |b| else |a|
  }

  /** The comparison loop from index `i` on. */
  function CompareFrom(a: seq<int>, b: seq<int>, i: nat): int
    decreases Longest(a, b) - i
  {
    if i >= Longest(a, b) then 0
    else if Get(a, i) != Get(b, i) then Get(a, i) - Get(b, i)
    else CompareFrom(a, b, i + 1)
  }

  /** `MultiScore.compare(a, b)`: the difference at the first index where the
      zero-padded tuples differ, and 0 when they never do. */
  function Compare(a: seq<int>, b: seq<int>): (r: int)
    ensures r == 0 <==> forall i :: Get(a, i) == Get(b, i)
  {
    CompareZeroIff(a, b, 0);
    CompareFrom(a, b, 0)
  }

  /** One step of the loop, stated for every index (beyond both lengths
      both sides read 0 and the result is 0). */
  lemma CompareUnfold(a: seq<int>, b: seq<int>, i: nat)
    ensures CompareFrom(a, b, i) ==
      if Get(a, i) != Get(b, i) then Get(a, i) - Get(b, i) else CompareFrom(a, b, i + 1)
  {
  }

  lemma {:induction false} CompareZeroIff(a: seq<int>, b: seq<int>, i: nat)
    ensures CompareFrom(a, b, i) == 0 <==> forall j :: i <= j ==> Get(a, j) == Get(b, j)
    decreases Longest(a, b) - i
  {
    if i < Longest(a, b) {
      CompareZeroIff(a, b, i + 1);
      if CompareFrom(a, b, i) == 0 {
        forall j | i <= j
          ensures Get(a, j) == Get(b, j)
        {
          if j > i {
            assert i + 1 <= j;
          }
        }
      }
    }
  }

  /** The sign of the comparison is decided at the first index where the
      padded tuples differ. */
  lemma {:induction false} CompareFirstDifference(a: seq<int>, b: seq<int>, i: nat)
    requires forall j :: 0 <= j < i ==> Get(a, j) == Get(b, j)
    requires Get(a, i) != Get(b, i)
    ensures Compare(a, b) == Get(a, i) - Get(b, i)
  {
    var k := 0;
    while k < i
      invariant k <= i
      invariant CompareFrom(a, b, k) == CompareFrom(a, b, 0)
    {
      CompareUnfold(a, b, k);
      k := k + 1;
    }
    CompareUnfold(a, b, i);
  }

  lemma CompareReflexive(a: seq<int>)
    ensures Compare(a, a) == 0
  {
  }

  /** A missing trailing element counts as 0: [x] and [x, 0] compare equal. */
  lemma CompareTrailingZero(a: seq<int>)
    ensures Compare(a + [0], a) == 0
    ensures Compare(a, a + [0]) == 0
  {
    forall i
      ensures Get(a + [0], i) == Get(a, i)
    {
    }
  }

  lemma {:induction false} CompareFromAntisymmetric(a: seq<int>, b: seq<int>, i: nat)
    ensures CompareFrom(a, b, i) == -CompareFrom(b, a, i)
    decreases Longest(a, b) - i
  {
    if i < Longest(a, b) {
      CompareFromAntisymmetric(a, b, i + 1);
    }
  }

  lemma CompareAntisymmetric(a: seq<int>, b: seq<int>)
    ensures Compare(a, b) == -Compare(b, a)
  {
    CompareFromAntisymmetric(a, b, 0);
  }

  lemma {:induction false} CompareFromTransitive(a: seq<int>, b: seq<int>, c: seq<int>, i: nat, n: nat)
    requires |a| <= n && |b| <= n && |c| <= n
    requires CompareFrom(a, b, i) <= 0 && CompareFrom(b, c, i) <= 0
    ensures CompareFrom(a, c, i) <= 0
    ensures CompareFrom(a, b, i) < 0 || CompareFrom(b, c, i) < 0 ==> CompareFrom(a, c, i) < 0
    decreases n - i
  {
    CompareUnfold(a, b, i);
    CompareUnfold(b, c, i);
    CompareUnfold(a, c, i);
    if i < n && Get(a, i) == Get(b, i) && Get(b, i) == Get(c, i) {
      CompareFromTransitive(a, b, c, i + 1, n);
    }
  }

  /** `compare` orders tuples as a total preorder: transitive, and strict as
      soon as one of the two steps is strict. */
  lemma CompareTransitive(a: seq<int>, b: seq<int>, c: seq<int>)
    requires Compare(a, b) <= 0 && Compare(b, c) <= 0
    ensures Compare(a, c) <= 0
    ensures Compare(a, b) < 0 || Compare(b, c) < 0 ==> Compare(a, c) < 0
  {
    CompareFromTransitive(a, b, c, 0, |a| + |b| + |c|);
  }

  // ---------------------------------------------------------------------
  // Sorting. `Array.prototype.sort` is stable; it is modelled as an
  // insertion sort that places each element after the ones it ties with.

  /** The comparator handed to `sort`: ascending on the key, or descending. */
  function Order<T>(key: T -> seq<int>, desc: bool, x: T, y: T): int
  {
    if desc then Compare(key(y), key(x)) else Compare(key(x), key(y))
  }

  lemma OrderAntisymmetric<T>(key: T -> seq<int>, desc: bool, x: T, y: T)
    ensures Order(key, desc, x, y) == -Order(key, desc, y, x)
  {
    CompareAntisymmetric(key(x), key(y));
  }

  lemma OrderTransitive<T>(key: T -> seq<int>, desc: bool, x: T, y: T, z: T)
    requires Order(key, desc, x, y) < 0 && Order(key, desc, y, z) <= 0
    ensures Order(key, desc, x, z) < 0
  {
    if desc {
      CompareTransitive(key(z), key(y), key(x));
    } else {
      CompareTransitive(key(x), key(y), key(z));
    }
  }

  ghost predicate SortedBy<T>(xs: seq<T>, key: T -> seq<int>, desc: bool)
  {
    forall i, j :: 0 <= i < j < |xs| ==> Order(key, desc, xs[i], xs[j]) <= 0
  }

  function Insert<T>(x: T, xs: seq<T>, key: T -> seq<int>, desc: bool): (r: seq<T>)
    requires SortedBy(xs, key, desc)
    ensures multiset(r) == multiset(xs) + multiset{x}
    ensures SortedBy(r, key, desc)
  {
    if |xs| == 0 then [x]
    else if Order(key, desc, x, xs[0]) < 0 then
      InsertFirst(x, xs, key, desc);
      [x] + xs
    else
      var rest := Insert(x, xs[1..], key, desc);
      InsertAfterHead(x, xs, rest, key, desc);
      [xs[0]] + rest
  }

  /** An element ordered strictly ahead of the head goes in front. */
  lemma InsertFirst<T>(x: T, xs: seq<T>, key: T -> seq<int>, desc: bool)
    requires SortedBy(xs, key, desc) && |xs| > 0 && Order(key, desc, x, xs[0]) < 0
    ensures SortedBy([x] + xs, key, desc)
  {
    forall j | 1 <= j < |xs|
      ensures Order(key, desc, x, xs[j]) < 0
    {
      OrderTransitive(key, desc, x, xs[0], xs[j]);
    }
  }

  /** Otherwise the head stays in front of the rest with `x` inserted. */
  lemma InsertAfterHead<T>(x: T, xs: seq<T>, rest: seq<T>, key: T -> seq<int>, desc: bool)
    requires SortedBy(xs, key, desc) && |xs| > 0 && Order(key, desc, x, xs[0]) >= 0
    requires multiset(rest) == multiset(xs[1..]) + multiset{x} && SortedBy(rest, key, desc)
    ensures multiset([xs[0]] + rest) == multiset(xs) + multiset{x}
    ensures SortedBy([xs[0]] + rest, key, desc)
  {
    assert xs == [xs[0]] + xs[1..];
    forall j | 0 <= j < |rest|
      ensures Order(key, desc, xs[0], rest[j]) <= 0
    {
      assert rest[j] in multiset(rest);
      if rest[j] == x {
        OrderAntisymmetric(key, desc, x, xs[0]);
      } else {
        assert rest[j] in multiset(xs[1..]);
        var k :| 0 <= k < |xs[1..]| && xs[1..][k] == rest[j];
        assert xs[k + 1] == rest[j];
      }
    }
  }

  /** A stable sort under `Order`: the result is a permutation of `xs` in
      which no element comes before one that orders strictly ahead of it. */
  function SortBy<T>(xs: seq<T>, key: T -> seq<int>, desc: bool): (r: seq<T>)
    ensures multiset(r) == multiset(xs)
    ensures SortedBy(r, key, desc)
  {
    if |xs| == 0 then []
    else
      assert xs == xs[..|xs| - 1] + [xs[|xs| - 1]];
      Insert(xs[|xs| - 1], SortBy(xs[..|xs| - 1], key, desc), key, desc)
  }

  function Identity(x: seq<int>): seq<int>
  {
    x
  }

  /** `MultiScore.sort(arr, desc)`: a permutation of `arr`, ascending under
      `compare`, or descending when `desc` is set. */
  function Sort(arr: seq<seq<int>>, desc: bool): (r: seq<seq<int>>)
    ensures multiset(r) == multiset(arr)
    ensures !desc ==> forall i, j :: 0 <= i < j < |r| ==> Compare(r[i], r[j]) <= 0
    ensures desc ==> forall i, j :: 0 <= i < j < |r| ==> Compare(r[i], r[j]) >= 0
  {
    var r := SortBy(arr, Identity, desc);
    assert forall i, j :: 0 <= i < j < |r| ==> Order(Identity, desc, r[i], r[j]) <= 0;
    if desc then
      assert forall i, j :: 0 <= i < j < |r| ==> Compare(r[i], r[j]) >= 0 by {
        forall i, j | 0 <= i < j < |r|
          ensures Compare(r[i], r[j]) >= 0
        {
          assert Order(Identity, desc, r[i], r[j]) <= 0;
          CompareAntisymmetric(r[i], r[j]);
        }
      }
      r
    else
      r
  }
}

=== FILE: patterns.dfy ===
/**
 * The regular expressions the engines build, as data. Every engine emits an
 * anchored pattern `^ lookaheads atoms $`: a set of zero-width count
 * assertions followed by one single-character atom per position. Only these
 * shapes are modelled, each by the language it denotes; letters are taken
 * to have no special meaning inside a pattern or a character class.
 */
module Patterns {
  import opened Words

  /** What may stand before each required copy of a letter: `.*` or `[^l]*`. */
  datatype Filler = AnyRun | OtherLettersRun

  /** A zero-width assertion at the start of the word. */
  datatype Lookahead =
      /** `(?=(F l){times})`, followed inside the lookahead by `[^l]*$` when `closed` */
    | Copies(filler: Filler, letter: char, times: nat, closed: bool)
      /** `(?=[^excluded]{width})` */
    | NoneOfFor(excluded: set<char>, width: nat)

  /** One position of the body: a literal letter, `[^...]`, or `.`. */
  datatype Atom = Literal(c: char) | AnyBut(excluded: set<char>) | Dot

  datatype Pattern = Pattern(lookaheads: set<Lookahead>, atoms: seq<Atom>)

  predicate FillerAccepts(f: Filler, letter: char, run: Word)
  {
    match f
    case AnyRun => NoLineTerminators(run)
    case OtherLettersRun => letter !in run
  }

  /** `(F l){n}` matched from the start of `w`, then `[^l]*$` when `closed`. */
  predicate CopiesHold(f: Filler, letter: char, n: nat, closed: bool, w: Word)
    decreases n, 1
  {
    if n == 0 then closed ==> letter !in w
    else exists k :: 0 <= k < |w| && CopyEndsAt(f, letter, n, closed, w, k)
  }

  /** The first of `n >= 1` repetitions ends with the copy at index `k`, and
      the remaining ones match after it. */
  predicate CopyEndsAt(f: Filler, letter: char, n: nat, closed: bool, w: Word, k: nat)
    requires 1 <= n && k < |w|
    decreases n, 0
  {
    w[k] == letter && FillerAccepts(f, letter, w[..k]) && CopiesHold(f, letter, n - 1, closed, w[k + 1..])
  }

  predicate LookaheadHolds(la: Lookahead, w: Word)
  {
    match la
    case Copies(f, letter, n, closed) => CopiesHold(f, letter, n, closed, w)
    case NoneOfFor(excluded, width) => |w| >= width && forall j :: 0 <= j < width ==> w[j] !in excluded
  }

  predicate AtomAccepts(a: Atom, c: char)
  {
    match a
    case Literal(x) => c == x
    case AnyBut(excluded) => c !in excluded
    case Dot => !IsLineTerminator(c)
  }

  /** `pattern.test(w)` for an anchored pattern without the `m` flag. */
  predicate Accepts(p: Pattern, w: Word)
  {
    && |w| == |p.atoms|
    && (forall i :: 0 <= i < |w| ==> AtomAccepts(p.atoms[i], w[i]))
    && (forall la :: la in p.lookaheads ==> LookaheadHolds(la, w))
  }

  // ---------------------------------------------------------------------

  function FirstIndex(w: Word, c: char): (k: nat)
    requires c in w
    ensures k < |w| && w[k] == c && c !in w[..k]
  {
    if w[0] == c then 0 else FirstIndex(w[1..], c) + 1
  }

  function LastIndex(w: Word, c: char): (k: nat)
    requires c in w
    ensures k < |w| && w[k] == c && c !in w[k + 1..]
  {
    if w[|w| - 1] == c then |w| - 1 else LastIndex(w[..|w| - 1], c)
  }

  lemma NotInCount(w: Word, c: char)
    ensures c !in w <==> Count(w, c) == 0
  {
  }

  lemma {:induction false} OtherLettersCopiesSound(letter: char, n: nat, closed: bool, w: Word)
    requires CopiesHold(OtherLettersRun, letter, n, closed, w)
    ensures if closed then Count(w, letter) == n else Count(w, letter) >= n
    decreases n
  {
    NotInCount(w, letter);
    if n > 0 {
      var k :| 0 <= k < |w| && CopyEndsAt(OtherLettersRun, letter, n, closed, w, k);
      CountConsSplit(w, k, letter);
      NotInCount(w[..k], letter);
      OtherLettersCopiesSound(letter, n - 1, closed, w[k + 1..]);
    }
  }

  lemma {:induction false} OtherLettersCopiesComplete(letter: char, n: nat, closed: bool, w: Word)
    requires if closed then Count(w, letter) == n else Count(w, letter) >= n
    ensures CopiesHold(OtherLettersRun, letter, n, closed, w)
    decreases n
  {
    NotInCount(w, letter);
    if n > 0 {
      var k := FirstIndex(w, letter);
      CountConsSplit(w, k, letter);
      NotInCount(w[..k], letter);
      OtherLettersCopiesComplete(letter, n - 1, closed, w[k + 1..]);
      assert CopyEndsAt(OtherLettersRun, letter, n, closed, w, k);
    }
  }

  /** With `[^l]*` before each copy the lookahead counts exactly: at least
      `n` copies, or exactly `n` when closed by `[^l]*$`. */
  lemma OtherLettersCopiesIff(letter: char, n: nat, closed: bool, w: Word)
    ensures CopiesHold(OtherLettersRun, letter, n, closed, w) <==>
      if closed then Count(w, letter) == n else Count(w, letter) >= n
  {
    if CopiesHold(OtherLettersRun, letter, n, closed, w) {
      OtherLettersCopiesSound(letter, n, closed, w);
    }
    if (if closed then Count(w, letter) == n else Count(w, letter) >= n) {
      OtherLettersCopiesComplete(letter, n, closed, w);
    }
  }

  /** With `.*` before each copy, a lookahead that holds still demands `n` copies. */
  lemma {:induction false} AnyRunCopiesLowerBound(letter: char, n: nat, closed: bool, w: Word)
    requires CopiesHold(AnyRun, letter, n, closed, w)
    ensures Count(w, letter) >= n
    decreases n
  {
    if n > 0 {
      var k :| 0 <= k < |w| && CopyEndsAt(AnyRun, letter, n, closed, w, k);
      CountConsSplit(w, k, letter);
      AnyRunCopiesLowerBound(letter, n - 1, closed, w[k + 1..]);
    }
  }

  /** With `.*` before each copy, `n >= 1` copies anywhere satisfy the
      lookahead, closed or not: the last copy matched can always be the last
      copy in the word, so `[^l]*$` caps nothing. */
  lemma {:induction false} AnyRunCopiesUpperBoundIgnored(letter: char, n: nat, closed: bool, w: Word)
    requires NoLineTerminators(w)
    requires n >= 1 && Count(w, letter) >= n
    ensures CopiesHold(AnyRun, letter, n, closed, w)
    decreases n
  {
    NotInCount(w, letter);
    var k := if n == 1 && closed then LastIndex(w, letter) else FirstIndex(w, letter);
    CountConsSplit(w, k, letter);
    assert FillerAccepts(AnyRun, letter, w[..k]);
    if n == 1 {
      assert CopiesHold(AnyRun, letter, 0, closed, w[k + 1..]);
    } else {
      NotInCount(w[..k], letter);
      AnyRunCopiesUpperBoundIgnored(letter, n - 1, closed, w[k + 1..]);
    }
    assert CopyEndsAt(AnyRun, letter, n, closed, w, k);
  }

  /** For words without line terminators, an `.*` lookahead with `n >= 1`
      holds exactly when the word has at least `n` copies. */
  lemma AnyRunCopiesIff(letter: char, n: nat, closed: bool, w: Word)
    requires NoLineTerminators(w) && n >= 1
    ensures CopiesHold(AnyRun, letter, n, closed, w) <==> Count(w, letter) >= n
  {
    if CopiesHold(AnyRun, letter, n, closed, w) {
      AnyRunCopiesLowerBound(letter, n, closed, w);
    }
    if Count(w, letter) >= n {
      AnyRunCopiesUpperBoundIgnored(letter, n, closed, w);
    }
  }

  /** `(?=.*a[^a]*$)` accepts "aa", which has two copies, not one. */
  lemma ClosedAnyRunAcceptsExtraCopy()
    ensures CopiesHold(AnyRun, 'a', 1, true, "aa")
    ensures Count("aa", 'a') == 2
  {
    AnyRunCopiesUpperBoundIgnored('a', 1, true, "aa");
  }

  /** `(?=[^a]*a[^a]*$)` rejects "aa": closing after `[^l]*` caps the count. */
  lemma ClosedOtherLettersRejectsExtraCopy()
    ensures !CopiesHold(OtherLettersRun, 'a', 1, true, "aa")
  {
    OtherLettersCopiesIff('a', 1, true, "aa");
  }
}

=== FILE: prototype.dfy ===
/**
 * The first engine (`index.ts`): an evaluator that claims solution letters
 * with `indexOf`, a game that always knows its solution, and a filter with
 * a "discovery" mode that looks for new letters instead of the answer.
 */
module Prototype {
  import opened Wrappers
  import opened Words
  import opened Patterns
  import Evaluator
  import opened Constraints

  // ---------------------------------------------------------------------
  // The evaluator.

  /** The solution's letters, each `None` once claimed by a hit. */
  type Pool = seq<Option<char>>

  /** `solutionLetters.indexOf(letter)`: the first unclaimed copy, or -1. */
  function IndexOf(pool: Pool, c: char): (k: int)
    ensures k == -1 <==> Some(c) !in pool
    ensures k != -1 ==> 0 <= k < |pool| && pool[k] == Some(c) && Some(c) !in pool[..k]
  {
    if |pool| == 0 then -1
    else if pool[0] == Some(c) then 0
    else
      var k := IndexOf(pool[1..], c);
      if k == -1 then -1
      else
        assert pool[..k + 1] == [pool[0]] + pool[1..][..k];
        k + 1
  }

  /** The statuses assigned so far, the unclaimed letters, and the tallies. */
  datatype Scan = Scan(statuses: seq<Option<LetterStatus>>, pool: Pool, correctCount: nat, wrongPositionCount: nat)

  /** Entries before `n` holding `Some(st)`. */
  function Marks(statuses: seq<Option<LetterStatus>>, st: LetterStatus, n: nat): nat
    requires n <= |statuses|
  {
    if n == 0 then 0 else Marks(statuses, st, n - 1) + if statuses[n - 1] == Some(st) then 1 else 0
  }

  lemma {:induction false} MarksUpdate(statuses: seq<Option<LetterStatus>>, k: nat, v: Option<LetterStatus>, st: LetterStatus, n: nat)
    requires k < |statuses| && n <= |statuses|
    ensures Marks(statuses[k := v], st, n) + (if k < n && statuses[k] == Some(st) then 1 else 0) ==
            Marks(statuses, st, n) + (if k < n && v == Some(st) then 1 else 0)
  {
    if n > 0 {
      MarksUpdate(statuses, k, v, st, n - 1);
    }
  }

  /** The first loop after `n` positions: every exact hit so far is Correct,
      its solution letter is claimed, and it is counted. */
  function ExactPass(g: Word, s: Word, n: nat): (st: Scan)
    requires |g| == |s| && n <= |g|
    ensures |st.statuses| == |g| && |st.pool| == |s|
    ensures forall i :: 0 <= i < |g| ==> st.statuses[i] == if i < n && g[i] == s[i] then Some(Correct) else None
    ensures forall j :: 0 <= j < |s| ==> st.pool[j] == if j < n && g[j] == s[j] then None else Some(s[j])
    ensures st.correctCount == Marks(st.statuses, Correct, |g|) && st.wrongPositionCount == 0
  {
    if n == 0 then
      var st := Scan(seq(|g|, _ => None), seq(|s|, j requires 0 <= j < |s| => Some(s[j])), 0, 0);
      assert Marks(st.statuses, Correct, |g|) == 0 by {
        ExactPassNoMarks(st.statuses, |g|);
      }
      st
    else
      var st := ExactPass(g, s, n - 1);
      if g[n - 1] == s[n - 1] then
        MarksUpdate(st.statuses, n - 1, Some(Correct), Correct, |g|);
        Scan(st.statuses[n - 1 := Some(Correct)], st.pool[n - 1 := None], st.correctCount + 1, st.wrongPositionCount)
      else st
  }

  lemma {:induction false} ExactPassNoMarks(statuses: seq<Option<LetterStatus>>, n: nat)
    requires n <= |statuses| && forall i :: 0 <= i < |statuses| ==> statuses[i] == None
    ensures Marks(statuses, Correct, n) == 0
  {
    if n > 0 {
      ExactPassNoMarks(statuses, n - 1);
    }
  }

  /** The second loop after `n` positions: a position without a status takes
      the first unclaimed copy of its letter and is WrongPosition, or is
      NotPresent when there is none. */
  function SearchPass(g: Word, s: Word, n: nat): (st: Scan)
    requires |g| == |s| && n <= |g|
    ensures |st.statuses| == |g| && |st.pool| == |s|
  {
    if n == 0 then ExactPass(g, s, |g|)
    else
      var st := SearchPass(g, s, n - 1);
      if st.statuses[n - 1].Some? then st
      else
        var k := IndexOf(st.pool, g[n - 1]);
        if k != -1 then
          Scan(st.statuses[n - 1 := Some(Present)], st.pool[k := None], st.correctCount, st.wrongPositionCount + 1)
        else
          Scan(st.statuses[n - 1 := Some(Absent)], st.pool, st.correctCount, st.wrongPositionCount)
  }

  /** The second loop only ever assigns the position it is at: positions
      before `n` have a status, Correct exactly at the hits, and the later
      ones are as the first loop left them. */
  lemma {:induction false} SearchPassShape(g: Word, s: Word, n: nat)
    requires |g| == |s| && n <= |g|
    ensures var st := SearchPass(g, s, n);
      && (forall i :: n <= i < |g| ==> st.statuses[i] == if g[i] == s[i] then Some(Correct) else None)
      && (forall i :: 0 <= i < n ==> st.statuses[i].Some? && (st.statuses[i] == Some(Correct) <==> g[i] == s[i]))
  {
    if n > 0 {
      SearchPassShape(g, s, n - 1);
      var st := SearchPass(g, s, n - 1);
      assert st.statuses[n - 1].None? <==> g[n - 1] != s[n - 1];
      if st.statuses[n - 1].None? {
        var v := if IndexOf(st.pool, g[n - 1]) != -1 then Some(Present) else Some(Absent);
        assert SearchPass(g, s, n).statuses == st.statuses[n - 1 := v];
      }
    }
  }

  /** The tallies count the Correct and WrongPosition statuses. */
  lemma {:induction false} SearchPassTallies(g: Word, s: Word, n: nat)
    requires |g| == |s| && n <= |g|
    ensures var st := SearchPass(g, s, n);
      && st.correctCount == Marks(st.statuses, Correct, |g|)
      && st.wrongPositionCount == Marks(st.statuses, Present, |g|)
  {
    if n == 0 {
      ExactPassNoPresent(g, s, |g|);
    } else {
      SearchPassTallies(g, s, n - 1);
      SearchTalliesStep(g, s, n);
    }
  }

  lemma SearchTalliesStep(g: Word, s: Word, n: nat)
    requires |g| == |s| && 0 < n <= |g|
    requires var st := SearchPass(g, s, n - 1);
      && st.correctCount == Marks(st.statuses, Correct, |g|)
      && st.wrongPositionCount == Marks(st.statuses, Present, |g|)
    ensures var st := SearchPass(g, s, n);
      && st.correctCount == Marks(st.statuses, Correct, |g|)
      && st.wrongPositionCount == Marks(st.statuses, Present, |g|)
  {
    var st := SearchPass(g, s, n - 1);
    if st.statuses[n - 1].None? {
      var found := IndexOf(st.pool, g[n - 1]) != -1;
      var v := if found then Some(Present) else Some(Absent);
      MarksUpdate(st.statuses, n - 1, v, Correct, |g|);
      MarksUpdate(st.statuses, n - 1, v, Present, |g|);
    }
  }

  /** The second loop has not yet reached the positions from `n` on. */
  lemma {:induction false} SearchPassUntouched(g: Word, s: Word, i: nat, n: nat)
    requires |g| == |s| && n <= i < |g|
    ensures SearchPass(g, s, n).statuses[i] == if g[i] == s[i] then Some(Correct) else None
  {
    if n > 0 {
      SearchPassUntouched(g, s, i, n - 1);
    }
  }

  lemma {:induction false} ExactPassNoPresent(g: Word, s: Word, n: nat)
    requires |g| == |s| && n <= |g|
    ensures Marks(ExactPass(g, s, |g|).statuses, Present, n) == 0
  {
    if n > 0 {
      ExactPassNoPresent(g, s, n - 1);
    }
  }

  function Min(a: nat, b: nat): nat { if a < b then a else b }

  lemma CountUpdate<T>(xs: seq<T>, k: nat, y: T, x: T)
    requires k < |xs|
    ensures Count(xs[k := y], x) + (if xs[k] == x then 1 else 0) == Count(xs, x) + (if y == x then 1 else 0)
  {
    CountConsSplit(xs, k, x);
    CountConsSplit(xs[k := y], k, x);
    assert xs[k := y][..k] == xs[..k] && xs[k := y][k + 1..] == xs[k + 1..];
  }

  /** After the first loop the unclaimed copies of a letter are those not
      taken by an exact hit. */
  lemma {:induction false} ExactPoolCount(g: Word, s: Word, c: char, pool: Pool, n: nat)
    requires |g| == |s| == |pool| && n <= |g|
    requires forall j :: 0 <= j < |s| ==> pool[j] == if g[j] == s[j] then None else Some(s[j])
    ensures Count(pool[..n], Some(c)) + Evaluator.Matches(g, s, c, n) == Count(s[..n], c)
  {
    if n > 0 {
      ExactPoolCount(g, s, c, pool, n - 1);
      CountPrefixStep(pool, n - 1, Some(c));
      CountPrefixStep(s, n - 1, c);
    }
  }

  /** After `n` steps of the second loop, the unclaimed copies of a letter
      are its unmatched copies less those already handed out as
      WrongPosition, which go to its leftmost misses. */
  lemma {:induction false} SearchPoolCount(g: Word, s: Word, c: char, n: nat)
    requires |g| == |s| && n <= |g|
    ensures Count(SearchPass(g, s, n).pool, Some(c)) ==
            Evaluator.Unmatched(g, s, c) - Min(Evaluator.Misses(g, s, c, n), Evaluator.Unmatched(g, s, c))
  {
    if n == 0 {
      var pool := ExactPass(g, s, |g|).pool;
      ExactPoolCount(g, s, c, pool, |g|);
      CountWhole(pool, Some(c));
      CountWhole(s, c);
    } else {
      SearchPoolCount(g, s, c, n - 1);
      SearchPoolStep(g, s, c, n);
    }
  }

  /** A position guessed right leaves the pool alone. */
  lemma SearchPoolAtHit(g: Word, s: Word, c: char, n: nat)
    requires |g| == |s| && 0 < n <= |g| && g[n - 1] == s[n - 1]
    ensures SearchPass(g, s, n).pool == SearchPass(g, s, n - 1).pool
    ensures Evaluator.Misses(g, s, c, n) == Evaluator.Misses(g, s, c, n - 1)
  {
    SearchPassUntouched(g, s, n - 1, n - 1);
  }

  /** A miss claims the first unclaimed copy of its letter, if there is one. */
  lemma SearchPoolAtMiss(g: Word, s: Word, n: nat)
    requires |g| == |s| && 0 < n <= |g| && g[n - 1] != s[n - 1]
    ensures var pool := SearchPass(g, s, n - 1).pool;
      var k := IndexOf(pool, g[n - 1]);
      SearchPass(g, s, n).pool == if k != -1 then pool[k := None] else pool
  {
    SearchPassUntouched(g, s, n - 1, n - 1);
  }

  /** How one step of the second loop moves the unclaimed copies of `c`:
      not at all when the position is no miss of `c`, by one when a miss of
      `c` finds a copy, and not at all when none is left. */
  lemma SearchPoolMove(g: Word, s: Word, c: char, n: nat)
    requires |g| == |s| && 0 < n <= |g|
    ensures var before := Count(SearchPass(g, s, n - 1).pool, Some(c));
      var after := Count(SearchPass(g, s, n).pool, Some(c));
      var m := Evaluator.Misses(g, s, c, n - 1);
      var m1 := Evaluator.Misses(g, s, c, n);
      (after == before && m1 == m) || (after + 1 == before && m1 == m + 1) || (after == before == 0 && m1 == m + 1)
  {
    if g[n - 1] == s[n - 1] {
      SearchPoolAtHit(g, s, c, n);
    } else {
      var pool := SearchPass(g, s, n - 1).pool;
      var k := IndexOf(pool, g[n - 1]);
      SearchPoolAtMiss(g, s, n);
      if k != -1 {
        CountUpdate(pool, k, None, Some(c));
      }
    }
  }

  /** One step of the second loop: a miss of `c` claims one of its
      unclaimed copies while any are left. */
  lemma SearchPoolStep(g: Word, s: Word, c: char, n: nat)
    requires |g| == |s| && 0 < n <= |g|
    requires Count(SearchPass(g, s, n - 1).pool, Some(c)) ==
             Evaluator.Unmatched(g, s, c) - Min(Evaluator.Misses(g, s, c, n - 1), Evaluator.Unmatched(g, s, c))
    ensures Count(SearchPass(g, s, n).pool, Some(c)) ==
            Evaluator.Unmatched(g, s, c) - Min(Evaluator.Misses(g, s, c, n), Evaluator.Unmatched(g, s, c))
  {
    SearchPoolMove(g, s, c, n);
  }

  /** A status, once assigned by the second loop, stays. */
  lemma {:induction false} SearchPassStable(g: Word, s: Word, i: nat, n: nat)
    requires |g| == |s| && i < n <= |g|
    ensures SearchPass(g, s, n).statuses[i] == SearchPass(g, s, i + 1).statuses[i]
  {
    if n > i + 1 {
      SearchPassStable(g, s, i, n - 1);
    }
  }

  /** Every status the second loop leaves is the Wordle status. */
  lemma SearchPassStatus(g: Word, s: Word, i: nat)
    requires |g| == |s| && i < |g|
    ensures SearchPass(g, s, |g|).statuses[i] == Some(Evaluator.WordleStatus(g, s, i))
  {
    SearchPassStable(g, s, i, |g|);
    SearchPassShape(g, s, i);
    SearchPoolCount(g, s, g[i], i);
  }

  lemma {:induction false} StatusCountMarks(result: seq<Evaluator.LetterResult>, statuses: seq<Option<LetterStatus>>, st: LetterStatus, n: nat)
    requires n <= |result| == |statuses|
    requires forall i :: 0 <= i < |result| ==> statuses[i] == Some(result[i].status)
    ensures Evaluator.StatusCount(result[..n], st) == Marks(statuses, st, n)
  {
    if n > 0 {
      StatusCountMarks(result, statuses, st, n - 1);
      assert result[..n][..n - 1] == result[..n - 1];
    }
  }

  /** This engine's `GuessResult`, which keeps its solution. */
  datatype GuessResult = GuessResult(
    guess: Word, solution: Word, result: seq<Evaluator.LetterResult>,
    correctCount: nat, wrongPositionCount: nat)

  /** `new GuessResult(guess, solution)`: the `indexOf` colouring gives the
      Wordle statuses, the same as the count-based evaluator, and the
      tallies count the Correct and WrongPosition statuses. */
  function NewGuessResult(guess: Word, solution: Word): (r: Result<GuessResult, Evaluator.EvalError>)
    ensures r.Failure? <==> |guess| != |solution|
    ensures r.Failure? ==> r.error == Evaluator.SolutionLengthMismatch
    ensures r.Success? ==> r.value.guess == guess && r.value.solution == solution
    ensures r.Success? ==> r.value.result == Evaluator.WordleResult(guess, solution)
    ensures r.Success? ==> r.value.correctCount == Evaluator.StatusCount(r.value.result, Correct)
    ensures r.Success? ==> r.value.wrongPositionCount == Evaluator.StatusCount(r.value.result, Present)
  {
    if |guess| != |solution| then Failure(Evaluator.SolutionLengthMismatch)
    else
      var st := SearchPass(guess, solution, |guess|);
      assert forall i :: 0 <= i < |guess| ==> st.statuses[i] == Some(Evaluator.WordleStatus(guess, solution, i)) by {
        forall i | 0 <= i < |guess| ensures st.statuses[i] == Some(Evaluator.WordleStatus(guess, solution, i)) {
          SearchPassStatus(guess, solution, i);
        }
      }
      var result := seq(|guess|, i requires 0 <= i < |guess| => Evaluator.LetterResult(guess[i], i, st.statuses[i].value));
      SearchPassTallies(guess, solution, |guess|);
      assert result[..|result|] == result;
      StatusCountMarks(result, st.statuses, Correct, |result|);
      StatusCountMarks(result, st.statuses, Present, |result|);
      Success(GuessResult(guess, solution, result, st.correctCount, st.wrongPositionCount))
  }

  /** `correctCount` is the number of positions where guess and solution agree. */
  lemma CorrectCountIsExactHits(guess: Word, solution: Word)
    requires |guess| == |solution|
    ensures NewGuessResult(guess, solution).value.correctCount == |set i | 0 <= i < |guess| && guess[i] == solution[i]|
  {
    var gr := NewGuessResult(guess, solution).value;
    assert gr.result[..|gr.result|] == gr.result;
    Evaluator.StatusCountTagged(gr.result, Correct, |gr.result|);
    assert (set i | 0 <= i < |gr.result| && gr.result[i].status == Correct) == set i | 0 <= i < |guess| && guess[i] == solution[i];
  }

  /** The guess is the solution exactly when every tile is Correct. */
  lemma SolvedIffAllCorrect(guess: Word, solution: Word)
    requires |guess| == |solution|
    ensures guess == solution <==> Evaluator.AllCorrect(Evaluator.WordleResult(guess, solution))
  {
    if Evaluator.AllCorrect(Evaluator.WordleResult(guess, solution)) {
      forall i | 0 <= i < |guess| ensures guess[i] == solution[i] {
        assert Evaluator.WordleResult(guess, solution)[i].status == Correct;
      }
    }
  }

  // ---------------------------------------------------------------------
  // The game and `updateLetterPossibilities`.

  /** A count without a `solved` tally. */
  datatype CountInfo = CountInfo(count: nat, specificity: Specificity)

  datatype ProtoBoard = ProtoBoard(positions: seq<PositionData>, constraints: map<char, CountInfo>)

  datatype ProtoGame = ProtoGame(
    solution: Word, guesses: seq<GuessResult>, solved: bool,
    positions: seq<PositionData>, answerMustContain: map<char, CountInfo>)
  {
    function Board(): ProtoBoard { ProtoBoard(positions, answerMustContain) }
  }

  datatype GameError =
    | NotAWord           // "Guess must be a valid word"
    | GameAlreadySolved  // "Game already solved"
    | LengthDiffers      // "Guess and solution must be the same length"

  /** `new Game(solution)`: one empty position per letter of the solution,
      no guesses and no letter constrained. */
  function NewGame(solution: Word): (s: ProtoGame)
    ensures s.solution == solution && s.guesses == [] && !s.solved
    ensures |s.positions| == |solution|
    ensures forall i :: 0 <= i < |s.positions| ==> s.positions[i].answer.None? && s.positions[i].cantBe == []
    ensures s.answerMustContain == map[]
  {
    ProtoGame(solution, [], false, EmptyPositions(|solution|), map[])
  }

  /** The first loop: each letter's count raised to its hits when larger,
      becoming a lower bound. */
  function RaiseAll(constraints: map<char, CountInfo>, hits: map<char, nat>): (r: map<char, CountInfo>)
    ensures forall c :: c in r <==> c in constraints || c in hits
    ensures forall c :: c in r ==>
      r[c] == if c in hits && (c !in constraints || constraints[c].count < hits[c])
              then CountInfo(hits[c], GreaterThan) else constraints[c]
  {
    map c | c in constraints.Keys + hits.Keys ::
      if c in hits && (c !in constraints || constraints[c].count < hits[c])
      then CountInfo(hits[c], GreaterThan) else constraints[c]
  }

  /** Step `i` of the second loop: a Correct letter always becomes the
      position's answer, a WrongPosition letter is ruled out there, and a
      NotPresent letter becomes exact, looked up without a guard when the
      guess hit it elsewhere. */
  function AbsorbAt(gr: GuessResult, hits: map<char, nat>, i: nat, b: ProtoBoard): (r: ProtoBoard)
    requires i < |gr.guess| && i < |gr.result| && i < |b.positions|
    requires forall c :: c in hits ==> c in b.constraints
    ensures forall c :: c in hits ==> c in r.constraints
    ensures |r.positions| == |b.positions|
  {
    var letter := gr.guess[i];
    var status := gr.result[i].status;
    var pos := b.positions[i];
    var positions :=
      if status == Correct then b.positions[i := pos.(answer := Some(letter))]
      else if status == Present then b.positions[i := pos.(cantBe := pos.cantBe + [letter])]
      else b.positions;
    var constraints :=
      if status != Absent then b.constraints
      else if letter in hits then b.constraints[letter := b.constraints[letter].(specificity := Exactly)]
      else b.constraints[letter := CountInfo(0, Exactly)];
    ProtoBoard(positions, constraints)
  }

  function AbsorbUpTo(gr: GuessResult, hits: map<char, nat>, n: nat, b: ProtoBoard): (r: ProtoBoard)
    requires n <= |gr.guess| && n <= |gr.result| && n <= |b.positions|
    requires forall c :: c in hits ==> c in b.constraints
    ensures forall c :: c in hits ==> c in r.constraints
    ensures |r.positions| == |b.positions|
  {
    if n == 0 then b else AbsorbAt(gr, hits, n - 1, AbsorbUpTo(gr, hits, n - 1, b))
  }

  /** The result is well formed when every entry sits at its letter. */
  predicate Aligned(gr: GuessResult)
  {
    |gr.result| == |gr.guess| && forall i :: 0 <= i < |gr.result| ==> gr.result[i].letter == gr.guess[i]
  }

  lemma {:induction false} AbsorbUpToPositions(gr: GuessResult, hits: map<char, nat>, n: nat, b: ProtoBoard)
    requires n <= |gr.guess| && n <= |gr.result| && n <= |b.positions|
    requires forall c :: c in hits ==> c in b.constraints
    ensures var r := AbsorbUpTo(gr, hits, n, b);
      forall i :: 0 <= i < |b.positions| ==>
        r.positions[i] ==
          (if i >= n then b.positions[i]
           else if gr.result[i].status == Correct then b.positions[i].(answer := Some(gr.guess[i]))
           else if gr.result[i].status == Present then b.positions[i].(cantBe := b.positions[i].cantBe + [gr.guess[i]])
           else b.positions[i])
  {
    if n > 0 {
      AbsorbUpToPositions(gr, hits, n - 1, b);
    }
  }

  /** `updateLetterPossibilities(guess)`: every position takes its own mark
      (Correct overwrites the answer, pinned or not; WrongPosition appends to
      `cantBe`). What each letter's entry becomes is `UpdateLetter`. */
  function Update(b: ProtoBoard, gr: GuessResult): (r: ProtoBoard)
    requires |gr.guess| == |gr.result| == |b.positions|
    ensures |r.positions| == |b.positions|
    ensures forall i :: 0 <= i < |b.positions| ==>
      r.positions[i] ==
        (if gr.result[i].status == Correct then b.positions[i].(answer := Some(gr.guess[i]))
         else if gr.result[i].status == Present then b.positions[i].(cantBe := b.positions[i].cantBe + [gr.guess[i]])
         else b.positions[i])
  {
    var hits := Evaluator.CorrectLetterCountsUpTo(gr.result, |gr.result|);
    var b0 := ProtoBoard(b.positions, RaiseAll(b.constraints, hits));
    AbsorbUpToPositions(gr, hits, |gr.guess|, b0);
    AbsorbUpTo(gr, hits, |gr.guess|, b0)
  }

  /** One letter through the second loop: a hit letter keeps its count and
      turns exact at its first NotPresent mark; any other letter is excluded
      once marked NotPresent, and untouched otherwise. */
  lemma {:induction false} AbsorbUpToLetter(gr: GuessResult, hits: map<char, nat>, n: nat, b: ProtoBoard, c: char)
    requires Aligned(gr) && n <= |gr.guess| && n <= |b.positions|
    requires forall c :: c in hits ==> c in b.constraints
    ensures var r := AbsorbUpTo(gr, hits, n, b);
      var absent := Evaluator.Tagged(gr.result, c, Absent, n) > 0;
      if c in hits then
        r.constraints[c] == b.constraints[c].(specificity := if absent then Exactly else b.constraints[c].specificity)
      else if absent then
        c in r.constraints && r.constraints[c] == CountInfo(0, Exactly)
      else
        (c in r.constraints <==> c in b.constraints) && (c in b.constraints ==> r.constraints[c] == b.constraints[c])
  {
    if n > 0 {
      AbsorbUpToLetter(gr, hits, n - 1, b, c);
    }
  }

  /** The constraint a letter has after a guess: its count raised to the
      hits when larger, exact once a copy is marked NotPresent; a letter
      marked only NotPresent is excluded; any other letter is unchanged. */
  lemma UpdateLetter(b: ProtoBoard, gr: GuessResult, c: char)
    requires Aligned(gr) && |gr.guess| == |b.positions|
    ensures var r := Update(b, gr);
      var h := Evaluator.Hits(gr.result, c, |gr.result|);
      var absent := Evaluator.Tagged(gr.result, c, Absent, |gr.result|) > 0;
      if h > 0 then
        var raised := c !in b.constraints || b.constraints[c].count < h;
        c in r.constraints &&
        r.constraints[c] == CountInfo(if raised then h else b.constraints[c].count,
                                      if absent then Exactly else if raised then GreaterThan else b.constraints[c].specificity)
      else if absent then
        c in r.constraints && r.constraints[c] == CountInfo(0, Exactly)
      else
        (c in r.constraints <==> c in b.constraints) && (c in b.constraints ==> r.constraints[c] == b.constraints[c])
  {
    var hits := Evaluator.CorrectLetterCountsUpTo(gr.result, |gr.result|);
    AbsorbUpToLetter(gr, hits, |gr.guess|, ProtoBoard(b.positions, RaiseAll(b.constraints, hits)), c);
  }

  /** `guess(word)`: a word outside the lists is refused first, then a solved
      game; otherwise the feedback against the solution is recorded and
      folded in, and the game is solved exactly when the word is the
      solution. */
  function Guess(cfg: Config, s: ProtoGame, guess: Word): (r: Result<(ProtoGame, GuessResult), GameError>)
    requires |s.positions| == |s.solution|
    ensures guess !in cfg.AllWords() ==> r == Failure(NotAWord)
    ensures guess in cfg.AllWords() && s.solved ==> r == Failure(GameAlreadySolved)
    ensures guess in cfg.AllWords() && !s.solved ==> (r.Failure? <==> |guess| != |s.solution|)
    ensures guess in cfg.AllWords() && !s.solved && |guess| != |s.solution| ==> r == Failure(LengthDiffers)
    ensures r.Failure? ==> r.error != LengthDiffers || |guess| != |s.solution|
    ensures r.Success? ==>
      var (next, gr) := r.value;
      && gr.guess == guess && |guess| == |s.solution|
      && gr.result == Evaluator.WordleResult(guess, s.solution)
      && next.guesses == s.guesses + [gr]
      && next.solution == s.solution
      && (next.solved <==> Evaluator.AllCorrect(gr.result))
      && next.Board() == Update(s.Board(), gr)
  {
    if guess !in cfg.AllWords() then Failure(NotAWord)
    else if s.solved then Failure(GameAlreadySolved)
    else match NewGuessResult(guess, s.solution)
      case Failure(_) => Failure(LengthDiffers)
      case Success(gr) =>
        var b := Update(s.Board(), gr);
        SolvedIffAllCorrect(guess, s.solution);
        Success((ProtoGame(s.solution, s.guesses + [gr], guess == s.solution, b.positions, b.constraints), gr))
  }

  // ---------------------------------------------------------------------
  // `generateRegex(discoveryMode)`.

  /** Positions whose answer is `c`. */
  function Pinned(positions: seq<PositionData>, c: char): nat
  {
    |set i | 0 <= i < |positions| && positions[i].answer == Some(c)|
  }

  /** Copies of `c` still to be looked for: the count, less the pinned
      positions in discovery mode. */
  function Wanted(b: ProtoBoard, discovery: bool, c: char): int
    requires c in b.constraints
  {
    b.constraints[c].count - if discovery then Pinned(b.positions, c) else 0
  }

  predicate Excluded(info: CountInfo)
  {
    info.specificity == Exactly && info.count == 0
  }

  /** Excluded letters, and letters with no copies left to look for. */
  function BannedIn(b: ProtoBoard, discovery: bool): set<char>
  {
    set c | c in b.constraints && (Excluded(b.constraints[c]) || Wanted(b, discovery, c) <= 0)
  }

  /** The letters that get a lookahead. */
  function LookingFor(b: ProtoBoard, discovery: bool): set<char>
  {
    set c | c in b.constraints && !Excluded(b.constraints[c]) && Wanted(b, discovery, c) > 0
  }

  function AtomAt(pos: PositionData, banned: set<char>, looking: set<char>, discovery: bool): Atom
  {
    if pos.answer.Some? && !discovery then Literal(pos.answer.value)
    else if |pos.cantBe| > 0 || |banned| > 0 || (pos.answer.Some? && discovery) then
      AnyBut((set c | c in pos.cantBe) + banned + if discovery && pos.answer.Some? then {pos.answer.value} + looking else {})
    else Dot
  }

  /** `(?=(.*l){wanted}[^l]*$)` per letter looked for, the `[^l]*$` only
      for an exact count; per position the answer (normal mode), or a class
      excluding `cantBe`, the banned letters and, at a pinned position in
      discovery mode, its answer and every letter looked for. `ProtoPattern`
      states what it accepts. */
  function ProtoRegex(b: ProtoBoard, discovery: bool): Pattern
  {
    var banned := BannedIn(b, discovery);
    var looking := LookingFor(b, discovery);
    Pattern(
      set c | c in looking :: Copies(AnyRun, c, Wanted(b, discovery, c) as nat, b.constraints[c].specificity == Exactly),
      seq(|b.positions|, i requires 0 <= i < |b.positions| => AtomAt(b.positions[i], banned, looking, discovery)))
  }

  /** The plain reading of the pattern. */
  ghost predicate Admits(b: ProtoBoard, discovery: bool, w: Word)
  {
    && |w| == |b.positions|
    && (forall c :: c in LookingFor(b, discovery) ==> Count(w, c) >= Wanted(b, discovery, c))
    && (forall i :: 0 <= i < |w| ==>
          if b.positions[i].answer.Some? && !discovery then w[i] == b.positions[i].answer.value
          else
            && w[i] !in b.positions[i].cantBe && w[i] !in BannedIn(b, discovery)
            && (discovery && b.positions[i].answer.Some? ==>
                  w[i] != b.positions[i].answer.value && w[i] !in LookingFor(b, discovery)))
  }

  /** The lookaheads hold exactly when every letter looked for has enough copies. */
  lemma ProtoLookaheadsIff(b: ProtoBoard, discovery: bool, w: Word)
    requires NoLineTerminators(w)
    ensures (forall la :: la in ProtoRegex(b, discovery).lookaheads ==> LookaheadHolds(la, w)) <==>
            (forall c :: c in LookingFor(b, discovery) ==> Count(w, c) >= Wanted(b, discovery, c))
  {
    var p := ProtoRegex(b, discovery);
    forall c | c in LookingFor(b, discovery)
      ensures LookaheadHolds(Copies(AnyRun, c, Wanted(b, discovery, c) as nat, b.constraints[c].specificity == Exactly), w)
              <==> Count(w, c) >= Wanted(b, discovery, c)
    {
      AnyRunCopiesIff(c, Wanted(b, discovery, c) as nat, b.constraints[c].specificity == Exactly, w);
    }
    if forall la :: la in p.lookaheads ==> LookaheadHolds(la, w) {
      forall c | c in LookingFor(b, discovery) ensures Count(w, c) >= Wanted(b, discovery, c) {
        assert Copies(AnyRun, c, Wanted(b, discovery, c) as nat, b.constraints[c].specificity == Exactly) in p.lookaheads;
      }
    }
  }

  /** One word against the assembled regex. */
  lemma ProtoRegexAccepts(b: ProtoBoard, discovery: bool, w: Word)
    requires NoLineTerminators(w)
    ensures Accepts(ProtoRegex(b, discovery), w) <==> Admits(b, discovery, w)
  {
    ProtoLookaheadsIff(b, discovery, w);
  }

  lemma ProtoRegexIff(b: ProtoBoard, discovery: bool)
    ensures forall w :: NoLineTerminators(w) ==> (Accepts(ProtoRegex(b, discovery), w) <==> Admits(b, discovery, w))
  {
    forall w | NoLineTerminators(w)
      ensures Accepts(ProtoRegex(b, discovery), w) <==> Admits(b, discovery, w)
    {
      ProtoRegexAccepts(b, discovery, w);
    }
  }

  /** The prototype's regex: on words without line terminators it accepts
      exactly the plain reading, with lower bounds only, in both modes. */
  function ProtoPattern(b: ProtoBoard, discovery: bool): (p: Pattern)
    ensures forall w :: NoLineTerminators(w) ==> (Accepts(p, w) <==> Admits(b, discovery, w))
  {
    ProtoRegexIff(b, discovery);
    ProtoRegex(b, discovery)
  }

  /** In discovery mode a letter with no copies left to find appears nowhere
      in an accepted word, and no letter still looked for sits on a pinned
      position; in normal mode the pinned positions are kept. */
  lemma DiscoveryAvoidsKnownLetters(b: ProtoBoard, w: Word, c: char)
    requires NoLineTerminators(w) && Accepts(ProtoPattern(b, true), w)
    ensures c in b.constraints && Wanted(b, true, c) <= 0 ==> c !in w
    ensures forall i :: 0 <= i < |w| && b.positions[i].answer.Some? ==>
              w[i] != b.positions[i].answer.value && w[i] !in LookingFor(b, true)
  {
    if c in b.constraints && Wanted(b, true, c) <= 0 {
      assert c in BannedIn(b, true);
    }
  }

  /** In normal mode every pinned position keeps its answer. */
  lemma NormalKeepsAnswers(b: ProtoBoard, w: Word)
    requires NoLineTerminators(w) && Accepts(ProtoPattern(b, false), w)
    ensures forall i :: 0 <= i < |w| && b.positions[i].answer.Some? ==> w[i] == b.positions[i].answer.value
  {
  }
}

=== FILE: scoring.dfy ===
/**
 * How the current engine scores a guess: the two histograms over the
 * remaining candidate solutions, and the three-part score of one word.
 */
module Scoring {
  import opened Wrappers
  import opened Words
  import opened Utilities
  import opened Constraints

  /** `ScoringHist`: per letter, a row of counts keyed by a copy count
      (`wordsWithLetterCount`) or by a position (`wordsWithLetterInPos`). */
  datatype ScoringHist = ScoringHist(wordsWithLetterCount: map<char, map<nat, nat>>, wordsWithLetterInPos: map<char, map<nat, nat>>)

  /** Position `i` is solved as letter `c`. */
  predicate Solves(positions: seq<PositionData>, i: nat, c: char)
  {
    i < |positions| && positions[i].answer == Some(c)
  }

  /** Every candidate is as long as the board. */
  predicate Fits(candidates: set<Word>, positions: seq<PositionData>)
  {
    forall w :: w in candidates ==> |w| == |positions|
  }

  /** Copies of `c` among the first `n` letters of `w` at positions not solved as `c`. */
  function UnsolvedUpTo(positions: seq<PositionData>, w: Word, c: char, n: nat): (r: nat)
    requires n <= |w|
    ensures r <= n
  {
    if n == 0 then 0
    else UnsolvedUpTo(positions, w, c, n - 1) + if w[n - 1] == c && !Solves(positions, n - 1, c) then 1 else 0
  }

  function UnsolvedCopies(positions: seq<PositionData>, w: Word, c: char): (r: nat)
    ensures r <= |w|
  {
    UnsolvedUpTo(positions, w, c, |w|)
  }

  function Itself(c: char): char { c }

  /** The reducer handed to `groupBy` when the histogram is built: a copy at a
      position already solved as that letter does not count. */
  function SkipSolved(positions: seq<PositionData>): (nat, char, nat) -> nat
  {
    (acc: nat, letter: char, i: nat) => if Solves(positions, i, letter) then acc else acc + 1
  }

  lemma {:induction false} SkipSolvedFold(positions: seq<PositionData>, w: Word, c: char, n: nat)
    requires n <= |w|
    ensures FoldItems(KeyedItems(w, Itself, c, n), SkipSolved(positions), 0) == UnsolvedUpTo(positions, w, c, n)
  {
    if n > 0 {
      SkipSolvedFold(positions, w, c, n - 1);
      var prev := KeyedItems(w, Itself, c, n - 1);
      if w[n - 1] == c {
        assert KeyedItems(w, Itself, c, n) == prev + [(w[n - 1], n - 1)];
        assert (prev + [(w[n - 1], n - 1)])[..|prev|] == prev;
      } else {
        assert KeyedItems(w, Itself, c, n) == prev;
      }
    }
  }

  /** The per-word `groupBy` of the histogram: every letter of the word, with
      its number of unsolved copies. */
  function UnsolvedLetterCounts(positions: seq<PositionData>, w: Word): (r: map<char, nat>)
    ensures forall c :: c in r <==> c in w
    ensures forall c :: c in r ==> r[c] == UnsolvedCopies(positions, w, c)
  {
    var r := GroupByFold(w, Itself, SkipSolved(positions), 0);
    forall c ensures c in r <==> c in w {
      if c in w {
        var j :| 0 <= j < |w| && w[j] == c;
        assert Itself(w[j]) == c;
      }
    }
    forall c | c in r ensures r[c] == UnsolvedCopies(positions, w, c) {
      SkipSolvedFold(positions, w, c, |w|);
    }
    r
  }

  // ---------------------------------------------------------------------
  // The histograms, declaratively.

  function LettersOf(candidates: set<Word>): set<char>
  {
    set w, j | w in candidates && 0 <= j < |w| :: w[j]
  }

  /** Candidates with at least `k` unsolved copies of `c`. */
  function WithAtLeast(candidates: set<Word>, positions: seq<PositionData>, c: char, k: nat): set<Word>
  {
    set w | w in candidates && UnsolvedCopies(positions, w, c) >= k
  }

  /** Candidates with `c` at position `i`, not solved as `c`. */
  function WithAt(candidates: set<Word>, positions: seq<PositionData>, c: char, i: nat): set<Word>
  {
    set w | w in candidates && i < |w| && w[i] == c && !Solves(positions, i, c)
  }

  function CountRow(candidates: set<Word>, positions: seq<PositionData>, c: char): map<nat, nat>
  {
    map k | 1 <= k <= |positions| && |WithAtLeast(candidates, positions, c, k)| > 0 :: |WithAtLeast(candidates, positions, c, k)|
  }

  function PosRow(candidates: set<Word>, positions: seq<PositionData>, c: char): map<nat, nat>
  {
    map i | 0 <= i < |positions| && |WithAt(candidates, positions, c, i)| > 0 :: |WithAt(candidates, positions, c, i)|
  }

  /** `wordsWithLetterCount[c][k]`: how many candidates have at least `k`
      unsolved copies of `c`; only non-zero entries exist. */
  function CountHist(candidates: set<Word>, positions: seq<PositionData>): map<char, map<nat, nat>>
  {
    map c | c in LettersOf(candidates) && |CountRow(candidates, positions, c)| > 0 :: CountRow(candidates, positions, c)
  }

  /** `wordsWithLetterInPos[c][i]`: how many candidates have `c` at the
      unsolved position `i`; only non-zero entries exist. */
  function PosHist(candidates: set<Word>, positions: seq<PositionData>): map<char, map<nat, nat>>
  {
    map c | c in LettersOf(candidates) && |PosRow(candidates, positions, c)| > 0 :: PosRow(candidates, positions, c)
  }

  function Histogram(candidates: set<Word>, positions: seq<PositionData>): ScoringHist
  {
    ScoringHist(CountHist(candidates, positions), PosHist(candidates, positions))
  }

  // ---------------------------------------------------------------------
  // The histograms, as `getScoreHistogram()` builds them word by word.

  /** A letter's row, or the empty row when the letter has none yet. */
  function RowOf(hist: map<char, map<nat, nat>>, c: char): map<nat, nat>
  {
    if c in hist then hist[c] else map[]
  }

  function Entry(row: map<nat, nat>, k: nat): nat
  {
    if k in row then row[k] else 0
  }

  function OneTo(n: nat): (r: set<nat>)
    ensures forall k :: k in r <==> 1 <= k <= n
  {
    if n == 0 then {} else OneTo(n - 1) + {n}
  }

  /** Entries `1..n` of a row go up by one, created when missing. */
  function AddRow(row: map<nat, nat>, n: nat): map<nat, nat>
  {
    map k | k in row.Keys + OneTo(n) :: Entry(row, k) + if k in OneTo(n) then 1 else 0
  }

  /** The given entries of a row go up by one, created when missing. */
  function AddEntries(row: map<nat, nat>, keys: set<nat>): map<nat, nat>
  {
    map k | k in row.Keys + keys :: Entry(row, k) + if k in keys then 1 else 0
  }

  /** The inner loops for one word's letter counts: entries `1..n` of letter
      `c`'s row go up by one, creating the row and entries when missing. */
  function AddLetterCounts(hist: map<char, map<nat, nat>>, counts: map<char, nat>): map<char, map<nat, nat>>
  {
    map c | c in hist.Keys + (set c | c in counts && counts[c] >= 1) ::
      AddRow(RowOf(hist, c), if c in counts then counts[c] else 0)
  }

  /** The unsolved positions of `w` holding `c`. */
  function UnsolvedAt(positions: seq<PositionData>, w: Word, c: char): set<nat>
  {
    set i | 0 <= i < |w| && w[i] == c && !Solves(positions, i, c)
  }

  /** The letters of `w` at positions not solved as themselves. */
  function UnsolvedLetters(positions: seq<PositionData>, w: Word): set<char>
  {
    set i | 0 <= i < |w| && !Solves(positions, i, w[i]) :: w[i]
  }

  /** The loop for one word's positions: entry `i` of letter `w[i]`'s row goes
      up by one unless position `i` is solved as that letter. */
  function AddLetterPositions(hist: map<char, map<nat, nat>>, positions: seq<PositionData>, w: Word): map<char, map<nat, nat>>
  {
    map c | c in hist.Keys + UnsolvedLetters(positions, w) ::
      AddEntries(RowOf(hist, c), UnsolvedAt(positions, w, c))
  }

  lemma WithAtLeastAdd(done: set<Word>, w: Word, positions: seq<PositionData>, c: char, k: nat)
    requires w !in done
    ensures |WithAtLeast(done + {w}, positions, c, k)| ==
            |WithAtLeast(done, positions, c, k)| + if UnsolvedCopies(positions, w, c) >= k then 1 else 0
  {
    if UnsolvedCopies(positions, w, c) >= k {
      assert WithAtLeast(done + {w}, positions, c, k) == WithAtLeast(done, positions, c, k) + {w};
    } else {
      assert WithAtLeast(done + {w}, positions, c, k) == WithAtLeast(done, positions, c, k);
    }
  }

  lemma WithAtAdd(done: set<Word>, w: Word, positions: seq<PositionData>, c: char, i: nat)
    requires w !in done
    ensures |WithAt(done + {w}, positions, c, i)| ==
            |WithAt(done, positions, c, i)| + if i in UnsolvedAt(positions, w, c) then 1 else 0
  {
    if i in UnsolvedAt(positions, w, c) {
      assert WithAt(done + {w}, positions, c, i) == WithAt(done, positions, c, i) + {w};
    } else {
      assert WithAt(done + {w}, positions, c, i) == WithAt(done, positions, c, i);
    }
  }

  lemma {:induction false} UnsolvedCopiesLetter(positions: seq<PositionData>, w: Word, c: char, n: nat)
    requires n <= |w| && UnsolvedUpTo(positions, w, c, n) > 0
    ensures exists j :: 0 <= j < n && w[j] == c && !Solves(positions, j, c)
  {
    if !(w[n - 1] == c && !Solves(positions, n - 1, c)) {
      UnsolvedCopiesLetter(positions, w, c, n - 1);
    }
  }

  /** The stored row of a letter is its declarative row, empty when absent. */
  lemma CountHistRow(candidates: set<Word>, positions: seq<PositionData>, c: char)
    requires Fits(candidates, positions)
    ensures RowOf(CountHist(candidates, positions), c) == CountRow(candidates, positions, c)
    ensures c in CountHist(candidates, positions) <==> |CountRow(candidates, positions, c)| > 0
  {
    if |CountRow(candidates, positions, c)| > 0 {
      var k :| k in CountRow(candidates, positions, c);
      var w :| w in WithAtLeast(candidates, positions, c, k);
      UnsolvedCopiesLetter(positions, w, c, |w|);
      var j :| 0 <= j < |w| && w[j] == c && !Solves(positions, j, c);
      assert c in LettersOf(candidates);
    } else {
      assert CountRow(candidates, positions, c) == map[];
    }
  }

  lemma PosHistRow(candidates: set<Word>, positions: seq<PositionData>, c: char)
    requires Fits(candidates, positions)
    ensures RowOf(PosHist(candidates, positions), c) == PosRow(candidates, positions, c)
    ensures c in PosHist(candidates, positions) <==> |PosRow(candidates, positions, c)| > 0
  {
    if |PosRow(candidates, positions, c)| > 0 {
      var i :| i in PosRow(candidates, positions, c);
      var w :| w in WithAt(candidates, positions, c, i);
      assert c in LettersOf(candidates);
    } else {
      assert PosRow(candidates, positions, c) == map[];
    }
  }

  /** One more word in one letter's count row. */
  lemma CountRowAdd(done: set<Word>, w: Word, positions: seq<PositionData>, c: char)
    requires Fits(done + {w}, positions) && w !in done
    ensures AddRow(CountRow(done, positions, c), UnsolvedCopies(positions, w, c)) == CountRow(done + {w}, positions, c)
  {
    var n := UnsolvedCopies(positions, w, c);
    var row := CountRow(done, positions, c);
    var next := AddRow(row, n);
    var want := CountRow(done + {w}, positions, c);
    forall k: nat ensures k in next <==> k in want {
      WithAtLeastAdd(done, w, positions, c, k);
    }
    forall k: nat | k in next ensures next[k] == want[k] {
      WithAtLeastAdd(done, w, positions, c, k);
    }
  }

  /** One more word in one letter's position row. */
  lemma PosRowAdd(done: set<Word>, w: Word, positions: seq<PositionData>, c: char)
    requires Fits(done + {w}, positions) && w !in done
    ensures AddEntries(PosRow(done, positions, c), UnsolvedAt(positions, w, c)) == PosRow(done + {w}, positions, c)
  {
    var hits := UnsolvedAt(positions, w, c);
    var next := AddEntries(PosRow(done, positions, c), hits);
    var want := PosRow(done + {w}, positions, c);
    forall i: nat ensures i in next <==> i in want {
      WithAtAdd(done, w, positions, c, i);
    }
    forall i: nat | i in next ensures next[i] == want[i] {
      WithAtAdd(done, w, positions, c, i);
    }
  }

  /** Two maps with the same keys and the same value at each key are equal. */
  lemma MapsAgree<K, V>(m1: map<K, V>, m2: map<K, V>)
    requires forall k :: k in m1 <==> k in m2
    requires forall k :: k in m1 ==> m1[k] == m2[k]
    ensures m1 == m2
  {
  }

  /** One more word in the letter-count histogram. */
  lemma CountHistAdd(done: set<Word>, w: Word, positions: seq<PositionData>)
    requires Fits(done + {w}, positions) && w !in done
    ensures AddLetterCounts(CountHist(done, positions), UnsolvedLetterCounts(positions, w)) == CountHist(done + {w}, positions)
  {
    var counts := UnsolvedLetterCounts(positions, w);
    var next := AddLetterCounts(CountHist(done, positions), counts);
    var want := CountHist(done + {w}, positions);
    forall c ensures c in next <==> c in want {
      CountLetterAdd(done, w, positions, c);
    }
    forall c | c in next ensures next[c] == want[c] {
      CountLetterAdd(done, w, positions, c);
    }
    MapsAgree(next, want);
  }

  lemma CountLetterAdd(done: set<Word>, w: Word, positions: seq<PositionData>, c: char)
    requires Fits(done + {w}, positions) && w !in done
    ensures c in AddLetterCounts(CountHist(done, positions), UnsolvedLetterCounts(positions, w)) <==> c in CountHist(done + {w}, positions)
    ensures c in CountHist(done + {w}, positions) ==>
      AddLetterCounts(CountHist(done, positions), UnsolvedLetterCounts(positions, w))[c] == CountHist(done + {w}, positions)[c]
  {
    var counts := UnsolvedLetterCounts(positions, w);
    var n := UnsolvedCopies(positions, w, c);
    assert (if c in counts then counts[c] else 0) == n by {
      if c !in w && n > 0 {
        UnsolvedCopiesLetter(positions, w, c, |w|);
      }
    }
    CountHistRow(done, positions, c);
    CountHistRow(done + {w}, positions, c);
    CountRowAdd(done, w, positions, c);
    AddLetterCountsAt(CountHist(done, positions), counts, c);
    AddRowNonEmpty(CountRow(done, positions, c), n);
  }

  lemma AddLetterCountsAt(hist: map<char, map<nat, nat>>, counts: map<char, nat>, c: char)
    ensures c in AddLetterCounts(hist, counts) <==> c in hist || (c in counts && counts[c] >= 1)
    ensures c in AddLetterCounts(hist, counts) ==>
      AddLetterCounts(hist, counts)[c] == AddRow(RowOf(hist, c), if c in counts then counts[c] else 0)
  {
  }

  /** A row is non-empty after adding `n` copies when it was before or `n >= 1`. */
  lemma AddRowNonEmpty(row: map<nat, nat>, n: nat)
    ensures |AddRow(row, n)| > 0 <==> |row| > 0 || n >= 1
  {
    if n >= 1 {
      assert 1 in AddRow(row, n);
    }
    if |row| > 0 {
      var k :| k in row;
      assert k in AddRow(row, n);
    }
    if |AddRow(row, n)| > 0 && n == 0 {
      var k :| k in AddRow(row, n);
      assert k in row;
    }
  }


  /** One more word in the letter-position histogram. */
  lemma PosHistAdd(done: set<Word>, w: Word, positions: seq<PositionData>)
    requires Fits(done + {w}, positions) && w !in done
    ensures AddLetterPositions(PosHist(done, positions), positions, w) == PosHist(done + {w}, positions)
  {
    var next := AddLetterPositions(PosHist(done, positions), positions, w);
    var want := PosHist(done + {w}, positions);
    forall c ensures c in next <==> c in want {
      PosLetterAdd(done, w, positions, c);
    }
    assert next.Keys == want.Keys;
    forall c | c in want ensures next[c] == want[c] {
      PosLetterAdd(done, w, positions, c);
    }
  }

  lemma PosLetterAdd(done: set<Word>, w: Word, positions: seq<PositionData>, c: char)
    requires Fits(done + {w}, positions) && w !in done
    ensures c in AddLetterPositions(PosHist(done, positions), positions, w) <==> c in PosHist(done + {w}, positions)
    ensures c in PosHist(done + {w}, positions) ==>
      AddLetterPositions(PosHist(done, positions), positions, w)[c] == PosHist(done + {w}, positions)[c]
  {
    var hits := UnsolvedAt(positions, w, c);
    PosHistRow(done, positions, c);
    PosHistRow(done + {w}, positions, c);
    PosRowAdd(done, w, positions, c);
    var row := PosRow(done, positions, c);
    var letters := UnsolvedLetters(positions, w);
    if |hits| > 0 {
      var i :| i in hits;
      assert i in AddEntries(row, hits);
      assert c in letters;
    }
    if c in letters {
      var i :| 0 <= i < |w| && !Solves(positions, i, w[i]) && w[i] == c;
      assert i in hits;
    }
    if |row| > 0 {
      var k :| k in row;
      assert k in AddEntries(row, hits);
    }
    if |AddEntries(row, hits)| > 0 && |hits| == 0 {
      var k :| k in AddEntries(row, hits);
      assert k in row;
    }
  }

  lemma HistogramOfNothing(positions: seq<PositionData>)
    ensures CountHist({}, positions) == map[] && PosHist({}, positions) == map[]
  {
    assert LettersOf({}) == {};
  }

  /** The first pass of `getScoreHistogram()`, over the candidates in
      whatever order the set yields them. */
  method BuildCountHist(candidates: set<Word>, positions: seq<PositionData>) returns (counts: map<char, map<nat, nat>>)
    requires Fits(candidates, positions)
    ensures counts == CountHist(candidates, positions)
  {
    HistogramOfNothing(positions);
    counts := map[];
    var rest := candidates;
    ghost var done: set<Word> := {};
    while rest != {}
      invariant rest <= candidates && done == candidates - rest
      invariant counts == CountHist(done, positions)
      decreases |rest|
    {
      var w :| w in rest;
      assert Fits(done + {w}, positions) by {
        assert done + {w} <= candidates;
      }
      CountHistAdd(done, w, positions);
      counts := AddLetterCounts(counts, UnsolvedLetterCounts(positions, w));
      assert candidates - (rest - {w}) == done + {w};
      rest := rest - {w};
      done := done + {w};
    }
    assert done == candidates;
  }

  /** The second pass of `getScoreHistogram()`. */
  method BuildPosHist(candidates: set<Word>, positions: seq<PositionData>) returns (inPos: map<char, map<nat, nat>>)
    requires Fits(candidates, positions)
    ensures inPos == PosHist(candidates, positions)
  {
    HistogramOfNothing(positions);
    inPos := map[];
    var rest := candidates;
    ghost var done: set<Word> := {};
    while rest != {}
      invariant rest <= candidates && done == candidates - rest
      invariant inPos == PosHist(done, positions)
      decreases |rest|
    {
      var w :| w in rest;
      assert Fits(done + {w}, positions) by {
        assert done + {w} <= candidates;
      }
      PosHistAdd(done, w, positions);
      inPos := AddLetterPositions(inPos, positions, w);
      assert candidates - (rest - {w}) == done + {w};
      rest := rest - {w};
      done := done + {w};
    }
    assert done == candidates;
  }

  /** `getScoreHistogram()`: the two passes build exactly the declarative
      histogram, whatever order the candidates come in. */
  method GetScoreHistogram(candidates: set<Word>, positions: seq<PositionData>) returns (hist: ScoringHist)
    requires Fits(candidates, positions)
    ensures hist == Histogram(candidates, positions)
  {
    var counts := BuildCountHist(candidates, positions);
    var inPos := BuildPosHist(candidates, positions);
    hist := ScoringHist(counts, inPos);
  }

  // ---------------------------------------------------------------------
  // `getWordScore()`.

  /** What the first loop of `getWordScore` does with one position of the word. */
  datatype Treatment = Skipped | Tricky | Counted

  /** Excluded letters, letters whose every copy is already pinned under an
      exact count, solved positions and known-wrong positions score nothing
      here; a letter whose known copies are all pinned under a lower bound is
      set aside for the adjustment; anything else is counted. */
  function TreatmentAt(b: Board, word: Word, i: nat): Treatment
    requires i < |word| && i < |b.positions|
  {
    var c := word[i];
    var pos := b.positions[i];
    if c in b.constraints && Banned(b.constraints[c]) then Skipped
    else if c in b.constraints && b.constraints[c].count == b.constraints[c].solved then
      if b.constraints[c].specificity == Exactly then Skipped else Tricky
    else if pos.answer == Some(c) then Skipped
    else if c in pos.cantBe then Skipped
    else Counted
  }

  /** `letterCounts`/`letterPositions` and `trickyAdjustmentLetters`, each
      with the order in which its keys were first set. */
  datatype Tally = Tally(
    letterCounts: map<char, nat>, letterPositions: map<char, nat>, letterOrder: seq<char>,
    tricky: map<char, seq<nat>>, trickyOrder: seq<char>)

  /** Positions before `n` holding `c` with the given treatment, in order. */
  function PositionsWith(b: Board, word: Word, c: char, t: Treatment, n: nat): (r: seq<nat>)
    requires n <= |word| && n <= |b.positions|
    ensures forall j :: 0 <= j < |r| ==> r[j] < n && word[r[j]] == c && TreatmentAt(b, word, r[j]) == t
    ensures forall j, k :: 0 <= j < k < |r| ==> r[j] < r[k]
  {
    if n == 0 then []
    else PositionsWith(b, word, c, t, n - 1) + if word[n - 1] == c && TreatmentAt(b, word, n - 1) == t then [n - 1] else []
  }

  /** The letters with some position before `n` of the given treatment. */
  function LettersWith(b: Board, word: Word, t: Treatment, n: nat): set<char>
    requires n <= |word| && n <= |b.positions|
  {
    set i | 0 <= i < n && TreatmentAt(b, word, i) == t :: word[i]
  }

  predicate Distinct<T(==)>(s: seq<T>)
  {
    forall j, k :: 0 <= j < k < |s| ==> s[j] != s[k]
  }

  /** The first loop of `getWordScore`, over the first `n` positions. */
  function TallyUpTo(b: Board, word: Word, n: nat): (t: Tally)
    requires n <= |word| && |word| == |b.positions|
  {
    if n == 0 then Tally(map[], map[], [], map[], [])
    else
      var t := TallyUpTo(b, word, n - 1);
      var i := n - 1;
      var c := word[i];
      match TreatmentAt(b, word, i)
      case Skipped => t
      case Tricky =>
        t.(tricky := t.tricky[c := if c in t.tricky then t.tricky[c] + [i] else [i]],
           trickyOrder := if c in t.tricky then t.trickyOrder else t.trickyOrder + [c])
      case Counted =>
        t.(letterCounts := t.letterCounts[c := (if c in t.letterCounts then t.letterCounts[c] else 0) + 1],
           letterPositions := t.letterPositions[c := i],
           letterOrder := if c in t.letterCounts then t.letterOrder else t.letterOrder + [c])
  }

  /** Each tally's keys are listed once each, in the order they were first
      set, and are the letters with a position of that kind. Every tricky
      letter has a constraint, so the adjustment's "letter not in must
      contain list" error cannot be raised. */
  lemma TallyKeys(b: Board, word: Word, n: nat)
    requires n <= |word| && |word| == |b.positions|
    ensures var t := TallyUpTo(b, word, n);
      && Distinct(t.letterOrder) && Distinct(t.trickyOrder)
      && t.letterCounts.Keys == t.letterPositions.Keys == (set c | c in t.letterOrder) == LettersWith(b, word, Counted, n)
      && t.tricky.Keys == (set c | c in t.trickyOrder) == LettersWith(b, word, Tricky, n)
      && t.tricky.Keys <= b.constraints.Keys
  {
    TallyCountedKeys(b, word, n);
    TallyTrickyKeys(b, word, n);
  }

  lemma LettersWithStep(b: Board, word: Word, t: Treatment, n: nat)
    requires 0 < n <= |word| && n <= |b.positions|
    ensures LettersWith(b, word, t, n) ==
      LettersWith(b, word, t, n - 1) + if TreatmentAt(b, word, n - 1) == t then {word[n - 1]} else {}
  {
    if TreatmentAt(b, word, n - 1) == t {
      assert word[n - 1] in LettersWith(b, word, t, n);
    }
  }

  lemma {:induction false} TallyCountedKeys(b: Board, word: Word, n: nat)
    requires n <= |word| && |word| == |b.positions|
    ensures var t := TallyUpTo(b, word, n);
      && Distinct(t.letterOrder)
      && t.letterCounts.Keys == t.letterPositions.Keys == (set c | c in t.letterOrder) == LettersWith(b, word, Counted, n)
  {
    if n > 0 {
      TallyCountedKeys(b, word, n - 1);
      LettersWithStep(b, word, Counted, n);
    }
  }

  lemma {:induction false} TallyTrickyKeys(b: Board, word: Word, n: nat)
    requires n <= |word| && |word| == |b.positions|
    ensures var t := TallyUpTo(b, word, n);
      && Distinct(t.trickyOrder)
      && t.tricky.Keys == (set c | c in t.trickyOrder) == LettersWith(b, word, Tricky, n)
      && t.tricky.Keys <= b.constraints.Keys
  {
    if n > 0 {
      TallyTrickyKeys(b, word, n - 1);
      LettersWithStep(b, word, Tricky, n);
    }
  }

  /** A counted letter's tally is its number of counted positions, and its
      stored position the last of them. */
  lemma {:induction false} TallyCounted(b: Board, word: Word, n: nat, c: char)
    requires n <= |word| && |word| == |b.positions|
    ensures var t := TallyUpTo(b, word, n);
      var ps := PositionsWith(b, word, c, Counted, n);
      (c in t.letterCounts <==> |ps| > 0) &&
      (c in t.letterCounts ==> t.letterCounts[c] == |ps| && c in t.letterPositions && t.letterPositions[c] == ps[|ps| - 1])
  {
    if n > 0 {
      TallyCounted(b, word, n - 1, c);
    }
  }

  /** A tricky letter's entry lists its tricky positions in order. */
  lemma {:induction false} TallyTricky(b: Board, word: Word, n: nat, c: char)
    requires n <= |word| && |word| == |b.positions|
    ensures var t := TallyUpTo(b, word, n);
      var ps := PositionsWith(b, word, c, Tricky, n);
      (c in t.tricky <==> |ps| > 0) && (c in t.tricky ==> t.tricky[c] == ps)
  {
    if n > 0 {
      TallyTricky(b, word, n - 1, c);
    }
  }

  /** The score of `n` copies: the entry of the largest key from 1 to `n`
      the row holds, or 0 when it holds none of them. */
  function LookupDown(row: map<nat, nat>, n: nat): (r: nat)
    ensures r == 0 || exists k :: 1 <= k <= n && k in row && r == row[k]
    ensures (forall k :: 1 <= k <= n ==> k !in row) ==> r == 0
    ensures (exists k :: 1 <= k <= n && k in row) ==>
      exists k :: 1 <= k <= n && k in row && r == row[k] && forall j :: k < j <= n ==> j !in row
  {
    if n == 0 then 0 else if n in row then row[n] else LookupDown(row, n - 1)
  }

  function CountScores(hist: ScoringHist, counts: map<char, nat>, order: seq<char>): nat
    requires forall c :: c in order ==> c in counts
  {
    if |order| == 0 then 0
    else LookupDown(RowOf(hist.wordsWithLetterCount, order[0]), counts[order[0]]) + CountScores(hist, counts, order[1..])
  }

  function SumEntries(row: map<nat, nat>, keys: seq<nat>): nat
  {
    if |keys| == 0 then 0 else Entry(row, keys[0]) + SumEntries(row, keys[1..])
  }

  /** The adjustment for one tricky letter: a guess with exactly as many
      copies as known scores its positions; one with more copies scores as a
      count; one with fewer scores nothing. */
  function TrickyScore(hist: ScoringHist, mc: MustContain, c: char, indices: seq<nat>): nat
  {
    if mc.count == |indices| then SumEntries(RowOf(hist.wordsWithLetterInPos, c), indices)
    else if |indices| > mc.count then LookupDown(RowOf(hist.wordsWithLetterCount, c), |indices|)
    else 0
  }

  function TrickyScores(hist: ScoringHist, constraints: map<char, MustContain>, tricky: map<char, seq<nat>>, order: seq<char>): nat
    requires forall c :: c in order ==> c in tricky && c in constraints
  {
    if |order| == 0 then 0
    else TrickyScore(hist, constraints[order[0]], order[0], tricky[order[0]]) + TrickyScores(hist, constraints, tricky, order[1..])
  }

  function PositionScores(hist: ScoringHist, positionsOf: map<char, nat>, order: seq<char>): nat
    requires forall c :: c in order ==> c in positionsOf
  {
    if |order| == 0 then 0
    else Entry(RowOf(hist.wordsWithLetterInPos, order[0]), positionsOf[order[0]]) + PositionScores(hist, positionsOf, order[1..])
  }

  /** The tie-breaker: a remaining candidate beats a possible answer, which
      beats any other allowed word. */
  function TieBreaker(word: Word, candidates: set<Word>, answerWords: set<Word>): (r: nat)
    ensures r == 2 <==> word in candidates
    ensures r == 1 <==> word !in candidates && word in answerWords
    ensures r == 0 <==> word !in candidates && word !in answerWords
  {
    if word in candidates then 2 else if word in answerWords then 1 else 0
  }

  /** `getWordScore(word)`: (major, minor, tie-breaker). */
  function GetWordScore(b: Board, hist: ScoringHist, candidates: set<Word>, answerWords: set<Word>, word: Word): (r: seq<int>)
    requires |word| == |b.positions|
    ensures |r| == 3 && r[0] >= 0 && r[1] >= 0
    ensures r[2] == TieBreaker(word, candidates, answerWords)
  {
    var t := TallyUpTo(b, word, |word|);
    TallyKeys(b, word, |word|);
    var major := CountScores(hist, t.letterCounts, t.letterOrder) + TrickyScores(hist, b.constraints, t.tricky, t.trickyOrder);
    var minor := PositionScores(hist, t.letterPositions, t.letterOrder);
    [major, minor, TieBreaker(word, candidates, answerWords)]
  }

  /** A word none of whose positions is counted or set aside scores nothing
      but its tie-breaker. */
  lemma NothingCountedScoresZero(b: Board, hist: ScoringHist, candidates: set<Word>, answerWords: set<Word>, word: Word)
    requires |word| == |b.positions|
    requires forall i :: 0 <= i < |word| ==> TreatmentAt(b, word, i) == Skipped
    ensures GetWordScore(b, hist, candidates, answerWords, word)[..2] == [0, 0]
  {
    var t := TallyUpTo(b, word, |word|);
    TallyKeys(b, word, |word|);
    assert LettersWith(b, word, Counted, |word|) == {};
    assert LettersWith(b, word, Tricky, |word|) == {};
    NoElementsIsEmpty(t.letterOrder);
    NoElementsIsEmpty(t.trickyOrder);
    assert CountScores(hist, t.letterCounts, t.letterOrder) == 0;
    assert TrickyScores(hist, b.constraints, t.tricky, t.trickyOrder) == 0;
    assert PositionScores(hist, t.letterPositions, t.letterOrder) == 0;
  }

  /** A sequence is empty exactly when the set of its elements is. */
  lemma NoElementsIsEmpty(order: seq<char>)
    ensures |order| == 0 <==> (set c | c in order) == {}
  {
    var elems := set c | c in order;
    if |order| > 0 {
      assert order[0] in elems;
      assert elems != {};
    }
  }

  /** With no candidates left every histogram row is empty, so every word
      scores nothing but its tie-breaker. */
  lemma NoCandidatesScoresZero(b: Board, answerWords: set<Word>, word: Word)
    requires |word| == |b.positions|
    ensures GetWordScore(b, Histogram({}, b.positions), {}, answerWords, word) == [0, 0, TieBreaker(word, {}, answerWords)]
  {
    HistogramOfNothing(b.positions);
    EmptyHistogramScoresZero(b, Histogram({}, b.positions), {}, answerWords, word);
  }

  lemma EmptyHistogramScoresZero(b: Board, hist: ScoringHist, candidates: set<Word>, answerWords: set<Word>, word: Word)
    requires |word| == |b.positions|
    requires hist.wordsWithLetterCount == map[] && hist.wordsWithLetterInPos == map[]
    ensures GetWordScore(b, hist, candidates, answerWords, word)[..2] == [0, 0]
  {
    var t := TallyUpTo(b, word, |word|);
    TallyKeys(b, word, |word|);
    EmptyRowsScoreZero(hist, b.constraints, t);
  }

  lemma {:induction false} EmptyRowsScoreZero(hist: ScoringHist, constraints: map<char, MustContain>, t: Tally)
    requires hist.wordsWithLetterCount == map[] && hist.wordsWithLetterInPos == map[]
    requires forall c :: c in t.letterOrder ==> c in t.letterCounts && c in t.letterPositions
    requires forall c :: c in t.trickyOrder ==> c in t.tricky && c in constraints
    ensures CountScores(hist, t.letterCounts, t.letterOrder) == 0
    ensures TrickyScores(hist, constraints, t.tricky, t.trickyOrder) == 0
    ensures PositionScores(hist, t.letterPositions, t.letterOrder) == 0
    decreases |t.letterOrder| + |t.trickyOrder|
  {
    if |t.letterOrder| > 0 {
      EmptyRowsScoreZero(hist, constraints, t.(letterOrder := t.letterOrder[1..]));
      assert LookupDown(map[], t.letterCounts[t.letterOrder[0]]) == 0;
    }
    if |t.trickyOrder| > 0 {
      EmptyRowsScoreZero(hist, constraints, t.(trickyOrder := t.trickyOrder[1..]));
      var c := t.trickyOrder[0];
      EmptySumEntries(t.tricky[c]);
      assert LookupDown(map[], |t.tricky[c]|) == 0;
    }
  }

  lemma {:induction false} EmptySumEntries(keys: seq<nat>)
    ensures SumEntries(map[], keys) == 0
  {
    if |keys| > 0 {
      EmptySumEntries(keys[1..]);
    }
  }
}

=== FILE: solver.dfy ===
/**
 * The current engine's session (`Solver`): the state a sequence of guesses
 * builds up, with an undo stack of snapshots, and the ranking of guesses.
 * The word lists are parameters instead of bundled data.
 */
module Solver {
  import opened Wrappers
  import opened Words
  import opened Evaluator
  import opened Patterns
  import opened Constraints
  import opened Scoring
  import opened MultiScore

  /** `SolverUndoData`: the guess, snapshots of the constraints and positions
      taken before it was applied, and the candidates it removed. */
  datatype UndoData = UndoData(
    guessResult: GuessResult, answerMustContain: map<char, MustContain>,
    deltaPossibleSolutions: set<Word>, positions: seq<PositionData>)

  datatype SolverState = SolverState(
    undoData: seq<UndoData>, guesses: seq<GuessResult>, solved: bool,
    positions: seq<PositionData>, answerMustContain: map<char, MustContain>,
    possibleSolutions: set<Word>, possibleGuesses: set<Word>,
    hist: ScoringHist, letterStates: map<char, LetterStatus>)
  {
    function Board(): Constraints.Board { Constraints.Board(positions, answerMustContain) }
  }

  /** The errors the session raises. */
  datatype SolverError = GameAlreadySolved | MalformedUndoData

  /** `updateLetterStates()`: a letter with a pinned position is Correct, one
      known to occur is Present, any other constrained letter Absent. */
  function LetterStatesOf(constraints: map<char, MustContain>): (r: map<char, LetterStatus>)
    ensures r.Keys == constraints.Keys
    ensures forall c :: c in r ==>
      (r[c] == Correct <==> constraints[c].solved > 0) &&
      (r[c] == Present <==> constraints[c].solved == 0 && constraints[c].count > 0) &&
      (r[c] == Absent <==> constraints[c].solved == 0 && constraints[c].count == 0)
  {
    map c | c in constraints ::
      if constraints[c].solved != 0 then Correct else if constraints[c].count > 0 then Present else Absent
  }

  /** A new session for boards of `length` letters: no guesses or undo
      records, every position open, no letter constrained, every answer a
      candidate and every allowed word a guess, and the histogram taken over
      all answers. */
  function Init(cfg: Config, length: nat): (s: SolverState)
    ensures s.guesses == [] && s.undoData == [] && !s.solved
    ensures |s.positions| == length
    ensures forall i :: 0 <= i < |s.positions| ==> s.positions[i].answer.None? && s.positions[i].cantBe == []
    ensures s.answerMustContain == map[] && s.letterStates == map[]
    ensures s.possibleSolutions == cfg.answerWords && s.possibleGuesses == cfg.AllWords()
    ensures s.hist == Histogram(cfg.answerWords, s.positions)
  {
    var positions := EmptyPositions(length);
    SolverState([], [], false, positions, map[], cfg.answerWords, cfg.AllWords(),
                Histogram(cfg.answerWords, positions), map[])
  }

  /** The states a session can reach. */
  ghost predicate Valid(cfg: Config, s: SolverState)
  {
    && Fits(cfg.AllWords(), s.positions)
    && |s.undoData| == |s.guesses|
    && (forall k :: 0 <= k < |s.guesses| ==> s.undoData[k].guessResult == s.guesses[k])
    && (forall k :: 0 <= k < |s.undoData| ==>
          |s.undoData[k].positions| == |s.positions| && s.undoData[k].deltaPossibleSolutions <= cfg.answerWords)
    && s.solved == (|s.guesses| > 0 && AllCorrect(s.guesses[|s.guesses| - 1].result))
    && s.possibleSolutions <= cfg.answerWords
    && s.possibleGuesses <= cfg.AllWords()
    && s.hist == Histogram(s.possibleSolutions, s.positions)
    && s.letterStates == LetterStatesOf(s.answerMustContain)
  }

  lemma InitValid(cfg: Config, length: nat)
    requires forall w :: w in cfg.AllWords() ==> |w| == length
    ensures Valid(cfg, Init(cfg, length))
  {
    assert LetterStatesOf(map[]) == map[];
  }

  /** `newUndoData(guess)`: snapshots of the constraints and positions. */
  function NewUndoData(s: SolverState, g: GuessResult): (u: UndoData)
    ensures u.guessResult == g && u.deltaPossibleSolutions == {}
    ensures u.answerMustContain == s.answerMustContain && u.positions == s.positions
  {
    UndoData(g, s.answerMustContain, {}, s.positions)
  }

  /** `updateLetterPossibilities(guess)`: fold the result into the
      constraints, drop the candidates the pattern rejects (recording them in
      the newest undo record), pin the positions every remaining candidate
      agrees on, and rebuild the histogram. */
  function UpdateLetterPossibilities(s: SolverState, g: GuessResult): (r: SolverState)
    requires WellFormed(g) && |g.guess| == |s.positions| && |s.undoData| > 0
    requires Fits(s.possibleSolutions, s.positions)
    ensures |r.positions| == |s.positions| && |r.undoData| == |s.undoData|
    ensures r.undoData[..|r.undoData| - 1] == s.undoData[..|s.undoData| - 1]
    ensures r.undoData[|r.undoData| - 1] ==
      s.undoData[|s.undoData| - 1].(deltaPossibleSolutions := s.possibleSolutions - r.possibleSolutions)
    ensures r.guesses == s.guesses && r.solved == s.solved && r.possibleGuesses == s.possibleGuesses
    ensures r.letterStates == s.letterStates
    ensures r.possibleSolutions <= s.possibleSolutions
    ensures r.hist == Histogram(r.possibleSolutions, r.positions)
  {
    var b := AbsorbResult(s.Board(), g);
    var kept := Filter(s.possibleSolutions, SolverPattern(b));
    var top := s.undoData[|s.undoData| - 1];
    var positions := InferPositions(b.positions, kept);
    s.(undoData := s.undoData[..|s.undoData| - 1] + [top.(deltaPossibleSolutions := s.possibleSolutions - kept)],
       positions := positions,
       answerMustContain := b.constraints,
       possibleSolutions := kept,
       hist := Histogram(kept, positions))
  }

  /** `addGuess(guess)`: refused once solved; otherwise the guess is recorded
      with its undo snapshot and applied, and the session is solved exactly
      when every mark is Correct. */
  function AddGuess(s: SolverState, g: GuessResult): (r: Result<SolverState, SolverError>)
    requires WellFormed(g) && |g.guess| == |s.positions|
    requires Fits(s.possibleSolutions, s.positions)
    ensures r.Failure? <==> s.solved
    ensures r.Failure? ==> r.error == GameAlreadySolved
    ensures r.Success? ==>
      && r.value.solved == AllCorrect(g.result)
      && r.value.guesses == s.guesses + [g]
      && |r.value.undoData| == |s.undoData| + 1
      && r.value.undoData[..|s.undoData|] == s.undoData
      && r.value.undoData[|s.undoData|] == NewUndoData(s, g).(deltaPossibleSolutions := s.possibleSolutions - r.value.possibleSolutions)
      && r.value.possibleGuesses == s.possibleGuesses
      && r.value.letterStates == LetterStatesOf(r.value.answerMustContain)
    ensures r.Success? ==>
      && |r.value.positions| == |s.positions|
      && r.value.possibleSolutions <= s.possibleSolutions
      && r.value.hist == Histogram(r.value.possibleSolutions, r.value.positions)
  {
    if s.solved then Failure(GameAlreadySolved)
    else
      var s1 := s.(undoData := s.undoData + [NewUndoData(s, g)], guesses := s.guesses + [g]);
      var s2 := UpdateLetterPossibilities(s1, g);
      assert s1.undoData[..|s1.undoData| - 1] == s.undoData;
      var s3 := s2.(solved := AllCorrect(g.result));
      Success(s3.(letterStates := LetterStatesOf(s3.answerMustContain)))
  }

  /** `undoLastGuess()`: with no history nothing happens; otherwise the newest
      record is popped, its removed candidates come back, the snapshots are
      restored, pruned guesses are all allowed again, and `solved` is
      recomputed from the guess now last. A record that does not belong to
      the newest guess is an error. */
  function UndoLastGuess(cfg: Config, s: SolverState): (r: Result<SolverState, SolverError>)
    ensures |s.undoData| == 0 ==> r == Success(s)
    ensures r.Failure? ==> r.error == MalformedUndoData
  {
    if |s.undoData| == 0 then Success(s)
    else
      var u := s.undoData[|s.undoData| - 1];
      if |s.guesses| == 0 || u.guessResult != s.guesses[|s.guesses| - 1] then Failure(MalformedUndoData)
      else
        var guesses := s.guesses[..|s.guesses| - 1];
        var possibleSolutions := s.possibleSolutions + u.deltaPossibleSolutions;
        Success(SolverState(
          s.undoData[..|s.undoData| - 1],
          guesses,
          |guesses| > 0 && AllCorrect(guesses[|guesses| - 1].result),
          u.positions,
          u.answerMustContain,
          possibleSolutions,
          if |s.possibleGuesses| != |cfg.AllWords()| then cfg.AllWords() else s.possibleGuesses,
          Histogram(possibleSolutions, u.positions),
          LetterStatesOf(u.answerMustContain)))
  }

  /** `reset()`: back to a new session on a board of the same length. */
  function Reset(cfg: Config, s: SolverState): (r: SolverState)
    ensures r.guesses == [] && r.undoData == [] && !r.solved
    ensures |r.positions| == |s.positions|
    ensures forall i :: 0 <= i < |r.positions| ==> r.positions[i].answer.None? && r.positions[i].cantBe == []
    ensures r.answerMustContain == map[] && r.letterStates == map[]
    ensures r.possibleSolutions == cfg.answerWords && r.possibleGuesses == cfg.AllWords()
    ensures r.hist == Histogram(cfg.answerWords, r.positions)
  {
    var positions := EmptyPositions(|s.positions|);
    assert LetterStatesOf(map[]) == map[];
    SolverState([], [], false, positions, map[], cfg.answerWords, cfg.AllWords(),
                Histogram(cfg.answerWords, positions), LetterStatesOf(map[]))
  }

  // ---------------------------------------------------------------------
  // The session invariant and what it buys.

  lemma ResetValid(cfg: Config, s: SolverState)
    requires Valid(cfg, s)
    ensures Valid(cfg, Reset(cfg, s))
    ensures Reset(cfg, s) == Init(cfg, |s.positions|)
  {
  }

  /** Guessing keeps every reachable-state fact. */
  lemma AddGuessValid(cfg: Config, s: SolverState, g: GuessResult)
    requires Valid(cfg, s) && WellFormed(g) && |g.guess| == |s.positions|
    requires AddGuess(s, g).Success?
    ensures Valid(cfg, AddGuess(s, g).value)
  {
    var r := AddGuess(s, g).value;
    var n := |s.undoData|;
    forall k | 0 <= k < |r.guesses|
      ensures r.undoData[k].guessResult == r.guesses[k]
      ensures |r.undoData[k].positions| == |r.positions| && r.undoData[k].deltaPossibleSolutions <= cfg.answerWords
    {
      if k < n {
        assert r.undoData[k] == r.undoData[..n][k] == s.undoData[k];
      }
    }
    assert Fits(cfg.AllWords(), r.positions);
  }

  /** The undo records and the guesses stay in step, so undoing never meets a
      record that belongs to another guess. */
  lemma UndoNeverMalformed(cfg: Config, s: SolverState)
    requires Valid(cfg, s)
    ensures UndoLastGuess(cfg, s).Success?
  {
  }

  /** Undoing keeps every reachable-state fact. */
  lemma UndoValid(cfg: Config, s: SolverState)
    requires Valid(cfg, s)
    ensures Valid(cfg, UndoLastGuess(cfg, s).value)
  {
  }

  /** After undoing, every allowed word is a possible guess again. */
  lemma UndoRestoresGuesses(cfg: Config, s: SolverState)
    requires Valid(cfg, s) && |s.undoData| > 0
    ensures UndoLastGuess(cfg, s).value.possibleGuesses == cfg.AllWords()
  {
    if |s.possibleGuesses| == |cfg.AllWords()| {
      SubsetOfSameSize(s.possibleGuesses, cfg.AllWords());
    }
  }

  lemma SubsetOfSameSize<T>(a: set<T>, b: set<T>)
    requires a <= b && |a| == |b|
    ensures a == b
  {
    if a != b {
      var x :| x in b && x !in a;
      SubsetNoLarger(a, b - {x});
    }
  }

  lemma {:induction false} SubsetNoLarger<T>(a: set<T>, b: set<T>)
    requires a <= b
    ensures |a| <= |b|
    decreases |a|
  {
    if a != {} {
      var x :| x in a;
      SubsetNoLarger(a - {x}, b - {x});
    }
  }

  /** Guessing and then undoing gives back the session as it was, except that
      every allowed word is a possible guess again. */
  lemma AddThenUndo(cfg: Config, s: SolverState, g: GuessResult)
    requires Valid(cfg, s) && WellFormed(g) && |g.guess| == |s.positions| && !s.solved
    ensures AddGuess(s, g).Success?
    ensures UndoLastGuess(cfg, AddGuess(s, g).value) == Success(s.(possibleGuesses := cfg.AllWords()))
  {
    var r := AddGuess(s, g).value;
    AddGuessValid(cfg, s, g);
    UndoRestoresGuesses(cfg, r);
    var u := UndoLastGuess(cfg, r).value;
    AddGuessUpdates(s, g);
    assert u.possibleSolutions == s.possibleSolutions;
    assert u.undoData == s.undoData;
    assert u.guesses == s.guesses;
  }

  /** What one guess does: the constraints are the folded result; the
      candidates are exactly the old ones the new pattern accepts; the removed
      ones are recorded in the newest undo record, so old = new + removed; a
      candidate stays exactly when it is consistent with the new knowledge;
      the positions are then inferred from the candidates kept. */
  lemma AddGuessUpdates(s: SolverState, g: GuessResult)
    requires WellFormed(g) && |g.guess| == |s.positions| && Fits(s.possibleSolutions, s.positions) && !s.solved
    ensures var r := AddGuess(s, g).value;
      var b := AbsorbResult(s.Board(), g);
      var delta := r.undoData[|r.undoData| - 1].deltaPossibleSolutions;
      && r.answerMustContain == b.constraints
      && r.possibleSolutions == Filter(s.possibleSolutions, SolverPattern(b))
      && r.possibleSolutions <= s.possibleSolutions
      && s.possibleSolutions == r.possibleSolutions + delta && r.possibleSolutions !! delta
      && r.positions == InferPositions(b.positions, r.possibleSolutions)
      && forall w :: w in s.possibleSolutions && NoLineTerminators(w) ==> (w in r.possibleSolutions <==> Consistent(b, w))
  {
  }

  /** A position with an answer keeps it; `cantBe` gains only the letter a
      Present mark puts there. */
  lemma AddGuessKeepsAnswers(s: SolverState, g: GuessResult, i: nat)
    requires WellFormed(g) && |g.guess| == |s.positions| && Fits(s.possibleSolutions, s.positions) && !s.solved
    requires i < |s.positions|
    ensures var r := AddGuess(s, g).value;
      && (s.positions[i].answer.Some? ==> r.positions[i].answer == s.positions[i].answer)
      && r.positions[i].cantBe == s.positions[i].cantBe + if g.result[i].status == Present then [g.guess[i]] else []
  {

  }

  /** The session never discards the answer: if every result so far was
      computed from `solution`, it stays a candidate and keeps satisfying
      every constraint. */
  lemma SolutionSurvives(s: SolverState, guess: Word, solution: Word)
    requires |guess| == |solution| == |s.positions| && NoLineTerminators(solution)
    requires Fits(s.possibleSolutions, s.positions) && !s.solved
    requires solution in s.possibleSolutions && Consistent(s.Board(), solution)
    ensures var r := AddGuess(s, FromSolution(guess, solution).value).value;
      solution in r.possibleSolutions && Consistent(r.Board(), solution)
  {
    var g := FromSolution(guess, solution).value;
    var b := AbsorbResult(s.Board(), g);
    AbsorbKeepsSolution(s.Board(), guess, solution);
    var kept := Filter(s.possibleSolutions, SolverPattern(b));
    InferKeepsSolution(b, kept, solution);
  }

  /** At the start every answer is a candidate and satisfies the (empty)
      constraints. */
  lemma InitAdmitsAnswers(cfg: Config, length: nat, solution: Word)
    requires solution in cfg.answerWords && |solution| == length
    ensures solution in Init(cfg, length).possibleSolutions && Consistent(Init(cfg, length).Board(), solution)
  {
    NothingKnownAdmitsAll(length, solution);
  }

  // ---------------------------------------------------------------------
  // Ranking guesses.

  /** `ScoredWord` without its display percentage. */
  datatype ScoredWord = ScoredWord(word: Word, score: seq<int>)

  function ScoreOf(x: ScoredWord): seq<int> { x.score }

  predicate DistinctWords(xs: seq<ScoredWord>)
  {
    forall j, k :: 0 <= j < k < |xs| ==> xs[j].word != xs[k].word
  }

  function WordsOf(xs: seq<ScoredWord>): set<Word>
  {
    set x | x in xs :: x.word
  }

  /** The score of a word in the current session. */
  function Score(cfg: Config, s: SolverState, w: Word): (r: seq<int>)
    requires |w| == |s.positions|
    ensures |r| == 3
  {
    GetWordScore(s.Board(), s.hist, s.possibleSolutions, cfg.answerWords, w)
  }

  /** `top ? list.slice(0, top) : list`. */
  function TakeTop<T>(xs: seq<T>, top: int): (r: seq<T>)
    ensures |r| <= |xs| && r == xs[..|r|]
  {
    if top == 0 then xs
    else if top > 0 then xs[..if top < |xs| then top else |xs|]
    else xs[..if |xs| + top > 0 then |xs| + top else 0]
  }

  lemma {:induction false} DistinctCountsOnce(xs: seq<ScoredWord>, x: ScoredWord)
    requires DistinctWords(xs)
    ensures multiset(xs)[x] <= 1
  {
    if |xs| > 0 {
      var last := xs[|xs| - 1];
      assert xs == xs[..|xs| - 1] + [last];
      assert DistinctWords(xs[..|xs| - 1]);
      DistinctCountsOnce(xs[..|xs| - 1], x);
      if x == last {
        forall j | 0 <= j < |xs| - 1 ensures xs[j] != last {
          assert xs[j].word != xs[|xs| - 1].word;
        }
        assert x !in xs[..|xs| - 1];
      }
    }
  }

  /** Reordering keeps the words distinct. */
  lemma DistinctPermutation(a: seq<ScoredWord>, b: seq<ScoredWord>)
    requires multiset(a) == multiset(b) && DistinctWords(a)
    ensures DistinctWords(b)
  {
    forall j, k | 0 <= j < k < |b| ensures b[j].word != b[k].word {
      if b[j].word == b[k].word {
        assert b[j] in multiset(a) && b[k] in multiset(a);
        var m :| 0 <= m < |a| && a[m] == b[j];
        var n :| 0 <= n < |a| && a[n] == b[k];
        assert m == n;
        assert b == b[..k] + b[k..];
        assert b[j] in b[..k];
        assert b[k] in b[k..];
        assert multiset(b)[b[j]] == multiset(b[..k])[b[j]] + multiset(b[k..])[b[j]];
        DistinctCountsOnce(a, b[j]);
      }
    }
  }

  lemma AppendFreshWord(xs: seq<ScoredWord>, x: ScoredWord)
    requires DistinctWords(xs) && x.word !in WordsOf(xs)
    ensures DistinctWords(xs + [x]) && WordsOf(xs + [x]) == WordsOf(xs) + {x.word}
  {
    forall j | 0 <= j < |xs| ensures xs[j].word != x.word {
      assert xs[j] in xs;
    }
  }

  /** What the one- or two-candidate pass has built once it has taken `done`. */
  ghost predicate AtTopSoFar(done: set<Word>, r: seq<ScoredWord>)
  {
    && WordsOf(r) == done && |r| == |done| && DistinctWords(r)
    && forall j :: 0 <= j < |r| ==> r[j].score == [100]
  }

  lemma AtTopSoFarStep(done: set<Word>, r: seq<ScoredWord>, w: Word)
    requires AtTopSoFar(done, r) && w !in done
    ensures AtTopSoFar(done + {w}, r + [ScoredWord(w, [100])])
  {
    AppendFreshWord(r, ScoredWord(w, [100]));
  }

  /** The one- or two-candidate answer of `bestGuesses`: each candidate once,
      at score 100, in whatever order the set yields them. */
  method AllAtTop(candidates: set<Word>) returns (r: seq<ScoredWord>)
    ensures |r| == |candidates| && WordsOf(r) == candidates && DistinctWords(r)
    ensures forall j :: 0 <= j < |r| ==> r[j].score == [100]
  {
    r := [];
    var rest := candidates;
    ghost var done: set<Word> := {};
    while rest != {}
      invariant rest <= candidates && done == candidates - rest
      invariant AtTopSoFar(done, r)
      decreases |rest|
    {
      var w :| w in rest;
      AtTopSoFarStep(done, r, w);
      assert candidates - (rest - {w}) == done + {w};
      r := r + [ScoredWord(w, [100])];
      rest := rest - {w};
      done := done + {w};
    }
  }

  /** A score whose major part is not zero. */
  predicate Scores(score: seq<int>)
  {
    |score| > 0 && score[0] != 0
  }

  /** The words of `ws` that score. */
  function ScoringWords(ws: set<Word>, scoreOf: Word -> seq<int>): set<Word>
  {
    set w | w in ws && Scores(scoreOf(w))
  }

  /** What the scoring pass has built once it has scored the words `done`. */
  ghost predicate ScoredSoFar(done: set<Word>, scoreOf: Word -> seq<int>, scores: seq<ScoredWord>, kept: set<Word>)
  {
    && kept == ScoringWords(done, scoreOf)
    && WordsOf(scores) == kept && |scores| == |kept| && DistinctWords(scores)
    && forall j :: 0 <= j < |scores| ==> scores[j].score == scoreOf(scores[j].word)
  }

  lemma ScoredSoFarStep(done: set<Word>, scoreOf: Word -> seq<int>, scores: seq<ScoredWord>, kept: set<Word>, w: Word)
    requires ScoredSoFar(done, scoreOf, scores, kept) && w !in done
    ensures Scores(scoreOf(w)) ==> ScoredSoFar(done + {w}, scoreOf, scores + [ScoredWord(w, scoreOf(w))], kept + {w})
    ensures !Scores(scoreOf(w)) ==> ScoredSoFar(done + {w}, scoreOf, scores, kept)
  {
    var next := ScoringWords(done + {w}, scoreOf);
    if Scores(scoreOf(w)) {
      assert next == kept + {w};
      AppendFreshWord(scores, ScoredWord(w, scoreOf(w)));
    } else {
      assert next == kept;
    }
  }

  /** The scoring pass of `bestGuesses`: every word is scored, in whatever
      order the set yields them; those with a zero major score are left out
      of both results. */
  method ScoreAll(ws: set<Word>, scoreOf: Word -> seq<int>) returns (scores: seq<ScoredWord>, kept: set<Word>)
    ensures kept == ScoringWords(ws, scoreOf)
    ensures WordsOf(scores) == kept && |scores| == |kept| && DistinctWords(scores)
    ensures forall j :: 0 <= j < |scores| ==> scores[j].score == scoreOf(scores[j].word)
  {
    scores := [];
    kept := {};
    var rest := ws;
    ghost var done: set<Word> := {};
    while rest != {}
      invariant rest <= ws && done == ws - rest
      invariant ScoredSoFar(done, scoreOf, scores, kept)
      decreases |rest|
    {
      var w :| w in rest;
      ScoredSoFarStep(done, scoreOf, scores, kept, w);
      var score := scoreOf(w);
      if Scores(score) {
        scores := scores + [ScoredWord(w, score)];
        kept := kept + {w};
      }
      assert ws - (rest - {w}) == done + {w};
      rest := rest - {w};
      done := done + {w};
    }
  }

  /** The ranking of `bestGuesses`: best first by `MultiScore.compare`, cut to
      `top` entries (all of them when `top` is 0); nothing left out ranks
      above anything kept. */
  function Rank(scores: seq<ScoredWord>, top: int): (r: seq<ScoredWord>)
    requires DistinctWords(scores)
    ensures DistinctWords(r) && forall x :: x in r ==> x in scores
    ensures forall j, k :: 0 <= j < k < |r| ==> Compare(r[j].score, r[k].score) >= 0
    ensures top == 0 ==> |r| == |scores|
    ensures top > 0 ==> |r| == if top < |scores| then top else |scores|
    ensures top < 0 ==> |r| == if |scores| + top > 0 then |scores| + top else 0
    ensures forall x, j :: x in scores && x.word !in WordsOf(r) && 0 <= j < |r| ==> Compare(r[j].score, x.score) >= 0
  {
    var sorted := SortBy(scores, ScoreOf, true);
    SortedFacts(scores, sorted);
    var r := TakeTop(sorted, top);
    PrefixFacts(scores, sorted, r);
    r
  }

  lemma SortedFacts(scores: seq<ScoredWord>, sorted: seq<ScoredWord>)
    requires DistinctWords(scores) && multiset(sorted) == multiset(scores) && SortedBy(sorted, ScoreOf, true)
    ensures |sorted| == |scores| && DistinctWords(sorted)
    ensures forall x :: x in sorted <==> x in scores
  {
    assert |multiset(sorted)| == |multiset(scores)|;
    DistinctPermutation(scores, sorted);
    forall x ensures x in sorted <==> x in scores {
      assert x in sorted <==> x in multiset(sorted);
    }
  }

  /** A prefix of a best-first list holds nothing ranked below what it leaves out. */
  lemma PrefixFacts(scores: seq<ScoredWord>, sorted: seq<ScoredWord>, r: seq<ScoredWord>)
    requires |r| <= |sorted| && r == sorted[..|r|] && DistinctWords(sorted) && SortedBy(sorted, ScoreOf, true)
    requires forall x :: x in sorted <==> x in scores
    ensures DistinctWords(r) && forall x :: x in r ==> x in scores
    ensures forall j, k :: 0 <= j < k < |r| ==> Compare(r[j].score, r[k].score) >= 0
    ensures forall x, j :: x in scores && x.word !in WordsOf(r) && 0 <= j < |r| ==> Compare(r[j].score, x.score) >= 0
  {
    forall j, k | 0 <= j < k < |r| ensures Compare(r[j].score, r[k].score) >= 0 {
      assert Order(ScoreOf, true, sorted[j], sorted[k]) <= 0;
      CompareAntisymmetric(sorted[j].score, sorted[k].score);
    }
    forall x, j | x in scores && x.word !in WordsOf(r) && 0 <= j < |r|
      ensures Compare(r[j].score, x.score) >= 0
    {
      var k :| 0 <= k < |sorted| && sorted[k] == x;
      assert Order(ScoreOf, true, sorted[j], sorted[k]) <= 0;
      CompareAntisymmetric(sorted[j].score, sorted[k].score);
    }
  }

  /** `bestGuesses(top)`: with no candidates nothing; with one or two, each
      candidate at the top score 100; otherwise every possible guess is
      scored, those with a zero major score are dropped from the possible
      guesses for good, and the rest are ranked best first, keeping the
      first `top` (all of them when `top` is 0). */
  method BestGuesses(cfg: Config, s: SolverState, top: int) returns (next: SolverState, r: seq<ScoredWord>)
    requires Valid(cfg, s)
    ensures |s.possibleSolutions| <= 2 ==> next == s
    ensures |s.possibleSolutions| == 0 ==> r == []
    ensures 0 < |s.possibleSolutions| <= 2 ==>
      |r| == |s.possibleSolutions| && WordsOf(r) == s.possibleSolutions && DistinctWords(r) &&
      forall j :: 0 <= j < |r| ==> r[j].score == [100]
    ensures |s.possibleSolutions| > 2 ==>
      && next == s.(possibleGuesses := set w | w in s.possibleGuesses && Score(cfg, s, w)[0] != 0)
      && DistinctWords(r)
      && (forall j :: 0 <= j < |r| ==> r[j].word in next.possibleGuesses && r[j].score == Score(cfg, s, r[j].word))
      && (forall j, k :: 0 <= j < k < |r| ==> Compare(r[j].score, r[k].score) >= 0)
      && (top == 0 ==> |r| == |next.possibleGuesses|)
      && (top > 0 ==> |r| == if top < |next.possibleGuesses| then top else |next.possibleGuesses|)
      && (top < 0 ==> |r| == if |next.possibleGuesses| + top > 0 then |next.possibleGuesses| + top else 0)
      && (forall w, j :: w in next.possibleGuesses && w !in WordsOf(r) && 0 <= j < |r| ==>
            Compare(r[j].score, Score(cfg, s, w)) >= 0)
  {
    next := s;
    if |s.possibleSolutions| == 0 {
      return next, [];
    }
    if |s.possibleSolutions| <= 2 {
      r := AllAtTop(s.possibleSolutions);
      return next, r;
    }
    next, r := ScoreAndRank(cfg, s, top);
  }

  /** The scoring and ranking half of `bestGuesses`, once more than two
      candidates remain. */
  method ScoreAndRank(cfg: Config, s: SolverState, top: int) returns (next: SolverState, r: seq<ScoredWord>)
    requires Fits(s.possibleGuesses, s.positions)
    ensures
      && next == s.(possibleGuesses := set w | w in s.possibleGuesses && Score(cfg, s, w)[0] != 0)
      && DistinctWords(r)
      && (forall j :: 0 <= j < |r| ==> r[j].word in next.possibleGuesses && r[j].score == Score(cfg, s, r[j].word))
      && (forall j, k :: 0 <= j < k < |r| ==> Compare(r[j].score, r[k].score) >= 0)
      && (top == 0 ==> |r| == |next.possibleGuesses|)
      && (top > 0 ==> |r| == if top < |next.possibleGuesses| then top else |next.possibleGuesses|)
      && (top < 0 ==> |r| == if |next.possibleGuesses| + top > 0 then |next.possibleGuesses| + top else 0)
      && (forall w, j :: w in next.possibleGuesses && w !in WordsOf(r) && 0 <= j < |r| ==>
            Compare(r[j].score, Score(cfg, s, w)) >= 0)
  {
    var scoreOf := (w: Word) => if |w| == |s.positions| then Score(cfg, s, w) else [];
    var scores, kept := ScoreAll(s.possibleGuesses, scoreOf);
    r := Rank(scores, top);
    next := s.(possibleGuesses := kept);
    RankedGuesses(cfg, s, top, scoreOf, scores, kept, r);
  }

  /** What scoring every possible guess and ranking the scoring ones gives:
      the guesses with a zero major score are gone, and the ranking is the
      ranking of the rest by their session scores. */
  lemma RankedGuesses(cfg: Config, s: SolverState, top: int, f: Word -> seq<int>,
                      scores: seq<ScoredWord>, kept: set<Word>, r: seq<ScoredWord>)
    requires Fits(s.possibleGuesses, s.positions)
    requires forall w :: w in s.possibleGuesses ==> f(w) == Score(cfg, s, w)
    requires kept == ScoringWords(s.possibleGuesses, f)
    requires WordsOf(scores) == kept && |scores| == |kept| && DistinctWords(scores)
    requires forall j :: 0 <= j < |scores| ==> scores[j].score == f(scores[j].word)
    requires DistinctWords(r) && forall x :: x in r ==> x in scores
    requires forall j, k :: 0 <= j < k < |r| ==> Compare(r[j].score, r[k].score) >= 0
    requires top == 0 ==> |r| == |scores|
    requires top > 0 ==> |r| == if top < |scores| then top else |scores|
    requires top < 0 ==> |r| == if |scores| + top > 0 then |scores| + top else 0
    requires forall x, j :: x in scores && x.word !in WordsOf(r) && 0 <= j < |r| ==> Compare(r[j].score, x.score) >= 0
    ensures kept == set w | w in s.possibleGuesses && Score(cfg, s, w)[0] != 0
    ensures forall j :: 0 <= j < |r| ==> r[j].word in kept && r[j].score == Score(cfg, s, r[j].word)
    ensures forall w, j :: w in kept && w !in WordsOf(r) && 0 <= j < |r| ==> Compare(r[j].score, Score(cfg, s, w)) >= 0
  {
    RankedScores(scores, r, kept, f);
  }

  /** What a ranking of scored words keeps: words scored by `f`, ranked no
      lower than any scored word it leaves out. */
  lemma RankedScores(scores: seq<ScoredWord>, r: seq<ScoredWord>, kept: set<Word>, f: Word -> seq<int>)
    requires WordsOf(scores) == kept && forall j :: 0 <= j < |scores| ==> scores[j].score == f(scores[j].word)
    requires forall x :: x in r ==> x in scores
    requires forall x, j :: x in scores && x.word !in WordsOf(r) && 0 <= j < |r| ==> Compare(r[j].score, x.score) >= 0
    ensures forall j :: 0 <= j < |r| ==> r[j].word in kept && r[j].score == f(r[j].word)
    ensures forall w, j :: w in kept && w !in WordsOf(r) && 0 <= j < |r| ==> Compare(r[j].score, f(w)) >= 0
  {
    forall j | 0 <= j < |r| ensures r[j].word in kept && r[j].score == f(r[j].word) {
      assert r[j] in scores;
      var m :| 0 <= m < |scores| && scores[m] == r[j];
    }
    forall w, j | w in kept && w !in WordsOf(r) && 0 <= j < |r|
      ensures Compare(r[j].score, f(w)) >= 0
    {
      var m :| 0 <= m < |scores| && scores[m].word == w;
      assert scores[m] in scores;
    }
  }

  /** `bestGuess()`: the first of `bestGuesses(1)`, if any; with candidates
      left beyond two, no remaining possible guess scores higher. */
  method BestGuess(cfg: Config, s: SolverState) returns (next: SolverState, r: Option<Word>)
    requires Valid(cfg, s)
    ensures next.possibleGuesses <= s.possibleGuesses
    ensures |s.possibleSolutions| == 0 ==> r.None?
    ensures 0 < |s.possibleSolutions| <= 2 ==> r.Some? && r.value in s.possibleSolutions
    ensures |s.possibleSolutions| > 2 && r.Some? ==>
      r.value in next.possibleGuesses &&
      forall w :: w in next.possibleGuesses ==> Compare(Score(cfg, s, r.value), Score(cfg, s, w)) >= 0
    ensures |s.possibleSolutions| > 2 ==> (r.None? <==> next.possibleGuesses == {})
  {
    var ranked;
    next, ranked := BestGuesses(cfg, s, 1);
    if |ranked| > 0 {
      r := Some(ranked[0].word);
      if |s.possibleSolutions| <= 2 {
        assert ranked[0].word in WordsOf(ranked);
      } else {
        forall w | w in next.possibleGuesses ensures Compare(Score(cfg, s, ranked[0].word), Score(cfg, s, w)) >= 0 {
          if w == ranked[0].word {
            CompareReflexive(Score(cfg, s, w));
          }
        }
      }
    } else {
      r := None;
    }
  }
}

=== FILE: utilities.dfy ===
/**
 * The collection helpers of the engine: `groupBy` (both overloads), `counts`
 * and `letterCounts`. A JavaScript `Record` is a Dafny `map`; the order in
 * which its keys were inserted never matters to the callers modelled here.
 */
module Utilities {
  import opened Wrappers
  import opened Words

  /** The items among the first `n` of `data` whose key is `k`, each paired
      with its original index, in their original order. */
  function KeyedItems<T, K(==)>(data: seq<T>, key: T -> K, k: K, n: nat): (items: seq<(T, nat)>)
    requires n <= |data|
    ensures |items| <= n
    ensures forall j :: 0 <= j < |items| ==> items[j].1 < n && key(items[j].0) == k
  {
    if n == 0 then []
    else KeyedItems(data, key, k, n - 1) + (if key(data[n - 1]) == k then [(data[n - 1], n - 1)] else [])
  }

  /** The items themselves, without their indices. */
  function Firsts<T>(items: seq<(T, nat)>): (r: seq<T>)
    ensures |r| == |items|
    ensures forall j :: 0 <= j < |items| ==> r[j] == items[j].0
  {
    if |items| == 0 then [] else Firsts(items[..|items| - 1]) + [items[|items| - 1].0]
  }

  /** A left fold over indexed items, as `Array.prototype.reduce` performs it. */
  function FoldItems<T, R>(items: seq<(T, nat)>, reducer: (R, T, nat) -> R, init: R): R
  {
    if |items| == 0 then init
    else reducer(FoldItems(items[..|items| - 1], reducer, init), items[|items| - 1].0, items[|items| - 1].1)
  }

  /** The keys of the first `n` items. */
  function KeysOf<T, K>(data: seq<T>, key: T -> K, n: nat): set<K>
    requires n <= |data|
  {
    set j | 0 <= j < n :: key(data[j])
  }

  /** The accumulator of `groupBy`'s `reduce` after the first `n` items: an
      item's key is looked up, the reducer is applied to the value already
      stored there (or to `init` when there is none) and the result stored back. */
  function GroupPrefix<T, K(==), R>(data: seq<T>, key: T -> K, reducer: (R, T, nat) -> R, init: R, n: nat): map<K, R>
    requires n <= |data|
  {
    if n == 0 then map[]
    else
      var acc := GroupPrefix(data, key, reducer, init, n - 1);
      var k := key(data[n - 1]);
      acc[k := reducer(if k in acc then acc[k] else init, data[n - 1], n - 1)]
  }

  lemma {:induction false} KeyedItemsEmpty<T, K>(data: seq<T>, key: T -> K, k: K, n: nat)
    requires n <= |data|
    ensures |KeyedItems(data, key, k, n)| == 0 <==> k !in KeysOf(data, key, n)
  {
    if n > 0 {
      KeyedItemsEmpty(data, key, k, n - 1);
      assert KeysOf(data, key, n) == KeysOf(data, key, n - 1) + {key(data[n - 1])};
    }
  }

  lemma {:induction false} GroupPrefixKeys<T, K, R>(data: seq<T>, key: T -> K, reducer: (R, T, nat) -> R, init: R, n: nat)
    requires n <= |data|
    ensures GroupPrefix(data, key, reducer, init, n).Keys == KeysOf(data, key, n)
  {
    if n > 0 {
      GroupPrefixKeys(data, key, reducer, init, n - 1);
      assert KeysOf(data, key, n) == KeysOf(data, key, n - 1) + {key(data[n - 1])};
    }
  }

  lemma {:induction false} GroupPrefixAt<T, K, R>(data: seq<T>, key: T -> K, reducer: (R, T, nat) -> R, init: R, n: nat, k: K)
    requires n <= |data|
    requires k in GroupPrefix(data, key, reducer, init, n)
    ensures GroupPrefix(data, key, reducer, init, n)[k] == FoldItems(KeyedItems(data, key, k, n), reducer, init)
  {
    var acc := GroupPrefix(data, key, reducer, init, n - 1);
    if key(data[n - 1]) == k {
      var prev := KeyedItems(data, key, k, n - 1);
      var items := KeyedItems(data, key, k, n);
      assert items == prev + [(data[n - 1], n - 1)];
      assert items[..|items| - 1] == prev;
      if k in acc {
        GroupPrefixAt(data, key, reducer, init, n - 1, k);
      } else {
        GroupPrefixKeys(data, key, reducer, init, n - 1);
        KeyedItemsEmpty(data, key, k, n - 1);
      }
    } else {
      assert KeyedItems(data, key, k, n) == KeyedItems(data, key, k, n - 1);
      GroupPrefixAt(data, key, reducer, init, n - 1, k);
    }
  }

  lemma GroupPrefixSpec<T, K, R>(data: seq<T>, key: T -> K, reducer: (R, T, nat) -> R, init: R, n: nat)
    requires n <= |data|
    ensures GroupPrefix(data, key, reducer, init, n).Keys == KeysOf(data, key, n)
    ensures forall k :: k in GroupPrefix(data, key, reducer, init, n) ==>
      GroupPrefix(data, key, reducer, init, n)[k] == FoldItems(KeyedItems(data, key, k, n), reducer, init)
  {
    GroupPrefixKeys(data, key, reducer, init, n);
    forall k | k in GroupPrefix(data, key, reducer, init, n)
      ensures GroupPrefix(data, key, reducer, init, n)[k] == FoldItems(KeyedItems(data, key, k, n), reducer, init)
    {
      GroupPrefixAt(data, key, reducer, init, n, k);
    }
  }

  /** `groupBy(data, keySelector, reducer, initialValue)`: every key of the
      data maps to the left fold of its own items, in order, starting from
      `init` and given each item's original index. */
  function GroupByFold<T, K(==), R>(data: seq<T>, key: T -> K, reducer: (R, T, nat) -> R, init: R): (r: map<K, R>)
    ensures r.Keys == KeysOf(data, key, |data|)
    ensures forall k :: k in r ==> r[k] == FoldItems(KeyedItems(data, key, k, |data|), reducer, init)
  {
    GroupPrefixSpec(data, key, reducer, init, |data|);
    GroupPrefix(data, key, reducer, init, |data|)
  }

  /** The reducer the list overload installs: append the item. */
  function Append<T>(acc: seq<T>, x: T, i: nat): seq<T>
  {
    acc + [x]
  }

  lemma {:induction false} FoldAppendIsFirsts<T>(items: seq<(T, nat)>)
    ensures FoldItems(items, Append, []) == Firsts(items)
  {
    if |items| > 0 {
      FoldAppendIsFirsts(items[..|items| - 1]);
    }
  }

  /** `groupBy(data, keySelector)`: every key maps to the subsequence of the
      items carrying that key, in their original order (each key owning a
      fresh list). */
  function GroupByList<T, K(==)>(data: seq<T>, key: T -> K): (r: map<K, seq<T>>)
    ensures r.Keys == KeysOf(data, key, |data|)
    ensures forall k :: k in r ==> r[k] == Firsts(KeyedItems(data, key, k, |data|))
  {
    var r := GroupByFold(data, key, Append, []);
    forall k | k in r
      ensures r[k] == Firsts(KeyedItems(data, key, k, |data|))
    {
      FoldAppendIsFirsts(KeyedItems(data, key, k, |data|));
    }
    r
  }

  /** The outcome of the general `groupBy`: lists of items, or folded values. */
  datatype Grouping<K, T, R> = Lists(lists: map<K, seq<T>>) | Folded(folded: map<K, R>)

  // ---------------------------------------------------------------------
  // The list overload as it is written: `initialValue = []` is ONE array,
  // the reducer pushes into the array it is handed and returns it, and
  // every key seen for the first time is handed that same array.

  /** A heap of arrays; a key's entry is a reference (an index into `heap`). */
  datatype AliasState<K, T> = AliasState(refs: map<K, nat>, heap: seq<seq<T>>)

  function AliasedPrefix<T, K(==)>(data: seq<T>, key: T -> K, n: nat): (st: AliasState<K, T>)
    requires n <= |data|
    ensures |st.heap| == 1
    ensures forall k :: k in st.refs ==> st.refs[k] == 0
  {
    if n == 0 then AliasState(map[], [[]])
    else
      var st := AliasedPrefix(data, key, n - 1);
      var k := key(data[n - 1]);
      var ref := if k in st.refs then st.refs[k] else 0;
      AliasState(st.refs[k := ref], st.heap[ref := st.heap[ref] + [data[n - 1]]])
  }

  function GroupByListAsWritten<T, K(==)>(data: seq<T>, key: T -> K): map<K, seq<T>>
  {
    var st := AliasedPrefix(data, key, |data|);
    map k | k in st.refs :: st.heap[st.refs[k]]
  }

  lemma {:induction false} AliasedPrefixHoldsAll<T, K>(data: seq<T>, key: T -> K, n: nat)
    requires n <= |data|
    ensures AliasedPrefix(data, key, n).heap[0] == data[..n]
    ensures AliasedPrefix(data, key, n).refs.Keys == KeysOf(data, key, n)
  {
    if n > 0 {
      AliasedPrefixHoldsAll(data, key, n - 1);
      assert data[..n] == data[..n - 1] + [data[n - 1]];
      assert KeysOf(data, key, n) == KeysOf(data, key, n - 1) + {key(data[n - 1])};
    }
  }

  /** As written, every key of the list overload ends up bound to the whole input. */
  lemma GroupByListAsWrittenSharesOneList<T, K>(data: seq<T>, key: T -> K)
    ensures GroupByListAsWritten(data, key).Keys == KeysOf(data, key, |data|)
    ensures forall k :: k in GroupByListAsWritten(data, key) ==> GroupByListAsWritten(data, key)[k] == data
  {
    AliasedPrefixHoldsAll(data, key, |data|);
    assert data[..|data|] == data;
  }

  /** `groupBy` with its optional arguments, as written: without a reducer, or
      with an undefined initial value, it falls back to the list overload,
      whose keys all share the one initial array and so all hold the whole
      input (`GroupByList` is the grouping that overload is meant to give). */
  function GroupBy<T, K(==), R>(data: seq<T>, key: T -> K, reducer: Option<(R, T, nat) -> R>, initialValue: Option<R>)
    : (r: Grouping<K, T, R>)
    ensures r.Lists? <==> reducer.None? || initialValue.None?
    ensures r.Lists? ==> r.lists.Keys == KeysOf(data, key, |data|)
    ensures r.Lists? ==> forall k :: k in r.lists ==> r.lists[k] == data
    ensures r.Folded? ==> r.folded.Keys == KeysOf(data, key, |data|)
    ensures r.Folded? ==> forall k :: k in r.folded ==>
      r.folded[k] == FoldItems(KeyedItems(data, key, k, |data|), reducer.value, initialValue.value)
  {
    if reducer.None? || initialValue.None? then
      GroupByListAsWrittenSharesOneList(data, key);
      Lists(GroupByListAsWritten(data, key))
    else Folded(GroupByFold(data, key, reducer.value, initialValue.value))
  }

  /** Grouping "ab" by letter: as written both keys hold "ab"; intended is "a" and "b". */
  lemma GroupByListAliasingExample()
    ensures 'a' in GroupByListAsWritten("ab", (c: char) => c) && GroupByListAsWritten("ab", (c: char) => c)['a'] == "ab"
    ensures 'a' in GroupByList("ab", (c: char) => c) && GroupByList("ab", (c: char) => c)['a'] == "a"
  {
    var id := (c: char) => c;
    GroupByListAsWrittenSharesOneList("ab", id);
    assert id("ab"[0]) == 'a';
    assert 'a' in KeysOf("ab", id, 2);
    var items := KeyedItems("ab", id, 'a', 2);
    assert KeyedItems("ab", id, 'a', 1) == [('a', 0)];
    assert items == [('a', 0)];
  }

  // ---------------------------------------------------------------------
  // counts and letterCounts

  function Increment<T>(acc: nat, x: T, i: nat): nat
  {
    acc + 1
  }

  lemma {:induction false} FoldIncrementIsLength<T>(items: seq<(T, nat)>)
    ensures FoldItems(items, Increment, 0) == |items|
  {
    if |items| > 0 {
      FoldIncrementIsLength(items[..|items| - 1]);
    }
  }

  /** `counts(data, keySelector)`: every key maps to the number of items carrying it. */
  function Counts<T, K(==)>(data: seq<T>, key: T -> K): (r: map<K, nat>)
    ensures r.Keys == KeysOf(data, key, |data|)
    ensures forall k :: k in r ==> r[k] == |KeyedItems(data, key, k, |data|)|
  {
    var r := GroupByFold(data, key, Increment, 0);
    forall k | k in r
      ensures r[k] == |KeyedItems(data, key, k, |data|)|
    {
      FoldIncrementIsLength(KeyedItems(data, key, k, |data|));
    }
    r
  }

  lemma {:induction false} KeyedItemsByIdentityCount(s: Word, c: char, n: nat)
    requires n <= |s|
    ensures |KeyedItems(s, (x: char) => x, c, n)| == Count(s[..n], c)
  {
    if n > 0 {
      KeyedItemsByIdentityCount(s, c, n - 1);
      CountPrefixStep(s, n - 1, c);
    }
  }

  /** `letterCounts(str)`: the keys are exactly the characters of `str`, and
      each maps to its number of occurrences. */
  function LetterCounts(s: Word): (r: map<char, nat>)
    ensures forall c :: c in r <==> c in s
    ensures forall c :: c in r ==> r[c] == Count(s, c)
  {
    var id := (x: char) => x;
    var r := Counts(s, id);
    forall c
      ensures c in r <==> c in s
      ensures c in r ==> r[c] == Count(s, c)
    {
      KeyedItemsByIdentityCount(s, c, |s|);
      CountWhole(s, c);
      KeyedItemsEmpty(s, id, c, |s|);
    }
    r
  }

  // ---------------------------------------------------------------------
  // The values of `counts` add up to the number of items.

  ghost function SumOver<K>(m: map<K, int>, ks: set<K>): int
    requires ks <= m.Keys
    decreases ks
  {
    if ks == {} then 0 else var k :| k in ks; m[k] + SumOver(m, ks - {k})
  }

  lemma {:induction false} SumOverRemove<K>(m: map<K, int>, ks: set<K>, x: K)
    requires ks <= m.Keys && x in ks
    ensures SumOver(m, ks) == m[x] + SumOver(m, ks - {x})
    decreases ks
  {
    var k :| k in ks && SumOver(m, ks) == m[k] + SumOver(m, ks - {k});
    if k != x {
      SumOverRemove(m, ks - {k}, x);
      SumOverRemove(m, ks - {x}, k);
      assert ks - {k} - {x} == ks - {x} - {k};
    }
  }

  lemma {:induction false} SumOverAgree<K>(m1: map<K, int>, m2: map<K, int>, ks: set<K>)
    requires ks <= m1.Keys && ks <= m2.Keys
    requires forall k :: k in ks ==> m1[k] == m2[k]
    ensures SumOver(m1, ks) == SumOver(m2, ks)
    decreases ks
  {
    if ks != {} {
      var x :| x in ks;
      SumOverRemove(m1, ks, x);
      SumOverRemove(m2, ks, x);
      SumOverAgree(m1, m2, ks - {x});
    }
  }

  lemma {:induction false} CountsPrefixSum<T, K>(data: seq<T>, key: T -> K, n: nat)
    requires n <= |data|
    ensures GroupPrefix(data, key, Increment, 0, n).Keys == KeysOf(data, key, n)
    ensures SumOver(GroupPrefix(data, key, Increment, 0, n), KeysOf(data, key, n)) == n
  {
    GroupPrefixKeys(data, key, Increment, 0, n);
    if n > 0 {
      CountsPrefixSum(data, key, n - 1);
      var m := GroupPrefix(data, key, Increment, 0, n - 1);
      var m' := GroupPrefix(data, key, Increment, 0, n);
      var ks := KeysOf(data, key, n - 1);
      var k := key(data[n - 1]);
      assert KeysOf(data, key, n) == ks + {k};
      if k in ks {
        assert m'[k] == m[k] + 1;
        assert KeysOf(data, key, n) == ks;
        SumOverRemove(m', ks, k);
        SumOverRemove(m, ks, k);
        SumOverAgree(m, m', ks - {k});
        assert SumOver(m', ks) == 1 + SumOver(m, ks);
      } else {
        assert m'[k] == 1;
        SumOverRemove(m', ks + {k}, k);
        assert ks + {k} - {k} == ks;
        SumOverAgree(m, m', ks);
      }
    }
  }

  /** The values of `counts(data, keySelector)` add up to the length of `data`. */
  lemma CountsSumToLength<T, K>(data: seq<T>, key: T -> K)
    ensures Counts(data, key).Keys == KeysOf(data, key, |data|)
    ensures SumOver(Counts(data, key), KeysOf(data, key, |data|)) == |data|
  {
    CountsPrefixSum(data, key, |data|);
  }
}

=== FILE: words.dfy ===
/**
 * Words, letter statuses and occurrence counting shared by every part of the engine.
 * A word is a sequence of characters, one per letter. A Dafny `char` is a
 * Unicode scalar value, so the model does not separate the code units a
 * JavaScript string is indexed by from the code points its iteration yields;
 * the two agree for the lower-case letters the word lists hold.
 */
module Words {

  type Word = seq<char>

  /** The colour of one tile of feedback. The older engines call these
      WrongPosition and NotPresent; they are the same three outcomes. */
  datatype LetterStatus = Correct | Present | Absent

  /** Number of occurrences of `x` in `s`. */
  function Count<T(==)>(s: seq<T>, x: T): nat
  {
    multiset(s)[x]
  }

  /** The characters that JavaScript's `.` refuses to match. */
  predicate IsLineTerminator(c: char)
  {
    c == '\n' || c == '\r' || c == '\U{2028}' || c == '\U{2029}'
  }

  predicate NoLineTerminators(w: Word)
  {
    forall i :: 0 <= i < |w| ==> !IsLineTerminator(w[i])
  }

  /** The allowed guesses and the possible answers, the two word lists every
      engine loads; `allWords` is their union. */
  datatype Config = Config(validWords: set<Word>, answerWords: set<Word>)
  {
    function AllWords(): set<Word> { validWords + answerWords }
  }

  /** Every word of `words` has length `n`. */
  predicate UniformLength(words: set<Word>, n: nat)
  {
    forall w :: w in words ==> |w| == n
  }

  lemma CountPrefixStep<T>(s: seq<T>, n: nat, x: T)
    requires n < |s|
    ensures Count(s[..n+1], x) == Count(s[..n], x) + (if s[n] == x then 1 else 0)
  {
    assert s[..n+1] == s[..n] + [s[n]];
  }

  lemma CountWhole<T>(s: seq<T>, x: T)
    ensures Count(s[..|s|], x) == Count(s, x)
  {
    assert s[..|s|] == s;
  }

  lemma CountConsSplit<T>(s: seq<T>, k: nat, x: T)
    requires k < |s|
    ensures Count(s, x) == Count(s[..k], x) + (if s[k] == x then 1 else 0) + Count(s[k+1..], x)
  {
    assert s == s[..k] + [s[k]] + s[k+1..];
  }
}

=== FILE: wrappers.dfy ===
/** Option and Result: the model's stand-ins for `undefined` and for thrown errors. */
module Wrappers {

  datatype Option<+T> = None | Some(value: T) {
    function GetOr(default: T): T {
      match this
      case Some(v) => v
      case None => default
    }
  }

  datatype Result<+R, +E> = Success(value: R) | Failure(error: E)
}
